=== FILE: README.md ===
# albot in Dafny

albot is a Telegram bot for real-estate lead generation. An agent uploads a
contact list, the bot generates or edits a qualification script, talks to
leads, scores their answers and pushes hot leads to the agent; trials,
subscriptions, branding, A/B tests, monitoring and health checks surround
that loop. This project models the decision logic of that core as pure
Dafny functions over immutable data and proves what the code promises
about it.

Time is integer seconds and `timedelta.days` is floor division by 86400.
Database tables are maps or sequences held in the model's state. Python's
salted `hash()`, the clock and every database or network answer are
parameters. Rates and thresholds use exact `real` arithmetic. Python's
IEEE floats can differ right at a boundary: for example `int(0.29 * 100)`
is 28 in Python but 29 here.

One module per source file:

| module | source |
|---|---|
| `Wrappers` | `Option`/`Result`, standing in for `None` and raised exceptions |
| `Text` | the string built-ins the code uses: `strip`, `lower`, `in`, `count`, `split`, `join`, `re.sub(r"\D+", "", s)`, `str(n)`, `int(s)`, `s[:n]` |
| `Models` | `albot/src/models.py` |
| `Scoring` | `albot/src/scoring.py` |
| `ScriptTemplates` | `albot/src/script_templates.py` |
| `ScriptGenerator` | the rule-based script generator of `albot/mini_app/server.py` |
| `ScriptEditor` | the script-editing handlers of `albot/src/bot.py` |
| `HotValues` | reading a question's hot values from a message in `albot/src/bot.py` |
| `ABTesting` | `albot/src/ab_testing.py` |
| `Billing` | `albot/src/billing.py` |
| `SimpleBilling` | `albot/src/simple_billing.py` |
| `Branding` | `albot/src/branding.py` |
| `Commercial` | `albot/src/commercial.py` |
| `UserRoles` | `albot/src/user_roles.py` |
| `Utils` | `albot/src/utils.py` |
| `HotLeads` | `albot/src/hot_leads.py` |
| `Parsing` | `albot/src/parsing.py` |
| `ErrorHandler` | `albot/src/error_handler.py` |
| `HealthChecker` | `albot/src/health_checker.py` |
| `Monitoring` | `albot/src/monitoring.py` |
| `Analytics` | `albot/src/analytics.py` |
| `Commands` | `albot/src/commands.py` |

## Model

| member | source | states |
|---|---|---|
| ABTesting.Rate | albot/src/ab_testing.py:209-219 | A variant's rate is 0 without leads; otherwise rate × leads = conversions, and the rate is never negative |
| ABTesting.Recalculate | albot/src/ab_testing.py:205-219 | Both stored rates agree with their counters afterwards; counters and every other field are unchanged; a consistent test is left as it is |
| ABTesting.CreateTest | albot/src/ab_testing.py:62-82 | The new test is stored under `test_<now>` as a DRAFT with zero counters and the given scripts and split; no other test changes |
| ABTesting.StartTest | albot/src/ab_testing.py:87-99 | Succeeds iff the test exists; it becomes ACTIVE with `started_at` overwritten, whatever its earlier status, every other field and every other test unchanged; a missing test leaves the store unchanged |
| ABTesting.PauseTest | albot/src/ab_testing.py:105-114 | Succeeds iff the test exists; only its status changes, to PAUSED, and no other test changes |
| ABTesting.CompleteTest | albot/src/ab_testing.py:120-131 | Succeeds iff the test exists; it becomes COMPLETED with `ended_at` set, every other field and every other test unchanged |
| ABTesting.LifecycleKeepsMetrics | albot/src/ab_testing.py:87-131 | Start, pause and complete keep every stored rate consistent, and a completed test can be started again |
| ABTesting.RecordLead | albot/src/ab_testing.py:181-199 | Succeeds iff the test exists; variant "A" or "B" gains exactly one lead, conversions stay; the rates are recomputed; other tests are untouched |
| ABTesting.RecordConversion | albot/src/ab_testing.py:157-175 | Succeeds iff the test exists; variant "A" or "B" gains exactly one conversion and leads stay; the rates are recomputed; other tests are untouched |
| ABTesting.OtherVariantChangesNothing | albot/src/ab_testing.py:165-168 | Any variant other than "A" or "B" still reports success but changes nothing in a consistent test |
| ABTesting.RecordingKeepsConsistency | albot/src/ab_testing.py:157-219 | Recording a lead or a conversion keeps every test's stored rates consistent with its counters |
| ABTesting.ConversionsMayExceedLeads | albot/src/ab_testing.py:157-168 | Conversions are counted without checking leads, so a fresh test can show a conversion with no lead |
| ABTesting.Trunc | albot/src/ab_testing.py:146 | Python's `int()` on a float truncates toward zero |
| ABTesting.ScriptForLead | albot/src/ab_testing.py:137-155 | A missing test gives `None` because the attribute access raises and is caught. An inactive test gives script A. An active test gives A iff `hash(lead) % 100 < int(split × 100)` |
| ABTesting.SplitExtremes | albot/src/ab_testing.py:145-151 | A split of 1 or more sends every lead to A, and a split of 0 or less sends every lead to B, for any hash |
| ABTesting.SplitMonotone | albot/src/ab_testing.py:145-151 | Raising the split never moves a lead from A to B |
| ABTesting.BucketsForA | albot/src/ab_testing.py:145-148 | A bucket goes to A iff the whole bucket lies below `split × 100` |
| ABTesting.CalculateSignificance | albot/src/ab_testing.py:264-295 | Significant iff both sides have at least 30 leads, more than 50 leads each, and rates more than 0.05 apart; confidence 0.95 exactly when significant |
| ABTesting.SignificanceNeedsFiftyOne | albot/src/ab_testing.py:269-284 | The 30-lead guard is dominated: significance needs more than 50 leads on both sides |
| ABTesting.EqualRatesNotSignificant | albot/src/ab_testing.py:281-284 | Equal rates are never significant |
| ABTesting.SignificanceSymmetric | albot/src/ab_testing.py:264-295 | The rule does not depend on which variant is called A |
| ABTesting.Winner | albot/src/ab_testing.py:240-246 | A winner only when significant: the variant with the strictly higher stored rate; a tie has none |
| ABTesting.Recommendation | albot/src/ab_testing.py:304-314 | "Not enough data" iff not significant; otherwise "use A" / "use B" for the winner, "no difference" without one |
| ABTesting.AnalyzeTest | albot/src/ab_testing.py:224-262 | A missing test fails; otherwise significance comes from the counters and the winner from the stored rates, a winner implies significance, confidence is 0.95 iff significant, the performances are the stored counters, and the recommendation is the one chosen from the winner and the significance: "Not enough data" iff not significant, "use A" / "use B" iff that variant won |
| ABTesting.WinnerFromCounters | albot/src/ab_testing.py:224-259 | With consistent rates, A wins iff the test is significant and A's counters give the higher rate |
| ABTesting.FreshTestInconclusive | albot/src/ab_testing.py:62-82 | A freshly created test has no winner and recommends continuing |
| Billing.CreateTrial | albot/src/billing.py:69-86 | A new trial: TRIAL tier and status, trial from now to now + trial days, the configured allowance, nothing used, not read-only |
| Billing.CheckTrialExpired | albot/src/billing.py:88-103 | Only a TRIAL whose end lies strictly in the past expires; it becomes EXPIRED and read-only and the answer is true; anything else is returned unchanged with false |
| Billing.OpenEndedTrialNeverExpires | albot/src/billing.py:93 | A trial without an end date never expires |
| Billing.ExpiryIdempotent | albot/src/billing.py:88-103 | After an expiry, checking again at any time reports nothing and changes nothing |
| Billing.FreshTrialExpiry | albot/src/billing.py:69-103 | A fresh trial expires exactly when the clock passes its configured length |
| Billing.CheckDialogLimit | albot/src/billing.py:105-117 | Read-only always blocks; a trial blocks once its allowance is used; a paid plan blocks only with a positive limit that has been reached |
| Billing.ExpiredTrialBlocked | albot/src/billing.py:88-111 | An expired trial is blocked whatever its counters say |
| Billing.PositiveLimitGate | albot/src/billing.py:105-117 | Outside read-only, trials and paid plans with a positive limit block on the same condition |
| Billing.FreshTrialOpen | albot/src/billing.py:69-111 | A fresh trial admits a dialog iff its allowance is positive |
| Billing.Price | albot/src/billing.py:130-139 | No price for TRIAL; 9900, 19900 and 39900 roubles for BASIC, PRO, ENTERPRISE |
| Billing.CreatePaymentLink | albot/src/billing.py:128-148 | A trial never gets a link; a link only comes from the YooMoney provider, asked for the tier's price; the other providers give none |
| Billing.DialogLimit | albot/src/billing.py:195-208 | 100, 300, 500 dialogs for BASIC, PRO, ENTERPRISE, and 100 for a tier outside the table |
| Billing.DialogLimitMonotone | albot/src/billing.py:195-199 | Higher tiers get strictly larger allowances, never below 100 |
| Billing.Activated | albot/src/billing.py:188-210 | An ACTIVE subscription of the tier for thirty days, nothing used, the tier's limit, not read-only, no trial dates or custom branding |
| Billing.ActivateSubscription | albot/src/billing.py:188-213 | The user's record is replaced by the activated one; every other user is untouched |
| Billing.ActivationOpensGate | albot/src/billing.py:88-117 | An activated subscription admits a dialog and never expires as a trial |
| Billing.CancelSubscription | albot/src/billing.py:219-225 | Only the user's status changes, to CANCELLED |
| Billing.IncrementDialogCount | albot/src/billing.py:119-123 | Only the user's dialog counter changes, by one |
| Billing.IncrementsReachLimit | albot/src/billing.py:105-123 | A trial with `k` dialogs left is open before and blocked after `k` increments |
| Billing.IncrementTimes | albot/src/billing.py:119-123 | `k` increments add `k` to the user's counter and keep the users |
| Billing.IncrementTimesShift | albot/src/billing.py:119-123 | One increment followed by `k - 1` more is `k` increments |
| Billing.DaysLeft | albot/src/billing.py:235 | The remaining whole days are the floor of the remaining time: `d` days ≤ remaining < `d + 1` days |
| Billing.DaysLeftUnique | albot/src/billing.py:235 | That day count is unique |
| Billing.GetTrialInfo | albot/src/billing.py:230-238 | Not a trial: "Trial не активен"; a trial without an end date fails (TypeError); otherwise the days left and the dialogs left |
| Billing.TrialInfoNineDaysAhead | albot/src/billing.py:230-238 | A trial ending in just under nine days, with 30 of 50 dialogs used, reads "Trial: 8 дней, 20 диалогов" |
| Billing.GetSubscriptionInfo | albot/src/billing.py:240-251 | The read-only notice comes first; then the trial info, "Подписка <tier> активна", the expired notice or the inactive notice by status |
| Billing.ExpiredTrialInfo | albot/src/billing.py:240-243 | Once a trial has expired its info is the read-only notice at any later time |
| Billing.GetBotName | albot/src/billing.py:253-258 | Trials and read-only subscriptions are named "AL Bot"; otherwise a non-empty custom name, else "AL Bot" |
| Billing.GetBotLogo | albot/src/billing.py:260-265 | No logo for trials and read-only subscriptions; otherwise the custom logo |
| Billing.BrandingAfterTransitions | albot/src/billing.py:253-265 | Expiry takes custom branding away; activation starts from the default name and no logo |
| SimpleBilling.TierLimit | albot/src/simple_billing.py:55-60 | The dialog limits per tier: 50 for trial, 100 basic, 300 pro, 1000 enterprise |
| SimpleBilling.LimitsAgainstBilling | albot/src/simple_billing.py:55-60 | The manual manager's allowances match billing.py on BASIC and PRO and are twice billing.py's on ENTERPRISE |
| SimpleBilling.CreateTrialSubscription | albot/src/simple_billing.py:94-114 | A trial of fourteen days and fifty dialogs, not read-only, stored under the user's id |
| SimpleBilling.RequestSubscription | albot/src/simple_billing.py:119-141 | A PENDING plan of the requested tier with that tier's allowance and a thirty-day expiry replaces the user's entry; other users are untouched |
| SimpleBilling.ActivateSubscription | albot/src/simple_billing.py:147-162 | A stored subscription becomes ACTIVE with the tier's allowance and a new thirty-day expiry, keeping its dialog count; an unknown user gets false and nothing changes |
| SimpleBilling.CheckDialogLimit | albot/src/simple_billing.py:168-175 | A user without a subscription is blocked; otherwise blocked exactly when the dialogs used reach the allowance |
| SimpleBilling.IncrementDialogCount | albot/src/simple_billing.py:181-190 | One more dialog for a stored user and nothing else changed; an unknown user gets false |
| SimpleBilling.CheckTrialExpired | albot/src/simple_billing.py:275-289 | Only a stored TRIAL past its end date becomes EXPIRED and read-only; anything else is left as it is |
| SimpleBilling.IncrementKeepsBlock | albot/src/simple_billing.py:168-190 | A blocked user stays blocked after an increment |
| SimpleBilling.ActivationKeepsUsage | albot/src/simple_billing.py:147-175 | After activation the gate compares the dialogs already used with the new tier's allowance |
| SimpleBilling.RequestThenActivate | albot/src/simple_billing.py:119-175 | A requested and then activated plan starts with an open gate |
| SimpleBilling.ExpiredTrialNotBlocked | albot/src/simple_billing.py:168-175 | An expired, read-only trial with dialogs left still passes this manager's gate |
| SimpleBilling.TrialExhaustion | albot/src/simple_billing.py:94-190 | A fresh trial is blocked after fifty increments and not before |
| SimpleBilling.IncrementTimesCount | albot/src/simple_billing.py:181-190 | k increments add k to the stored count and change no other field |
| SimpleBilling.UpperValue | albot/src/simple_billing.py:203-205 | The upper-cased tier name lower-cases back to the tier's value |
| SimpleBilling.GetSubscriptionInfo | albot/src/simple_billing.py:196-207 | Trial days and usage, the active tier and usage, the pending tier, and "Подписка неактивна" exactly for expired or cancelled plans |
| Branding.GetBotBranding | albot/src/branding.py:24-55 | No subscription, a trial or a read-only plan gets the fixed branding; a paid plan its non-empty custom name (else "AL Bot") and its logo, with no welcome message or colours |
| Branding.BrandingAgreesWithBilling | albot/src/branding.py:24-41 | The branding manager shows the same name and logo as the billing manager |
| Branding.CanCustomizeBranding | albot/src/branding.py:57-62 | A customising subscription is a paid PRO or ENTERPRISE plan whose custom name, when set, is the name the bot shows |
| Branding.CanCustomizeName | albot/src/branding.py:64-66 | The name may be customised exactly by colour customisers and by unrestricted PRO plans |
| Branding.CanCustomizeLogo | albot/src/branding.py:68-70 | A subscription that may customise the logo is shown with its own logo |
| Branding.CanCustomizeColors | albot/src/branding.py:72-77 | Colours are a branding right held exactly by customisers that are not PRO |
| Branding.CustomizationRights | albot/src/branding.py:57-77 | Colour rights imply branding rights; name and logo rights are the branding right; only unrestricted PRO and ENTERPRISE plans customise, and of those only ENTERPRISE picks colours |
| Branding.ExpiryRevokesRights | albot/src/branding.py:57-77 | A trial that expires loses every customisation right and falls back to the fixed branding |
| Branding.GetBrandingRestrictions | albot/src/branding.py:79-88 | Trial message first, then read-only, then BASIC; "Персонализация доступна" exactly for unrestricted non-BASIC plans |
| Branding.RestrictionsMatchRights | albot/src/branding.py:57-88 | Whoever may customise is told so; the message and the right disagree exactly on an unrestricted plan of TRIAL tier |
| Commercial.UsagePercent | albot/src/commercial.py:116 | The usage percentage times the limit is a hundred times the dialogs used; 0 when the limit is not positive |
| Commercial.UsagePercentBounds | albot/src/commercial.py:116 | Within the allowance the percentage lies between 0 and 100 and reaches 100 exactly at the limit |
| Commercial.GetCommercialOffer | albot/src/commercial.py:55-118 | The trial offer exactly without a subscription, the upgrade offer exactly for TRIAL tier with whole days left, otherwise the current plan with its usage |
| Commercial.OfferTypes | albot/src/commercial.py:59-103 | The offer types are "trial", "upgrade" and "current_plan" in that order of cases |
| Commercial.FreshTrialUpgrade | albot/src/commercial.py:79-85 | A freshly created trial is offered an upgrade with its full number of trial days left |
| Commercial.MonthlyCost | albot/src/commercial.py:167-175 | TRIAL is free; BASIC, PRO and ENTERPRISE cost 9900, 19900 and 39900 |
| Commercial.CostMatchesPrice | albot/src/commercial.py:167-175 | The monthly costs are billing.py's prices, and free exactly for the tier without a price |
| Commercial.RoiPercent | albot/src/commercial.py:150 | The ROI is 0 for a free plan and positive exactly when revenue exceeds the cost |
| Commercial.GetRoiCalculation | albot/src/commercial.py:120-165 | No subscription and missing or empty metrics are told apart; otherwise the dialogs, hot leads and meetings are the metrics' counters (0 when absent), the cost is the tier's, and the plan pays off exactly when hot-lead revenue exceeds a positive cost |
| Commercial.TrialNeverPaysOff | albot/src/commercial.py:145-164 | A trial's ROI is 0 and never pays off, whatever the metrics |
| Commercial.HotLeadsPayOff | albot/src/commercial.py:145-164 | One hot lead pays off BASIC or PRO; ENTERPRISE pays off exactly from two |
| UserRoles.RoleFromValue | albot/src/user_roles.py:9-14 | A value names the role whose value it is, and an unknown value names none |
| UserRoles.RoleRoundTrip | albot/src/user_roles.py:9-14 | Every role is found again from its value |
| UserRoles.ViewsInEveryList | albot/src/user_roles.py:65-113 | Every role's list in `role_permissions` carries the view permissions of leads, scripts and analytics |
| UserRoles.AdminOnlyInAdminList | albot/src/user_roles.py:66-85 | ADMIN's list carries the delete, user, role and billing management permissions |
| UserRoles.AdminOnlyLists | albot/src/user_roles.py:86-112 | No list but ADMIN's carries a delete, user, role or billing management permission |
| UserRoles.ListsCarry | albot/src/user_roles.py:65-113 | For every role and permission: the view permissions are in the role's list, and an admin-only permission is in it exactly for ADMIN |
| UserRoles.CheckPermission | albot/src/user_roles.py:120-123 | Every role holds the VIEWER permissions, and the delete, user, role and billing management permissions are held exactly by ADMIN |
| UserRoles.AdminHoldsAll | albot/src/user_roles.py:66-85 | The administrator list has eighteen distinct entries and grants every permission |
| UserRoles.ViewerWithinAgent | albot/src/user_roles.py:101-112 | Everything a viewer may do an agent may do |
| UserRoles.AgentWithinManager | albot/src/user_roles.py:86-107 | Everything an agent may do a manager may do |
| UserRoles.PermissionsNested | albot/src/user_roles.py:65-123 | Viewer, agent, manager and administrator rights are strictly nested, each step adding a named permission |
| UserRoles.AdminOnlyPermissions | albot/src/user_roles.py:65-123 | Managing users, roles and billing and deleting leads or scripts are the administrator's alone |
| UserRoles.GetAvailableRoles | albot/src/user_roles.py:135-142 | ADMIN hands out exactly [MANAGER, AGENT, VIEWER] and MANAGER exactly [AGENT, VIEWER], in that order; no other role hands out anything, and nobody hands out ADMIN |
| UserRoles.AvailableMatchesManageable | albot/src/user_roles.py:135-151 | The assignable roles are exactly the manageable ones other than ADMIN, which only an administrator manages |
| UserRoles.CanManageUser | albot/src/user_roles.py:144-151 | A user manages another exactly when they are ADMIN, or MANAGER and the other is AGENT or VIEWER |
| UserRoles.ManagedHoldLess | albot/src/user_roles.py:135-151 | A role one can manage never holds a permission the manager lacks |
| UserRoles.GetUserRole | albot/src/user_roles.py:161-168 | A stored, known role value is returned; a missing user, field or unknown value gives AGENT |
| UserRoles.SetUserRole | albot/src/user_roles.py:170-182 | Stored exactly when the assigner's role may manage the new role; a refusal writes nothing |
| UserRoles.SetRoleReadsBack | albot/src/user_roles.py:161-182 | An accepted assignment reads back as that role; an unknown assigner can assign nothing |
| UserRoles.OnlyAdminsPromote | albot/src/user_roles.py:144-182 | Only an administrator can make someone an administrator or a manager |
| UserRoles.CanAccessLead | albot/src/user_roles.py:200-228 | A missing lead is refused to all; otherwise only an agent is restricted, to the leads they created |
| UserRoles.OwnLeadsAccessible | albot/src/user_roles.py:200-228 | Everyone can open the leads they created |
| UserRoles.RoleManagement | albot/src/user_roles.py:252-271 | Only administrators get the role-management screen, listing MANAGER, AGENT and VIEWER |
| Utils.RuDigits | albot/src/utils.py:10-16 | An eleven-digit number starting with 8 and a ten-digit one starting with 9 get the country code 7; anything else is kept |
| Utils.NormalizePhone | albot/src/utils.py:6-17 | Empty exactly when the input has no digit; otherwise "+" and the digits with the Russian country-code rewrite |
| Utils.RuDigitsIdempotent | albot/src/utils.py:10-16 | Rewriting the country code twice changes nothing more |
| Utils.NormalizeIdempotent | albot/src/utils.py:6-17 | Normalising a normalised number gives it back |
| Utils.NormalizeDigitString | albot/src/utils.py:6-17 | A string of digits normalises to "+" and its rewritten digits |
| Utils.RussianSpellings | albot/src/utils.py:10-17 | "8…", "7…" and the bare ten digits of a mobile number all normalise to "+7…" |
| Utils.NormalizeByDigits | albot/src/utils.py:7-17 | The result depends only on the digits of the input |
| Utils.NormalizeSkipsNonDigits | albot/src/utils.py:7 | Punctuation before the number does not change the result |
| Utils.NormalizeIgnoresSeparators | albot/src/utils.py:6-17 | Non-digits anywhere inside the number, such as "(", ")", " " or "-", do not change the result |
| Text.DigitsAppend | albot/src/utils.py:7 | The digits of two strings one after the other are the digits of the first followed by the digits of the second |
| Text.DigitsSingle | albot/src/utils.py:7 | A single character is kept exactly when it is a digit |
| Utils.MaskPhone | albot/src/utils.py:20-24 | Fewer than six digits leave the input unmasked; otherwise "+", the first digit, "***" and the last four digits |
| Utils.MaskOfNormalized | albot/src/utils.py:6-24 | A Russian number in any spelling masks, once normalised, to "+7***" and its last four digits |
| Utils.MaskRussian | albot/src/utils.py:20-24 | A normalised eleven-digit Russian number masks to "+7***" and its last four digits |
| Utils.FirstAt | albot/src/utils.py:30 | The position of the first '@', where the address is split |
| Utils.MaskEmail | albot/src/utils.py:27-35 | No '@' leaves the input as is; an empty name fails as Python's IndexError; otherwise the name is masked to its first letter and "*" or first letter, "***" and last letter, followed by the domain |
| Utils.MaskEmailKeepsDomain | albot/src/utils.py:27-35 | Masking keeps everything from the first '@' on, and that '@' stays the first |
| Utils.FirstAtPrefix | albot/src/utils.py:30 | A prefix without '@' shifts the first '@' by its length |
| Utils.MaskShortNameStable | albot/src/utils.py:31-35 | Masking again an address whose name was at most two characters gives the same result |
| HotLeads.FirstWhere | albot/src/hot_leads.py:75-78 | The first position whose element satisfies the test, or none when no element does |
| HotLeads.ExtractPhone | albot/src/hot_leads.py:73-78 | The value of the first answer whose question id mentions "phone" or "телефон" in any case, else "Не указан" |
| HotLeads.ExtractEmail | albot/src/hot_leads.py:80-85 | The value of the first answer whose question id mentions "email" or "почта", and nothing exactly when there is none |
| HotLeads.ExtractPhoneFirstWins | albot/src/hot_leads.py:75-77 | Answers after the first phone answer, and non-phone answers before it, do not change the phone |
| HotLeads.LeadName | albot/src/hot_leads.py:48 | The first answer's value names the contact, "Unknown" without answers |
| HotLeads.ProcessHotLead | albot/src/hot_leads.py:41-67 | The notification carries the lead's id, score, source, script and time, the user, and the extracted name, phone and e-mail |
| HotLeads.ProcessHotLeadAsWritten | albot/src/hot_leads.py:41-85 | Every lead with at least one answer fails, because the extractors call `get` on answer models |
| HotLeads.AsWrittenLosesAnsweredLeads | albot/src/hot_leads.py:41-85 | The code as written and the intended notification agree exactly on leads without answers |
| HotLeads.Clean | albot/src/hot_leads.py:144 | Removing "+", spaces, "-" and parentheses leaves none of them and never lengthens the string |
| HotLeads.CleanAppend | albot/src/hot_leads.py:144 | Cleaning distributes over concatenation |
| HotLeads.CleanOfPlain | albot/src/hot_leads.py:144 | A string without those characters is unchanged by cleaning |
| HotLeads.CleanPunct | albot/src/hot_leads.py:144 | A leading "+", space, "-" or parenthesis is removed |
| HotLeads.CleanPlain | albot/src/hot_leads.py:144 | A leading run without those characters is kept as it is |
| HotLeads.CleanGroups | albot/src/hot_leads.py:144 | " B-C-D" cleans to the three digit groups joined |
| HotLeads.FormatPhone | albot/src/hot_leads.py:138-150 | The placeholder for a missing phone; "+7 AAA BBB-CC-DD" for a cleaned eleven-digit 7… or ten-digit 9… number; anything else as given |
| HotLeads.CleanDisplay | albot/src/hot_leads.py:144-148 | The display of a ten-digit number cleans back to "7" and that number |
| HotLeads.FormatStable | albot/src/hot_leads.py:138-150 | Formatting a displayed number gives it back |
| HotLeads.FormatNormalized | albot/src/hot_leads.py:138-150 | A Russian number normalised by the contact helpers is displayed from its last ten digits |
| HotLeads.CleanNormalized | albot/src/hot_leads.py:144 | A normalised number cleans to its digits with the Russian country-code rewrite |
| Parsing.FormatOf | albot/src/parsing.py:48-62 | The lower-cased suffix selects CSV, Excel (.xlsx or .xls), PDF, DOCX or text; any other suffix raises "Unsupported file format" |
| Parsing.FormatIgnoresCase | albot/src/parsing.py:49 | The suffix's case does not matter |
| Parsing.TextData | albot/src/parsing.py:24-35 | A text-only result has no contacts and no advert, price or address |
| Parsing.ContentField | albot/src/parsing.py:89-96 | Content detection: phone for a digit-bearing value over five characters with "+" or two spaces, then e-mail on "@", then name for digit-free values over two characters; never comment |
| Parsing.CsvField | albot/src/parsing.py:77-96 | A phone column always wins; e-mail for an e-mail column or an "@" value; name for a name column that neither of those pre-empts, and name otherwise only through content detection; comment only on a comment column after the other column tests; otherwise content detection |
| Parsing.ExcelField | albot/src/parsing.py:118-125 | Excel detection: phone for a digit-bearing value over five characters, then e-mail on "@", then name |
| Parsing.ContentAgainstExcel | albot/src/parsing.py:89-125 | The two content detectors differ exactly on digit-bearing values over five characters with no "+" and fewer than two spaces |
| Parsing.Stored | albot/src/parsing.py:80-90 | A phone is stored normalised, anything else as read |
| Parsing.CellEntry | albot/src/parsing.py:75-76 | A cell is skipped exactly when its stripped text is empty or "nan"; otherwise its stripped value is stored under its field |
| Parsing.CellEntryGood | albot/src/parsing.py:75-96 | Every stored phone is normalised and every other stored value is stripped and not skipped |
| Parsing.KeyInjective | albot/src/parsing.py:80-96 | Different fields use different dictionary keys |
| Parsing.Fill | albot/src/parsing.py:73-96 | A row's dictionary uses only the five field keys and is empty exactly when every cell was skipped |
| Parsing.FillLastWins | albot/src/parsing.py:74-96 | A key is present exactly when some cell had that field, and holds the value of the last such cell |
| Parsing.FillKeeps | albot/src/parsing.py:73-96 | Whatever every cell entry satisfies, every stored value satisfies |
| Parsing.Entries | albot/src/parsing.py:74-76 | One entry per column, in column order |
| Parsing.RowContact | albot/src/parsing.py:72-96 | A row's contact uses only the five field keys |
| Parsing.RowContactBlank | albot/src/parsing.py:98-99 | A row yields no contact exactly when all its cells are blank or "nan" |
| Parsing.RowContactValues | albot/src/parsing.py:75-96 | A row's phone is normalised and its other values stripped and not blank |
| Parsing.RowContactLastWins | albot/src/parsing.py:74-96 | The last cell of a field decides the value stored for it |
| Parsing.PhoneColumn | albot/src/parsing.py:79-80 | Any value in a "phone" column is a phone |
| Parsing.KeptWithDigit | albot/src/parsing.py:76 | A value with a digit is never skipped |
| Parsing.PhoneColumnCell | albot/src/parsing.py:75-80 | A phone-column cell with a digit stores "+" and its rewritten digits |
| Parsing.TableEntries | albot/src/parsing.py:72-76 | One list of entries per row, in row order |
| Parsing.Contacts | albot/src/parsing.py:98-101 | Only non-empty dictionaries are kept, and all rows are kept exactly when none is empty |
| Parsing.ContactsKeep | albot/src/parsing.py:98-101 | Whatever every entry satisfies, every value of every kept contact satisfies |
| Parsing.ParseTable | albot/src/parsing.py:65-132 | A reader failure becomes "Error parsing CSV: " or "Error parsing Excel: " raw text; otherwise the contacts of the rows |
| Parsing.ParseTableDropsBlankRows | albot/src/parsing.py:98-101 | No more contacts than rows, and as many exactly when no row is blank |
| Parsing.ParsedPhonesNormal | albot/src/parsing.py:80-119 | Every phone in a parsed contact list is already normalised |
| Parsing.ParseText | albot/src/parsing.py:135-161 | PDF, DOCX and text files give their text and no contacts; a reader failure gives "Error parsing PDF: ", "Error parsing DOCX: " or "Error parsing text file: " followed by the message |
| Parsing.ParseFile | albot/src/parsing.py:38-62 | Fails exactly on an unsupported suffix; CSV and Excel go through the table parser; other formats give no contacts |
| Models.QuestionTypeFromValue | albot/src/models.py:10-15 | A value finds exactly the question type carrying it |
| Models.QuestionTypeAttr | albot/src/models.py:10-15 | An attribute name finds exactly the question type so named |
| Models.QuestionTypeValueIsNoAttr | albot/src/models.py:10-15 | No question-type value is also a member name, and every value finds its type again |
| Models.NewQuestion | albot/src/models.py:18-27 | The constructor accepts exactly weights within 0..50, defaulting to weight 10 and mandatory, and keeps the other fields |
| Models.LeadStatusFromValue | albot/src/models.py:45-51 | A value finds exactly the status carrying it |
| Models.LeadStatusAttr | albot/src/models.py:45-51 | An attribute name finds exactly the status so named |
| Models.LeadStatusValueIsNoAttr | albot/src/models.py:45-51 | No status value, "new" included, is also a member name |
| Models.NewLead | albot/src/models.py:60-71 | A new lead starts at score 0 with status "new", unassigned, with no calendar event or CRM id |
| Scoring.LookupQuestion | albot/src/scoring.py:16-18 | The question found has the id asked for, and none is found exactly when no question has it |
| Scoring.LookupLastWins | albot/src/scoring.py:16 | A later question with the same id overrides an earlier one |
| Scoring.LookupUnique | albot/src/scoring.py:16-18 | With unique ids the lookup finds each question itself |
| Scoring.Contribution | albot/src/scoring.py:17-25 | An answer adds nothing, or exactly the weight of the question it answers; it adds something exactly when its question is found, its normalised value equals one of the hot values, and the weight is positive |
| Scoring.Score | albot/src/scoring.py:14-25 | The accumulated total is never negative |
| Scoring.ScoreZero | albot/src/scoring.py:14-25 | The total is zero exactly when no answer adds anything |
| Scoring.StatusForScore | albot/src/scoring.py:28-33 | HOT exactly from 70, QUALIFIED exactly from 40 to 69, NEW exactly below 40 |
| Scoring.StatusBoundaries | albot/src/scoring.py:8-10 | 39 and 40, 69 and 70 fall on either side of the band limits |
| Scoring.ComputeLeadScore | albot/src/scoring.py:13-35 | The score is the accumulated score of the answers, so every Score lemma applies to it; it is never negative and the status follows its band, with the members spelled as declared |
| Scoring.ComputeLeadScoreAsWritten | albot/src/scoring.py:27 | Every call fails: `LeadStatus.new` is not an attribute |
| Scoring.ScoreAppend | albot/src/scoring.py:17-25 | The score of two answer lists one after the other is the sum of their scores |
| Scoring.ScoreSingle | albot/src/scoring.py:17-25 | One answer scores its contribution |
| Scoring.ScoreMonotone | albot/src/scoring.py:17-25 | More answers never lower the score |
| Scoring.ScorePermutation | albot/src/scoring.py:17-25 | The score depends only on the multiset of answers, not their order |
| Scoring.DuplicatesSum | albot/src/scoring.py:17-25 | A repeated answer counts once per occurrence |
| Scoring.UnknownAnswerAddsNothing | albot/src/scoring.py:18-20 | An answer to a question the script lacks adds nothing |
| Scoring.NoHotValuesAddsNothing | albot/src/scoring.py:22 | A question without hot values, or with an empty list, adds nothing |
| Scoring.MatchAddsWeight | albot/src/scoring.py:22-25 | An answer equal to a hot value after stripping and lower-casing adds the weight, floored at 0 |
| Scoring.MismatchAddsNothing | albot/src/scoring.py:22-25 | An answer matching none of its question's hot values adds nothing to the score |
| Scoring.EmptyAnswers | albot/src/scoring.py:13-35 | No answers score 0 and NEW |
| Scoring.HotAnswersIds | albot/src/scoring.py:16-20 | The all-hot answer list only answers questions of the script |
| Scoring.HotAnswersScore | albot/src/scoring.py:13-25 | With unique ids, answering every question with its first hot value scores the total hot weight |
| Scoring.ScoreOverExtendedScript | albot/src/scoring.py:16-20 | Adding a question whose id nobody answers leaves the all-hot score unchanged |
| Scoring.ScoreAgrees | albot/src/scoring.py:16-20 | Answers not naming a new question's id score the same once it is added |
| ScriptTemplates.PropertyTypeValueInjective | albot/src/script_templates.py:9-15 | Different property types have different values |
| ScriptTemplates.DefaultManagerRegistry | albot/src/script_templates.py:371-377 | The built-in registry holds exactly the four non-mixed types, each filed under its own type |
| ScriptTemplates.GetTemplate | albot/src/script_templates.py:379-381 | A template is found exactly for a registered type, and it is that type's template |
| ScriptTemplates.TemplateNames | albot/src/script_templates.py:387-392 | One entry per registered type, keyed by the type's value and giving the template's name |
| ScriptTemplates.DefaultTemplateNames | albot/src/script_templates.py:371-392 | The built-in names cover exactly the four non-mixed types |
| ScriptTemplates.CreateScriptFromTemplate | albot/src/script_templates.py:394-404 | Fails exactly without a template, with the text "No template found for property type: PropertyType.<NAME>"; otherwise the template's name, description, type and questions plus the creator and the template type |
| ScriptTemplates.CreateFromDefault | albot/src/script_templates.py:371-404 | From the built-in registry only MIXED fails, with the text naming "PropertyType.MIXED", and the script carries its type's value |
| ScriptTemplates.HotWeightIsSum | albot/src/script_templates.py:41-365 | When every question has hot values and a valid weight, the hot weight is the weight sum |
| ScriptTemplates.DistinctInitials | albot/src/script_templates.py:41-365 | Ids with pairwise different first letters are unique |
| ScriptTemplates.SumWeightsStep | albot/src/script_templates.py:41-365 | The weight sum of a prefix grows by the next question's weight |
| ScriptTemplates.SumWeightsSmall | albot/src/script_templates.py:41-365 | The weight sum of five or six questions written out |
| ScriptTemplates.NovostroykaShaped | albot/src/script_templates.py:41-113 | The new-building template has orders 1..n, unique ids, valid weights adding up to 100 and hot values on every question |
| ScriptTemplates.NovostroykaChoicesCoverHot | albot/src/script_templates.py:41-113 | Every hot value of its choice questions is one of the choices |
| ScriptTemplates.VtorichkaShaped | albot/src/script_templates.py:116-201 | The resale template has orders 1..n, unique ids, valid weights adding up to 100 and hot values on every question |
| ScriptTemplates.VtorichkaChoicesCoverHot | albot/src/script_templates.py:116-201 | Every hot value of its choice questions is one of the choices |
| ScriptTemplates.ArendaShaped | albot/src/script_templates.py:204-289 | The rental template has orders 1..n, unique ids, valid weights adding up to 100 and hot values on every question |
| ScriptTemplates.ArendaChoicesCoverHot | albot/src/script_templates.py:204-289 | Every hot value of its choice questions is one of the choices |
| ScriptTemplates.CommercialShaped | albot/src/script_templates.py:292-365 | The commercial template has orders 1..n, unique ids, valid weights adding up to 100 and hot values on every question |
| ScriptTemplates.CommercialChoicesCoverHot | albot/src/script_templates.py:292-365 | Every hot value of its choice questions is one of the choices |
| ScriptTemplates.TemplatesWellFormed | albot/src/script_templates.py:371-377 | Every registered template is well formed |
| ScriptTemplates.AllHotAnswersMakeHotLead | albot/src/script_templates.py:371-377 | A lead answering every question of a built-in template with a hot value scores 100 and is hot |
| ScriptGenerator.GenerateScript | albot/mini_app/server.py:183-252 | q1 and q2 first and q5 last; q3 for a new building or a rental, q4 when urgency is given; every question mandatory with a valid weight; three recommendations |
| ScriptGenerator.GeneratedShapes | albot/mini_app/server.py:186-243 | The question list is one of four shapes picked by the business type and the urgency answer |
| ScriptGenerator.GeneratedOptionalQuestions | albot/mini_app/server.py:204-233 | q3 is asked exactly for a new building or a rental, q4 exactly when urgency was answered truthily |
| ScriptGenerator.IdNumbers | albot/mini_app/server.py:186-243 | The fixed questions carry ids q1 to q5 |
| ScriptGenerator.GeneratedIdsIncrease | albot/mini_app/server.py:186-243 | Question ids strictly increase along the list |
| ScriptGenerator.GeneratedCount | albot/mini_app/server.py:186-243 | Three questions plus one for each optional question that applies |
| ScriptGenerator.EmptyAnswersGiveFrame | albot/mini_app/server.py:186-243 | Without answers the script is q1, q2, q5 |
| ScriptEditor.FirstIndex | albot/src/bot.py:932-935 | The position of the first question with the id, and none exactly when no question has it |
| ScriptEditor.UpdateFirst | albot/src/bot.py:932-935 | Only the first question with the id is changed, and the list keeps its length |
| ScriptEditor.Ids | albot/src/bot.py:932-1004 | The ids of a list, in list order |
| ScriptEditor.Orders | albot/src/bot.py:981-989 | The order values of a list, in list order |
| ScriptEditor.ToggleMandatory | albot/src/bot.py:925-936 | Only the mandatory flag changes, and only on the first question with the id |
| ScriptEditor.ToggleInvolution | albot/src/bot.py:925-936 | Toggling the same question twice restores the list |
| ScriptEditor.FirstIndexOfSameIds | albot/src/bot.py:932-935 | Lists with the same ids find a question at the same place |
| ScriptEditor.StepWeight | albot/src/bot.py:947-948 | A step of 5 up for "+" and down otherwise, clamped into 0..50 |
| ScriptEditor.StepWeightUndo | albot/src/bot.py:947-948 | Away from the bounds a step up is undone by a step down and the other way round |
| ScriptEditor.StepWeightMonotone | albot/src/bot.py:947-948 | A step up never lowers a valid weight and a step down never raises it |
| ScriptEditor.ChangeWeight | albot/src/bot.py:938-950 | Only the weight of the first question with the id changes, it stays within 0..50, and valid scripts stay valid |
| ScriptEditor.TypeIndex | albot/src/bot.py:999-1002 | The position of a type in the cycle text, number, choice, date |
| ScriptEditor.NextType | albot/src/bot.py:1003 | The next type is a different one, one place further round the cycle |
| ScriptEditor.TypeCycleCloses | albot/src/bot.py:999-1003 | Four presses bring every type back after passing through all four |
| ScriptEditor.CycleType | albot/src/bot.py:992-1005 | Only the type of the first question with the id changes, to the next one in the cycle |
| ScriptEditor.ChangeTypeAsWritten | albot/src/bot.py:999 | With a script in the session the handler always fails, because the cycle names lower-case attributes the enum lacks |
| ScriptEditor.Insert | albot/src/bot.py:981 | Insertion adds exactly the one question |
| ScriptEditor.InsertOrdersFrom | albot/src/bot.py:981 | Insertion keeps a lower bound on the orders |
| ScriptEditor.InsertSorted | albot/src/bot.py:981 | Insertion keeps a list sorted by order |
| ScriptEditor.SortByOrder | albot/src/bot.py:981 | Sorting by order gives a sorted permutation of the same questions |
| ScriptEditor.SortSorted | albot/src/bot.py:981 | A sorted list is its own sort |
| ScriptEditor.SortIdempotent | albot/src/bot.py:989 | Sorting twice is sorting once |
| ScriptEditor.DropAt | albot/src/bot.py:981 | Removing one entry removes one copy from the multiset |
| ScriptEditor.SortedUniqueHead | albot/src/bot.py:981 | A sorted and a strictly ordered permutation of each other start alike |
| ScriptEditor.TailsPermuted | albot/src/bot.py:981 | Permutations starting alike continue as permutations |
| ScriptEditor.TailsOrdered | albot/src/bot.py:981 | The tails of sorted and strictly ordered lists stay so |
| ScriptEditor.SortedUnique | albot/src/bot.py:981-989 | With distinct orders the sorted arrangement is unique |
| ScriptEditor.SwapOrders | albot/src/bot.py:986-988 | Exchanging two questions' orders keeps the list length |
| ScriptEditor.SwapOrdersKeepsIds | albot/src/bot.py:986-988 | Exchanging orders keeps every id in place |
| ScriptEditor.SwapMultiset | albot/src/bot.py:986-988 | Exchanging two entries keeps the multiset |
| ScriptEditor.SwapOrdersKeepsOrders | albot/src/bot.py:986-988 | Exchanging orders keeps the multiset of orders |
| ScriptEditor.ProjectDropAt | albot/src/bot.py:981-989 | Removing an entry removes its image from a projection |
| ScriptEditor.ProjectPermutation | albot/src/bot.py:981-989 | Permuting a list permutes each projection of it |
| ScriptEditor.PermutationKeepsWeights | albot/src/bot.py:981-989 | A permutation keeps the weight bound |
| ScriptEditor.PermutationProjections | albot/src/bot.py:981-989 | A permutation permutes ids and orders and keeps the weight bound |
| ScriptEditor.PermutationFinds | albot/src/bot.py:982 | A permutation holds an id exactly when the list does |
| ScriptEditor.SwapAndSort | albot/src/bot.py:986-989 | Exchanging two orders and sorting again gives a sorted list with the same ids and orders holding both exchanged questions |
| ScriptEditor.MoveQuestion | albot/src/bot.py:974-990 | An unknown id leaves the list untouched; otherwise the result is sorted and keeps the ids, the orders and the weight bound |
| ScriptEditor.MoveSwapsNeighbours | albot/src/bot.py:981-989 | A move exchanges the orders of the question and its sorted neighbour above or below, or only sorts at either end |
| ScriptEditor.ExchangeAt | albot/src/bot.py:986 | Two neighbours exchange places and every other question stays |
| ScriptEditor.ExchangeTwice | albot/src/bot.py:986 | Exchanging the same neighbours twice gives the list back |
| ScriptEditor.SortAfterAdjacentSwap | albot/src/bot.py:986-989 | With distinct orders, exchanging neighbours' orders and sorting exchanges the two questions and keeps the orders distinct |
| ScriptEditor.FirstIndexAt | albot/src/bot.py:982 | The first question with the id is at the given position |
| ScriptEditor.MoveUpStrict | albot/src/bot.py:985-989 | With distinct orders "up" exchanges the question with the one above |
| ScriptEditor.MoveDownStrict | albot/src/bot.py:987-989 | With distinct orders "down" exchanges the question with the one below |
| ScriptEditor.ExchangeMovesIndex | albot/src/bot.py:985-986 | Moving up puts the question one place higher |
| ScriptEditor.MoveUpThenDown | albot/src/bot.py:974-990 | With distinct orders, up and then down restores the list |
| HotValues.StrippedNonEmptyContents | albot/src/bot.py:966 | A value is kept exactly when it is non-empty and some piece strips down to it |
| HotValues.StrippedNonEmptyAppend | albot/src/bot.py:966 | Keeping the stripped non-empty pieces distributes over concatenation of the piece lists |
| HotValues.StrippedNonEmptySingle | albot/src/bot.py:966 | One piece is kept, stripped, exactly when something is left after stripping |
| HotValues.StrippedNonEmptyClean | albot/src/bot.py:966 | Every kept value is stripped and non-empty |
| HotValues.StrippedCommaFree | albot/src/bot.py:966 | Stripping never brings in a comma |
| HotValues.ParseHotValues | albot/src/bot.py:966 | Hot values read from a message are stripped, non-empty and comma-free |
| HotValues.ParseHotValuesPieces | albot/src/bot.py:966 | A message of comma-free pieces joined by commas reads as those pieces, each trimmed, the empty ones dropped, in order |
| HotValues.ParseTwoPieces | albot/src/bot.py:966 | A message of two pieces reads as each piece kept or dropped on its own |
| HotValues.TwoCitiesParsed | albot/src/bot.py:966 | "Москва, Питер" reads as "Москва" and "Питер" |
| HotValues.HotValuesRoundTrip | albot/src/bot.py:966 | Clean values joined with commas read back as themselves |
| HotValues.KeepsCleanValues | albot/src/bot.py:966 | Stripped non-empty pieces are all kept |
| HotValues.EmptyMessageGivesNoValues | albot/src/bot.py:966 | A missing or empty message sets an empty list |
| ScriptEditor.HotValuesInput | albot/src/bot.py:959-972 | Without an awaited id or a script nothing changes; otherwise the first matching question gets the parsed values and the wait ends |
| ScriptEditor.ApplyEdit | albot/src/bot.py:925-1005 | Every editor button keeps the script's other fields, its length, its ids and the weight bound |
| ScriptEditor.OrString | albot/src/bot.py:683-691 | A missing or empty string gives the default |
| ScriptEditor.OrInt | albot/src/bot.py:690-696 | A missing value or 0 gives the default |
| ScriptEditor.ConvertItem | albot/src/bot.py:682-698 | An entry becomes a question with defaulted id, order, text, weight and type, and is rejected exactly for a weight outside 0..50 |
| ScriptEditor.ConvertItems | albot/src/bot.py:681-698 | All entries convert in order, or a rejected weight fails the whole list |
| ScriptEditor.EnsureScriptModel | albot/src/bot.py:675-699 | An existing script is kept; no list leaves none; otherwise a sorted, valid draft holding exactly the converted questions |
| ScriptEditor.EmptyItemDefaults | albot/src/bot.py:682-698 | An empty entry becomes an optional text question q<idx> of order idx and weight 0 |
| ScriptEditor.EnsureScriptModelAsWritten | albot/src/bot.py:686-688 | An entry of unknown type fails the conversion; otherwise it agrees with the intended one |
| ScriptEditor.UnknownTypeDiscrepancy | albot/src/bot.py:686-688 | A "rating" entry fails as written and becomes a text question as intended |
| ScriptEditor.AddGoal | albot/src/bot.py:1085-1086 | The goal is present afterwards, nothing is repeated, the old goals keep their places and nothing else is added |
| ScriptEditor.AddGoalIdempotent | albot/src/bot.py:1085-1086 | Choosing a goal twice is choosing it once |
| ScriptEditor.AgentsInput | albot/src/bot.py:1104-1108 | The trimmed answer is accepted exactly when it is all digits |
| ScriptEditor.AgentsInputRoundTrip | albot/src/bot.py:1104-1108 | Typing a number's decimal form gives the number back |
| ErrorHandler.ClassifyError | albot/src/error_handler.py:150-161 | Server-error wording wins over timeout wording, which wins over network wording; anything else is a server error, and each type is named exactly when its wording decides |
| ErrorHandler.ClassifyIgnoresCase | albot/src/error_handler.py:152 | Classification does not depend on letter case |
| ErrorHandler.ClassifierRange | albot/src/error_handler.py:150-161 | The classifier never yields the CRM, LLM or database types, and yields a server error exactly when that wording appears or no other wording does |
| ErrorHandler.BotErrorAlert | albot/src/error_handler.py:39-63 | A CRITICAL "Bot Critical Error" alert exactly for server errors and timeouts, with the type value and the first 100 characters of the message |
| ErrorHandler.NetworkErrorsStayQuiet | albot/src/error_handler.py:53 | A bot error stays without an alert exactly when it is classified as a network error |
| ErrorHandler.CrmErrorAlert | albot/src/error_handler.py:71-92 | A CRITICAL "CRM Consecutive Errors" alert exactly when more than five CRM errors in a row have been seen, saying "CRM <type> has <n> consecutive errors" |
| ErrorHandler.LlmErrorAlert | albot/src/error_handler.py:99-118 | A WARNING "High LLM Usage" exactly when the failing request used more than 100000 tokens, saying "User <id> used <n> tokens with error" |
| ErrorHandler.DatabaseErrorAlert | albot/src/error_handler.py:125-143 | Every database error alerts CRITICAL, naming the operation and keeping exactly the first 100 characters of the error |
| ErrorHandler.AlertLevels | albot/src/error_handler.py:39-143 | The levels of the four handlers' alerts, and that CRM and LLM errors below their thresholds stay quiet |
| ErrorHandler.CrmRuleMatchesMonitor | albot/src/error_handler.py:83-88 | The handler's CRM streak alert fires exactly when the monitor's `check_crm_api_errors` raises its CRITICAL request, under the same title |
| ErrorHandler.LlmRuleMatchesMonitor | albot/src/error_handler.py:109-114 | The handler's LLM alert fires exactly when the monitor warns "High LLM Usage" for a user without a plan |
| ErrorHandler.Deliver | albot/src/error_handler.py:135-140 | An alert handed to `create_alert` is appended behind the queued alerts, unresolved, with its title and message |
| ErrorHandler.HandlerAlertsPushed | albot/src/error_handler.py:39-143 | Every alert a handler raises is forwarded to the Telegram errors channel |
| HealthChecker.RankInjective | albot/src/health_checker.py:14-19 | The four statuses are ranked without ties |
| HealthChecker.StatusOf | albot/src/health_checker.py:55-65 | A check that raised, or returned no status, counts as CRITICAL; otherwise its own status counts |
| HealthChecker.Worse | albot/src/health_checker.py:64-71 | The worse of two statuses is one of them and ranks at least as high as both |
| HealthChecker.Overall | albot/src/health_checker.py:64-71 | DOWN if any check is down, else CRITICAL if any is critical, else WARNING if any warns, else HEALTHY |
| HealthChecker.OverallIsWorst | albot/src/health_checker.py:64-71 | The priority chain equals the worst status of all checks folded pairwise |
| HealthChecker.OverallBounds | albot/src/health_checker.py:64-71 | No check ranks above the overall status, and one more check never improves it |
| HealthChecker.DatabaseHealthAsWritten | albot/src/health_checker.py:86-120 | As written: DOWN exactly on a failed query, WARNING exactly above 5 s |
| HealthChecker.DatabaseNeverCritical | albot/src/health_checker.py:96-107 | As written no response time gives CRITICAL; twelve seconds is a WARNING |
| HealthChecker.DatabaseHealth | albot/src/health_checker.py:96-120 | As intended: DOWN on failure, CRITICAL exactly above 10 s, WARNING exactly from 5 s to 10 s, HEALTHY up to 5 s |
| HealthChecker.DatabaseCorrection | albot/src/health_checker.py:96-113 | The two agree up to 10 s and differ above it, and the intended one never rates a slower database better |
| HealthChecker.CrmHealth | albot/src/health_checker.py:154-184 | CRITICAL exactly on failure or above half the calls failing, HEALTHY exactly at or below a tenth, never DOWN |
| HealthChecker.QueueHealth | albot/src/health_checker.py:186-223 | CRITICAL exactly on failure or above 5000 messages, WARNING exactly for a size above 1000 or a rate above 1000, never DOWN |
| HealthChecker.QueueMonotone | albot/src/health_checker.py:192-209 | A longer queue or a higher rate never rates better, and above 1000 messages the rate is not consulted |
| HealthChecker.RunChecks | albot/src/health_checker.py:34-71 | As written: five checks in fixed order, the overall status is their worst; DOWN exactly when the database query fails; CRITICAL exactly when the query succeeds and the CRM or queue is critical, so a slow database alone never makes it CRITICAL; HEALTHY when every figure is quiet |
| HealthChecker.Outcomes | albot/src/health_checker.py:44-62 | Five outcomes with the database first; the other four are never DOWN; some outcome is CRITICAL exactly when the database one is or the CRM or queue figures are critical |
| HealthChecker.RunChecksIntended | albot/src/health_checker.py:34-71 | As intended: as above, but a database slower than 10 s also makes the overall status CRITICAL |
| HealthChecker.SlowDatabaseRuns | albot/src/health_checker.py:96-101 | The two runs agree unless the database takes more than 10 s; at 12 s the run as written is WARNING and alerts "System Warning" where the intended run is CRITICAL |
| HealthChecker.AlertFor | albot/src/health_checker.py:225-250 | No alert exactly when healthy; a CRITICAL alert exactly for critical and down, a WARNING otherwise |
| HealthChecker.DatabaseDownAlerts | albot/src/health_checker.py:34-74 | A failed database query always ends in the "System Down" alert |
| Monitoring.CreateAlert | albot/src/monitoring.py:110-131 | The alert is appended unresolved to the queue, and is pushed to Telegram exactly when it is not INFO |
| Monitoring.Emit | albot/src/monitoring.py:118-127 | A run of alerts keeps the old queue as a prefix and appends one unresolved alert per request, in order |
| Monitoring.Unresolved | albot/src/monitoring.py:311-312 | The unresolved count never exceeds the number of queued alerts |
| Monitoring.UnresolvedAll | albot/src/monitoring.py:312 | With no resolved alert queued, the unresolved count equals the total |
| Monitoring.EmittedStayUnresolved | albot/src/monitoring.py:306-330 | Nothing in the manager resolves a queued alert, so the report's unresolved count equals its total |
| Monitoring.CountAppend | albot/src/monitoring.py:145-291 | Alert counts by level add up over concatenation |
| Monitoring.BackendAlerts | albot/src/monitoring.py:145-176 | One CRITICAL for any critical error, one WARNING above a 10% rate, one more CRITICAL above 20%, and nothing else |
| Monitoring.QuarterErrorRate | albot/src/monitoring.py:162-176 | A 25% error rate gives the WARNING followed by the CRITICAL alert |
| Monitoring.CrmAlerts | albot/src/monitoring.py:181-203 | One CRITICAL above five consecutive errors, one WARNING above a 10% rate, and nothing else |
| Monitoring.QueueAlerts | albot/src/monitoring.py:208-237 | A WARNING each for a rate and a size above 1000, a CRITICAL for a size above 5000, and nothing else |
| Monitoring.OverloadedQueue | albot/src/monitoring.py:223-237 | A 6000-message queue raises both the size WARNING and the CRITICAL |
| Monitoring.AlertsMonotone | albot/src/monitoring.py:145-237 | Higher figures never mean fewer alerts |
| Monitoring.TierRule | albot/src/monitoring.py:252-274 | Only trial, basic and pro have a tier budget: 10000 tokens titled "Trial User High LLM Usage", 50000 titled "Basic User High LLM Usage", 200000 titled "Pro User High LLM Usage" |
| Monitoring.TokenAlerts | albot/src/monitoring.py:249-291 | As intended, with the stored tier read: one user's alerts are the tier WARNING above its budget, a WARNING above 100000, a CRITICAL above 500000, and nothing else |
| Monitoring.EnterpriseTokens | albot/src/monitoring.py:252-283 | As intended: enterprise users are treated like users without a subscription, and up to 10000 tokens nobody is warned |
| Monitoring.AllTokenAlerts | albot/src/monitoring.py:242-291 | As intended: over the whole report, one CRITICAL per user above 500000 tokens and at least one WARNING per user above 100000 |
| Monitoring.FirstSubscribed | albot/src/monitoring.py:249-252 | The position of the first user with a stored subscription, or the length of the report when there is none |
| Monitoring.AllTokenAlertsAsWritten | albot/src/monitoring.py:242-294 | As written: reading `.tier` on the stored record raises at the first subscribed user and the catch ends the check, so only the users before it get their 100000/500000 alerts |
| Monitoring.TokenCheckAborts | albot/src/monitoring.py:251-254 | Two users above 600000 tokens, the first on a stored trial: the check as written alerts nothing, the intended one five times |
| Monitoring.NoSubscriptionsAgree | albot/src/monitoring.py:242-294 | Without any stored subscription, the check as written and as intended raise the same alerts |
| Analytics.EventTypeOf | albot/src/analytics.py:14-27 | Lookup by value finds the type with that value |
| Analytics.EventTypeRoundTrip | albot/src/analytics.py:14-27 | Every type is found again from its value, so values are distinct |
| Analytics.Flush | albot/src/analytics.py:70-80 | Every event is either handed to the database or still queued, in order; the queue is kept exactly when it was empty or the write raised; a write returning false still empties the queue and the batch is lost, a write returning true stores it |
| Analytics.TrackEvent | albot/src/analytics.py:47-68 | The new event follows all earlier ones; below ten, or when the write raises, it stays queued; at ten or more the queue is emptied into a batch that is stored only when the write returned true, and a true write loses nothing |
| Analytics.QueueStaysShort | albot/src/analytics.py:64-68 | Whenever the write does not raise, fewer than ten events stay queued |
| Analytics.FailedFlushGrows | albot/src/analytics.py:67-80 | When the write raises, the queue keeps growing past ten |
| Analytics.RefusedBatchLost | albot/src/analytics.py:77-78 | A tenth event whose write returns false empties the queue, saves nothing more, and adds the whole batch to the lost events |
| Analytics.HandedIsSavedOrLost | albot/src/analytics.py:70-80 | Every event handed to the database is, as a multiset, either stored or lost, and the counts add up |
| Analytics.EventsOf | albot/src/analytics.py:55-61 | One event per call, in call order, with the call's fields |
| Analytics.TrackAll | albot/src/analytics.py:47-80 | Over any run of calls every event is handed to the database or still queued, in call order; if no write raises the queue stays below ten; if every write returns true no event is lost |
| Commands.BucketOf | albot/src/commands.py:262 | 🔥 only from 70 and ❄️ only below 40 |
| Commands.BucketsAreStatuses | albot/src/commands.py:262 | The emoji bands coincide with the scoring engine's hot, qualified and new bands |
| Commands.HotCount | albot/src/commands.py:269 | The hot count is at most the number of leads and zero exactly when no lead scores 70 or more |
| Commands.WarmCount | albot/src/commands.py:270 | The warm count is at most the number of leads and zero exactly when no lead scores from 40 to 69 |
| Commands.ColdCount | albot/src/commands.py:271 | The cold count is at most the number of leads and zero exactly when every lead scores 40 or more |
| Commands.CountsPartition | albot/src/commands.py:269-271 | Hot, warm and cold counts add up to the number of leads |
| Commands.CountsMatchEmoji | albot/src/commands.py:262-271 | Each summary count is the number of leads whose row carries that emoji |
| Commands.RowOf | albot/src/commands.py:256-264 | No row exactly when a field is a stored null, where slicing, comparing or padding it raises; otherwise `name[:15]` (default "Неизвестно"), `phone[:12]` (default ""), the score with its emoji, and the status (default "new") |
| Commands.Rows | albot/src/commands.py:255-264 | One row per lead in order, or none exactly when some lead holds a null |
| Commands.Table | albot/src/commands.py:255-264 | The first ten leads, in order, one row each; no table exactly when one of those ten holds a null, while later leads are never read |
| Commands.ShortNamesShownWhole | albot/src/commands.py:256 | In a printable table, a missing name shows "Неизвестно" and a name of at most 15 characters is shown whole |
| Commands.TableAgreesWithSummary | albot/src/commands.py:255-269 | Up to ten leads, a printable table means no score is null, and the hot count equals the number of 🔥 rows |
| Commands.HotRows | albot/src/commands.py:255-269 | Rows built one per lead carry as many 🔥 as there are hot leads |
| Commands.OnLeads | albot/src/commands.py:230-296 | The empty notice exactly for no leads; the error reply exactly when some lead has a null score or one of the first ten has any null; otherwise the first ten rows, and the hot (70 and up), warm (40-69) and cold (below 40) counts of all the leads, which add up to their number |
| Commands.NullsFailTheReply | albot/src/commands.py:255-271 | A null name on the first lead fails the reply, the same null on the eleventh lead does not, and a null score on the eleventh lead does |
| Commands.LimitText | albot/src/commands.py:595 | "Безлимит" exactly for a limit of zero or below; a positive limit is shown as digits that read back as it |
| Commands.Keyboard | albot/src/commands.py:607-616 | The plan buttons exactly for trial, expired or read-only, all three together; cancel exactly when active; no buttons exactly for a cancelled writable subscription |
| Commands.OnBilling | albot/src/commands.py:575-625 | "not found" exactly without a subscription; the error reply exactly for a trial without an end date, where `get_trial_info` raises; otherwise the dialogs used, the limit line, the trial line exactly for a trial, and the keyboard |
| Commands.OpenTrialBillingFails | albot/src/commands.py:602-625 | A trial without an end date gets the error reply; a trial with one gets the three subscribe buttons |
| Commands.KeyboardAfterTransitions | albot/src/commands.py:607-616 | A just-paid subscription offers only cancellation; a just-expired trial offers only the three plans |
| Commands.SystemStatusAllowed | albot/src/commands.py:753-755 | Only the one listed admin id passes |

## Left out

- Telegram I/O: message text and layout, keyboards as widgets, callback-data parsing, conversation states, and every handler of `albot/src/bot.py` other than the script editor, the goal choice and the agents answer.
- Network and third-party services: the payment providers, the LLM client, the CRM and e-mail integrations, Google Sheets, and Sentry setup. Where a decision depends on one of them, its answer is a parameter.
- Persistence: every database read or write is a map or sequence in the model's state. A failing database appears only where the source branches on it: not found and the health-check failure flags. The analytics write is modelled by its three outcomes (raised, returned false, returned true), since the caller ignores the returned flag.
- Concurrency: the unlocked read-modify-write of the counters and the `asyncio.gather` fan-out of the health and monitoring checks. Each operation is modelled as one atomic step, and the checks are modelled as their list of results.
- Floating point: rates and thresholds are exact rationals, and IEEE rounding can differ right at a boundary. The ROI and payback figures are modelled only through their guards.
- Python's salted `hash()` and the clock are parameters, so every A/B assignment property holds for any hash.
- Unicode: `strip` removes the six ASCII whitespace characters (space, tab, line feed, carriage return, vertical tab and form feed). Python's `str.strip()` also removes the separators `\x1c`–`\x1f`, `\x85`, the no-break space and the other Unicode spaces, which the model keeps. `lower` covers ASCII and the basic Cyrillic letters. The digit tests, including the `\D` of the phone helpers' `re.sub(r"\D+", "", …)`, count only the ASCII digits 0–9, whereas Python's `\D` and `isdigit` also treat other Unicode decimal digits as digits. `s[:n]` counts Dafny characters rather than code points.
- The HTTP request handling of `albot/mini_app/server.py` and the launchers. The answers the generator reads are a map from key to JSON value.
- The `purpose=` argument the templates pass to each `ScriptQuestion` and the mini-app's Supabase records are not part of this model.
- ABTesting: `get_active_tests`, `get_test_results` and `get_test_recommendations` are database reads followed by formatting.
- Billing: `get_user_subscription` is a database read. The Tinkoff and CloudPayments payment stubs are not part of this model; a link comes only from the YooMoney answer, which is a parameter.
- SimpleBilling: `get_billing_info` and `get_payment_info` are static text around a database read, `get_user_subscription` is a database read, and the administrator notification of `request_subscription` is I/O.
- Branding: the custom welcome message and colour lookups are database reads.
- Commercial: `get_value_proposition`, `get_psychological_benefits`, `get_competitive_advantages` and `get_success_stories` produce display text. The subscription decision behind them is modelled in Branding and Billing.
- Commercial.GetRoiCalculation: the revenue, ROI and payback figures are floating point in the source. The model states the echoed dialog, hot-lead and meeting counters, the monthly cost and the pay-off guard, but not the float values of the potential deals and revenue, which the result does not carry.
- UserRoles: `get_accessible_leads` is a database query, `get_role_description` is fixed text, and `UserRoleManager.get_user_permissions` is the role table read through `GetUserRole`.
- HotLeads: the notification text and its sending, `handle_hot_lead_action` and its four sub-handlers (texts only), and `get_hot_leads_stats` (a stub returning constants).
- Parsing: the pandas, pdfminer and python-docx readers are parameters that yield rows of (column, cell) pairs or a text, or fail with a message.
- Utils.RussianSpellings: covers the unpunctuated spellings only. Punctuated input is covered by `Utils.NormalizeIgnoresSeparators` (separators anywhere), `Utils.NormalizeSkipsNonDigits` and `Parsing.PhoneColumnCell`.
- ScriptEditor.SortByOrder: is stated as a sorted permutation, not as a stable sort. With distinct orders the two coincide (`ScriptEditor.SortedUnique`).
- ScriptEditor.AgentsInput: only ASCII digits count, whereas Python's `isdigit` also accepts other Unicode digits.
- ScriptTemplates: `get_all_templates` returns the registry itself, which `ScriptTemplates.DefaultManagerRegistry` describes.
- ErrorHandler: `_track_error`, `get_error_rate` and `get_critical_errors_count` are stubs. Logging, the alert metadata and the exception swallowed by each handler are left out.
- HealthChecker: the LLM and Telegram checks are stubs that always report healthy, and they are modelled as such. The outer exception path of `run_health_checks` and the status messages are left out.
- Monitoring.Emit: each alert's message is its title. The check methods' message texts and metadata are left out.
- Monitoring: the Telegram delivery of `send_telegram_alert` and its channel-configured check are left out. `resolve_alert` only writes the database, and `get_system_status` reads its other figures from it.
- Analytics: the `track_*` convenience wrappers, `get_*_metrics` and `export_metrics` are left out. The timestamp is a parameter.
- Commands: the message layout and padding of `/leads` and the text of its error reply, the trial text of `/billing`, the `/status` report and the other command handlers are left out.

## Findings

| source | as written | input that shows it | evidently intended | confidence | as-written member | corrected member |
|---|---|---|---|---|---|---|
| albot/src/scoring.py:27-33 | assigns `LeadStatus.new`, `.hot` and `.qualified`, but the enum's members are `NEW`, `HOT`, `QUALIFIED`, so the attribute lookup raises | any script and any answers, including none | the status whose value is "new", "hot" or "qualified" according to the score band | not executed | Scoring.ComputeLeadScoreAsWritten | Scoring.ComputeLeadScore |
| albot/src/bot.py:999 | the type cycle lists `QuestionType.text`, `.number`, `.choice` and `.date`, which do not exist, so every type change raises | pressing the type button on any question of a loaded script | cycle text → number → choice → date → text on that question | not executed | ScriptEditor.ChangeTypeAsWritten | ScriptEditor.CycleType |
| albot/src/bot.py:686-688 | the fallback for an unknown question type is `QuestionType.text`, which does not exist, so the conversion raises | an LLM script with an item whose type is "rating" | an unknown type becomes a text question | not executed | ScriptEditor.EnsureScriptModelAsWritten | ScriptEditor.EnsureScriptModel |
| albot/src/health_checker.py:96-107 | the "> 5 s" test comes before the "> 10 s" test, so the CRITICAL branch is unreachable | a database response time of 12.0 s, which is classed WARNING | CRITICAL above 10 s, WARNING from 5 s to 10 s | not executed | HealthChecker.DatabaseHealthAsWritten | HealthChecker.DatabaseHealth |
| albot/src/monitoring.py:251-254 | reads `subscription.tier` on the stored record, which the client returns as a dictionary, so the attribute lookup raises and the catch at line 293 ends the whole check | two users above 600000 tokens, the first with a stored trial subscription | read the stored tier, warn by its budget, and go on to every user's 100000/500000 alerts | not executed | Monitoring.AllTokenAlertsAsWritten | Monitoring.AllTokenAlerts |
| albot/src/hot_leads.py:49-85 | the extractors call `answer.get(...)` on the lead's `LeadAnswer` models, which have no `get`, so processing fails | any lead with at least one answer | read `question_id` and `value` from each answer | not executed | HotLeads.ProcessHotLeadAsWritten | HotLeads.ProcessHotLead |

=== FILE: ab_testing.dfy ===
/**
 * The A/B test registry for scripts (albot/src/ab_testing.py): tests move
 * through draft, active, paused and completed; each variant counts its
 * leads and conversions and keeps a derived conversion rate; leads are
 * assigned to a variant by a hash threshold; a simplified significance rule
 * picks a winner and one of four recommendations.
 *
 * Storage is an in-memory map from test id to test. The clock is an integer
 * number of seconds handed in by the caller, and Python's per-process
 * salted `hash()` is a function parameter, so every property about variant
 * assignment holds for any hash. Rates and thresholds are exact rationals
 * (`real`), where the program computes in binary floating point.
 */
module ABTesting {
  import opened Wrappers
  import opened Text

  datatype TestStatus = Draft | Active | Completed | Paused {
    function Value(): string {
      match this
      case Draft => "draft"
      case Active => "active"
      case Completed => "completed"
      case Paused => "paused"
    }
  }

  /** The counters of one variant: `{"conversions", "total_leads", "conversion_rate"}`. */
  datatype VariantMetrics = VariantMetrics(conversions: nat, totalLeads: nat, conversionRate: real)

  const ZeroMetrics := VariantMetrics(0, 0, 0.0)

  /** An experiment between two scripts; `trafficSplit` is the share of leads sent to script A. */
  datatype ABTest = ABTest(
    id: string,
    name: string,
    description: string,
    scriptA: string,
    scriptB: string,
    trafficSplit: real,
    status: TestStatus,
    createdAt: int,
    startedAt: Option<int>,
    endedAt: Option<int>,
    minSampleSize: int,
    confidenceLevel: real,
    metricsA: VariantMetrics,
    metricsB: VariantMetrics)

  type Registry = map<string, ABTest>

  /* ---------- derived rates ---------- */

  /** `conversions / total_leads if total_leads > 0 else 0.0` */
  function Rate(conversions: nat, total: nat): (r: real)
    ensures total == 0 ==> r == 0.0
    ensures total > 0 ==> r * total as real == conversions as real
    ensures r >= 0.0
  {
    if total > 0 then conversions as real / total as real else 0.0
  }

  /** A variant whose stored rate agrees with its counters. */
  predicate RateConsistent(m: VariantMetrics) {
    m.conversionRate == Rate(m.conversions, m.totalLeads)
  }

  /** Both variants' stored rates agree with their counters. */
  predicate MetricsConsistent(t: ABTest) {
    RateConsistent(t.metricsA) && RateConsistent(t.metricsB)
  }

  /** `_recalculate_metrics`: recompute both rates from the counters. */
  function Recalculate(t: ABTest): (r: ABTest)
    ensures MetricsConsistent(r)
    ensures r.metricsA.conversions == t.metricsA.conversions && r.metricsA.totalLeads == t.metricsA.totalLeads
    ensures r.metricsB.conversions == t.metricsB.conversions && r.metricsB.totalLeads == t.metricsB.totalLeads
    ensures r.(metricsA := t.metricsA, metricsB := t.metricsB) == t
    ensures MetricsConsistent(t) ==> r == t
  {
    t.(metricsA := t.metricsA.(conversionRate := Rate(t.metricsA.conversions, t.metricsA.totalLeads)),
       metricsB := t.metricsB.(conversionRate := Rate(t.metricsB.conversions, t.metricsB.totalLeads)))
  }

  /* ---------- lifecycle ---------- */

  /** `f"test_{int(now)}"` */
  function TestId(now: int): string {
    "test_" + IntToString(now)
  }

  /** `create_test`: a draft test with zero counters, stored under an id made from the clock. */
  function CreateTest(reg: Registry, name: string, description: string, scriptA: string, scriptB: string,
                      trafficSplit: real, now: int): (r: (string, Registry))
    ensures r.0 == TestId(now) && r.0 in r.1
    ensures var t := r.1[r.0];
      && t.status == Draft && t.createdAt == now && t.startedAt.None? && t.endedAt.None?
      && t.metricsA == ZeroMetrics && t.metricsB == ZeroMetrics
      && t.scriptA == scriptA && t.scriptB == scriptB && t.trafficSplit == trafficSplit
      && t.minSampleSize == 100 && t.confidenceLevel == 0.95
      && MetricsConsistent(t)
    ensures forall id :: id in reg && id != r.0 ==> id in r.1 && r.1[id] == reg[id]
    ensures r.1.Keys == reg.Keys + {r.0}
  {
    var id := TestId(now);
    var t := ABTest(id, name, description, scriptA, scriptB, trafficSplit, Draft, now, None, None,
                    100, 0.95, ZeroMetrics, ZeroMetrics);
    (id, reg[id := t])
  }

  /** `start_test`: active, and `started_at` overwritten whatever the prior status. */
  function StartTest(reg: Registry, id: string, now: int): (r: (bool, Registry))
    ensures r.0 <==> id in reg
    ensures !r.0 ==> r.1 == reg
    ensures r.1.Keys == reg.Keys && forall j :: j in reg && j != id ==> r.1[j] == reg[j]
    ensures r.0 ==> r.1[id].status == Active && r.1[id].startedAt == Some(now)
    ensures r.0 ==> r.1[id].(status := reg[id].status, startedAt := reg[id].startedAt) == reg[id]
  {
    if id !in reg then (false, reg)
    else (true, reg[id := reg[id].(status := Active, startedAt := Some(now))])
  }

  /** `pause_test`: only the status changes. */
  function PauseTest(reg: Registry, id: string): (r: (bool, Registry))
    ensures r.0 <==> id in reg
    ensures !r.0 ==> r.1 == reg
    ensures r.1.Keys == reg.Keys && forall j :: j in reg && j != id ==> r.1[j] == reg[j]
    ensures r.0 ==> r.1[id].status == Paused
    ensures r.0 ==> r.1[id].(status := reg[id].status) == reg[id]
  {
    if id !in reg then (false, reg)
    else (true, reg[id := reg[id].(status := Paused)])
  }

  /** `complete_test`: completed, with `ended_at` set. */
  function CompleteTest(reg: Registry, id: string, now: int): (r: (bool, Registry))
    ensures r.0 <==> id in reg
    ensures !r.0 ==> r.1 == reg
    ensures r.1.Keys == reg.Keys && forall j :: j in reg && j != id ==> r.1[j] == reg[j]
    ensures r.0 ==> r.1[id].status == Completed && r.1[id].endedAt == Some(now)
    ensures r.0 ==> r.1[id].(status := reg[id].status, endedAt := reg[id].endedAt) == reg[id]
  {
    if id !in reg then (false, reg)
    else (true, reg[id := reg[id].(status := Completed, endedAt := Some(now))])
  }

  /** Every test of the registry keeps consistent rates. */
  predicate RegistryConsistent(reg: Registry) {
    forall id :: id in reg ==> MetricsConsistent(reg[id])
  }

  /** The lifecycle operations touch neither counters nor rates, and a completed test can be started again. */
  lemma LifecycleKeepsMetrics(reg: Registry, id: string, now: int)
    requires RegistryConsistent(reg)
    ensures RegistryConsistent(StartTest(reg, id, now).1)
    ensures RegistryConsistent(PauseTest(reg, id).1)
    ensures RegistryConsistent(CompleteTest(reg, id, now).1)
    ensures id in reg ==> StartTest(CompleteTest(reg, id, now).1, id, now + 1).1[id].status == Active
  {
  }

  /* ---------- counting ---------- */

  /** `record_lead`: count a lead for variant "A" or "B", recompute the rates and save. */
  function RecordLead(reg: Registry, id: string, variant: string): (r: (bool, Registry))
    ensures r.0 <==> id in reg
    ensures !r.0 ==> r.1 == reg
    ensures r.0 ==> r.1.Keys == reg.Keys && (forall other :: other in reg && other != id ==> r.1[other] == reg[other])
    ensures r.0 ==> MetricsConsistent(r.1[id])
    ensures r.0 ==> var t, t' := reg[id], r.1[id];
      && t'.metricsA.totalLeads == t.metricsA.totalLeads + (if variant == "A" then 1 else 0)
      && t'.metricsB.totalLeads == t.metricsB.totalLeads + (if variant == "B" then 1 else 0)
      && t'.metricsA.conversions == t.metricsA.conversions
      && t'.metricsB.conversions == t.metricsB.conversions
      && t'.(metricsA := t.metricsA, metricsB := t.metricsB) == t
  {
    if id !in reg then (false, reg)
    else
      var t := reg[id];
      var counted :=
        if variant == "A" then t.(metricsA := t.metricsA.(totalLeads := t.metricsA.totalLeads + 1))
        else if variant == "B" then t.(metricsB := t.metricsB.(totalLeads := t.metricsB.totalLeads + 1))
        else t;
      (true, reg[id := Recalculate(counted)])
  }

  /** `record_conversion`: count a conversion for variant "A" or "B", recompute the rates and save. */
  function RecordConversion(reg: Registry, id: string, variant: string): (r: (bool, Registry))
    ensures r.0 <==> id in reg
    ensures !r.0 ==> r.1 == reg
    ensures r.0 ==> r.1.Keys == reg.Keys && (forall other :: other in reg && other != id ==> r.1[other] == reg[other])
    ensures r.0 ==> MetricsConsistent(r.1[id])
    ensures r.0 ==> var t, t' := reg[id], r.1[id];
      && t'.metricsA.conversions == t.metricsA.conversions + (if variant == "A" then 1 else 0)
      && t'.metricsB.conversions == t.metricsB.conversions + (if variant == "B" then 1 else 0)
      && t'.metricsA.totalLeads == t.metricsA.totalLeads
      && t'.metricsB.totalLeads == t.metricsB.totalLeads
      && t'.(metricsA := t.metricsA, metricsB := t.metricsB) == t
  {
    if id !in reg then (false, reg)
    else
      var t := reg[id];
      var counted :=
        if variant == "A" then t.(metricsA := t.metricsA.(conversions := t.metricsA.conversions + 1))
        else if variant == "B" then t.(metricsB := t.metricsB.(conversions := t.metricsB.conversions + 1))
        else t;
      (true, reg[id := Recalculate(counted)])
  }

  /** Recording for a variant other than "A" or "B" reports success and changes nothing for a consistent test. */
  lemma OtherVariantChangesNothing(reg: Registry, id: string, variant: string)
    requires id in reg && MetricsConsistent(reg[id])
    requires variant != "A" && variant != "B"
    ensures RecordLead(reg, id, variant) == (true, reg)
    ensures RecordConversion(reg, id, variant) == (true, reg)
  {
    assert reg[id := reg[id]] == reg;
  }

  /** Every operation of the registry keeps every test's rates consistent. */
  lemma RecordingKeepsConsistency(reg: Registry, id: string, variant: string)
    requires RegistryConsistent(reg)
    ensures RegistryConsistent(RecordLead(reg, id, variant).1)
    ensures RegistryConsistent(RecordConversion(reg, id, variant).1)
  {
  }

  /** Conversions are counted independently of leads: a variant can show more conversions than leads. */
  lemma ConversionsMayExceedLeads(reg: Registry, now: int)
    ensures var (id, reg1) := CreateTest(reg, "t", "", "s1", "s2", 0.5, now);
      var t := RecordConversion(reg1, id, "A").1[id];
      t.metricsA.conversions == 1 && t.metricsA.totalLeads == 0 && t.metricsA.conversionRate == 0.0
  {
  }

  /* ---------- variant assignment ---------- */

  /** Python's `int(x)` on a float: truncation toward zero. */
  function Trunc(x: real): (r: int)
    ensures x >= 0.0 ==> r as real <= x < r as real + 1.0
    ensures x < 0.0 ==> r as real - 1.0 < x <= r as real
  {
    if x >= 0.0 then x.Floor else -((-x).Floor)
  }

  /**
   * `get_script_for_lead`: a missing test yields `None` (the attribute
   * access on `None` raises and is caught), a test that is not active yields
   * script A, and an active test sends a lead to A iff its hash modulo 100
   * is below `int(traffic_split * 100)`.
   */
  function ScriptForLead(reg: Registry, id: string, leadId: string, hash: string -> int): (r: Option<string>)
    ensures id !in reg <==> r.None?
    ensures id in reg && reg[id].status != Active ==> r == Some(reg[id].scriptA)
    ensures id in reg && reg[id].status == Active ==>
      r == Some(if hash(leadId) % 100 < Trunc(reg[id].trafficSplit * 100.0) then reg[id].scriptA else reg[id].scriptB)
  {
    if id !in reg then None
    else
      var t := reg[id];
      if t.status != Active then Some(t.scriptA)
      else
        var leadHash := hash(leadId) % 100;
        var threshold := Trunc(t.trafficSplit * 100.0);
        if leadHash < threshold then Some(t.scriptA) else Some(t.scriptB)
  }

  /** Whether the lead is sent to script A by an active test with this split. */
  predicate GoesToA(split: real, leadId: string, hash: string -> int) {
    hash(leadId) % 100 < Trunc(split * 100.0)
  }

  /** A split of 1 or more sends every lead to A, a split of 0 or less sends every lead to B, for any hash. */
  lemma SplitExtremes(split: real, leadId: string, hash: string -> int)
    ensures split >= 1.0 ==> GoesToA(split, leadId, hash)
    ensures split <= 0.0 ==> !GoesToA(split, leadId, hash)
  {
  }

  /** Raising the split never moves a lead from A to B. */
  lemma SplitMonotone(s1: real, s2: real, leadId: string, hash: string -> int)
    requires s1 <= s2
    ensures GoesToA(s1, leadId, hash) ==> GoesToA(s2, leadId, hash)
  {
    assert Trunc(s1 * 100.0) <= Trunc(s2 * 100.0);
  }

  /** Exactly the leads whose hash bucket lies below the threshold go to A: `threshold` of the 100 buckets. */
  lemma BucketsForA(split: real, bucket: int)
    requires 0 <= bucket < 100
    requires 0.0 <= split <= 1.0
    ensures bucket < Trunc(split * 100.0) <==> (bucket as real) + 1.0 <= split * 100.0
  {
  }

  /* ---------- analysis ---------- */

  /** The outcome of `_calculate_significance`. */
  datatype Significance = Significance(significant: bool, confidence: real)

  /**
   * `_calculate_significance`: fewer than 30 leads on either side is not
   * significant; otherwise a rate difference above 0.05 with more than 50
   * leads on both sides is significant at confidence 0.95.
   */
  function CalculateSignificance(ca: nat, ta: nat, cb: nat, tb: nat): (r: Significance)
    ensures r.significant <==> ta >= 30 && tb >= 30 && (if Rate(ca, ta) >= Rate(cb, tb) then Rate(ca, ta) - Rate(cb, tb) else Rate(cb, tb) - Rate(ca, ta)) > 0.05 && (if ta <= tb then ta else tb) > 50
    ensures r.confidence == if r.significant then 0.95 else 0.0
  {
    if ta < 30 || tb < 30 then Significance(false, 0.0)
    else
      var rateA := Rate(ca, ta);
      var rateB := Rate(cb, tb);
      var difference := if rateA >= rateB then rateA - rateB else rateB - rateA;
      if difference > 0.05 && (if ta <= tb then ta else tb) > 50 then Significance(true, 0.95)
      else Significance(false, 0.0)
  }

  /** Significance needs more than 50 leads on both sides, so totals between 30 and 50 never qualify. */
  lemma SignificanceNeedsFiftyOne(ca: nat, ta: nat, cb: nat, tb: nat)
    ensures CalculateSignificance(ca, ta, cb, tb).significant ==> ta > 50 && tb > 50
    ensures ta <= 50 || tb <= 50 ==> CalculateSignificance(ca, ta, cb, tb) == Significance(false, 0.0)
  {
  }

  /** Equal rates are never significant. */
  lemma EqualRatesNotSignificant(ca: nat, ta: nat, cb: nat, tb: nat)
    requires Rate(ca, ta) == Rate(cb, tb)
    ensures !CalculateSignificance(ca, ta, cb, tb).significant
  {
  }

  /** The significance rule does not depend on which variant is called A. */
  lemma SignificanceSymmetric(ca: nat, ta: nat, cb: nat, tb: nat)
    ensures CalculateSignificance(ca, ta, cb, tb) == CalculateSignificance(cb, tb, ca, ta)
  {
  }

  datatype Variant = A | B

  /** The winner of `analyze_test`: only when significant, the strictly higher stored rate. */
  function Winner(sig: Significance, rateA: real, rateB: real): (w: Option<Variant>)
    ensures w == Some(A) <==> sig.significant && rateA > rateB
    ensures w == Some(B) <==> sig.significant && rateB > rateA
    ensures w.None? <==> !sig.significant || rateA == rateB
  {
    if sig.significant then
      if rateA > rateB then Some(A)
      else if rateB > rateA then Some(B)
      else None
    else None
  }

  const NotEnoughData := "Недостаточно данных для принятия решения. Продолжите тестирование."
  const UseA := "Скрипт A показывает лучшие результаты. Рекомендуется использовать его."
  const UseB := "Скрипт B показывает лучшие результаты. Рекомендуется использовать его."
  const NoDifference := "Результаты скриптов статистически не отличаются. Можно использовать любой."

  /** `_generate_recommendation`. */
  function Recommendation(winner: Option<Variant>, sig: Significance): (r: string)
    ensures r in {NotEnoughData, UseA, UseB, NoDifference}
    ensures r == NotEnoughData <==> !sig.significant
    ensures sig.significant ==> (r == UseA <==> winner == Some(A)) && (r == UseB <==> winner == Some(B))
  {
    if !sig.significant then NotEnoughData
    else match winner
      case Some(A) => UseA
      case Some(B) => UseB
      case None => NoDifference
  }

  /** The `TestResult` of `analyze_test`. */
  datatype TestResult = TestResult(
    testId: string,
    performanceA: VariantMetrics,
    performanceB: VariantMetrics,
    winner: Option<Variant>,
    confidence: real,
    significant: bool,
    recommendation: string)

  /** `analyze_test`: a missing test raises; otherwise significance from the counters, the winner from the stored rates. */
  function AnalyzeTest(reg: Registry, id: string): (r: Result<TestResult>)
    ensures r.Failure? <==> id !in reg
    ensures r.Success? ==> r.value.winner.Some? ==> r.value.significant
    ensures r.Success? ==> (r.value.significant <==> r.value.confidence == 0.95)
    ensures r.Success? ==> r.value.recommendation in {NotEnoughData, UseA, UseB, NoDifference}
    ensures r.Success? ==> r.value.recommendation == Recommendation(r.value.winner, Significance(r.value.significant, r.value.confidence))
    ensures r.Success? ==> (r.value.recommendation == NotEnoughData <==> !r.value.significant)
    ensures r.Success? ==> (r.value.recommendation == UseA <==> r.value.winner == Some(A))
    ensures r.Success? ==> (r.value.recommendation == UseB <==> r.value.winner == Some(B))
    ensures r.Success? ==> r.value.significant == CalculateSignificance(reg[id].metricsA.conversions, reg[id].metricsA.totalLeads,
                                                                     reg[id].metricsB.conversions, reg[id].metricsB.totalLeads).significant
    ensures r.Success? ==> r.value.winner == Winner(Significance(r.value.significant, r.value.confidence),
                                                    reg[id].metricsA.conversionRate, reg[id].metricsB.conversionRate)
    ensures r.Success? ==> r.value.performanceA == reg[id].metricsA && r.value.performanceB == reg[id].metricsB
  {
    if id !in reg then Failure("Failed to analyze test: Test not found")
    else
      var t := reg[id];
      var sig := CalculateSignificance(t.metricsA.conversions, t.metricsA.totalLeads,
                                       t.metricsB.conversions, t.metricsB.totalLeads);
      var winner := Winner(sig, t.metricsA.conversionRate, t.metricsB.conversionRate);
      Success(TestResult(id, t.metricsA, t.metricsB, winner, sig.confidence, sig.significant,
                         Recommendation(winner, sig)))
  }

  /** With consistent rates, A wins iff significant and A's counters give the higher rate; a tie has no winner. */
  lemma WinnerFromCounters(reg: Registry, id: string)
    requires id in reg && MetricsConsistent(reg[id])
    ensures var t := reg[id];
      var res := AnalyzeTest(reg, id).value;
      && (res.winner == Some(A) <==> res.significant && Rate(t.metricsA.conversions, t.metricsA.totalLeads) > Rate(t.metricsB.conversions, t.metricsB.totalLeads))
      && (res.winner == Some(B) <==> res.significant && Rate(t.metricsB.conversions, t.metricsB.totalLeads) > Rate(t.metricsA.conversions, t.metricsA.totalLeads))
  {
  }

  /** A fresh test has too little data: no winner and the "continue testing" recommendation. */
  lemma FreshTestInconclusive(reg: Registry, name: string, description: string, a: string, b: string, split: real, now: int)
    ensures var (id, reg1) := CreateTest(reg, name, description, a, b, split, now);
      var res := AnalyzeTest(reg1, id);
      res.Success? && res.value.winner.None? && !res.value.significant && res.value.recommendation == NotEnoughData
  {
  }
}

=== FILE: analytics.dfy ===
/**
 * The event buffer of `AnalyticsManager` in albot/src/analytics.py: events
 * are queued and handed to the database in batches once ten or more are
 * waiting. The database client (`save_analytics_events` in
 * albot/src/integrations.py) catches its own errors and answers `False`,
 * but `_flush_events` ignores that answer and clears the queue whenever the
 * call returns; only an exception escaping the call keeps the queue. So a
 * batch the database refused is lost. The model records every batch handed
 * over together with whether it was stored, so that the lost events can be
 * named.
 */
module Analytics {
  import opened Wrappers

  /** `EventType`. */
  datatype EventType =
    | UserOnboarded | FileUploaded | ScriptGenerated | ScriptApplied
    | DialogStarted | DialogCompleted | LeadCreated | LeadScored
    | LeadBooked | LeadHotPush | SubscriptionStarted | SubscriptionCancelled
  {
    function Value(): string {
      match this
      case UserOnboarded => "user_onboarded"
      case FileUploaded => "file_uploaded"
      case ScriptGenerated => "script_generated"
      case ScriptApplied => "script_applied"
      case DialogStarted => "dialog_started"
      case DialogCompleted => "dialog_completed"
      case LeadCreated => "lead_created"
      case LeadScored => "lead_scored"
      case LeadBooked => "lead_booked"
      case LeadHotPush => "lead_hot_push"
      case SubscriptionStarted => "subscription_started"
      case SubscriptionCancelled => "subscription_cancelled"
    }
  }

  /** `EventType(v)`: lookup by value, `None` where Python raises `ValueError`. */
  function EventTypeOf(v: string): (r: Option<EventType>)
    ensures r.Some? ==> r.value.Value() == v
  {
    match v
    case "user_onboarded" => Some(UserOnboarded)
    case "file_uploaded" => Some(FileUploaded)
    case "script_generated" => Some(ScriptGenerated)
    case "script_applied" => Some(ScriptApplied)
    case "dialog_started" => Some(DialogStarted)
    case "dialog_completed" => Some(DialogCompleted)
    case "lead_created" => Some(LeadCreated)
    case "lead_scored" => Some(LeadScored)
    case "lead_booked" => Some(LeadBooked)
    case "lead_hot_push" => Some(LeadHotPush)
    case "subscription_started" => Some(SubscriptionStarted)
    case "subscription_cancelled" => Some(SubscriptionCancelled)
    case _ => None
  }

  /** Every event type is found again from its value, so the values are distinct. */
  lemma EventTypeRoundTrip(t: EventType)
    ensures EventTypeOf(t.Value()) == Some(t)
  {
  }

  /** `AnalyticsEvent`; the timestamp is in seconds. */
  datatype Event = Event(
    eventType: EventType,
    userId: int,
    timestamp: int,
    metadata: map<string, string>,
    sessionId: Option<string>)

  /** How the call to `save_analytics_events` ends. */
  datatype Write = Raised | ReturnedFalse | ReturnedTrue

  /** One batch handed to the database, and whether the database stored it. */
  datatype Batch = Batch(events: seq<Event>, stored: bool)

  /** The manager's state: the queued events, and every batch handed over so far, in order. */
  datatype Buffer = Buffer(queue: seq<Event>, batches: seq<Batch>)

  /** Every event handed over, in order. */
  function Handed(bs: seq<Batch>): seq<Event> {
    if |bs| == 0 then [] else Handed(bs[..|bs| - 1]) + bs[|bs| - 1].events
  }

  /** The events of the batches the database stored, in order. */
  function Saved(bs: seq<Batch>): seq<Event> {
    if |bs| == 0 then []
    else Saved(bs[..|bs| - 1]) + (if bs[|bs| - 1].stored then bs[|bs| - 1].events else [])
  }

  /** The events of the batches the database refused, in order. */
  function Lost(bs: seq<Batch>): seq<Event> {
    if |bs| == 0 then []
    else Lost(bs[..|bs| - 1]) + (if bs[|bs| - 1].stored then [] else bs[|bs| - 1].events)
  }

  /** Appending a batch appends its events to the handed, saved or lost events. */
  lemma AppendBatch(bs: seq<Batch>, x: Batch)
    ensures Handed(bs + [x]) == Handed(bs) + x.events
    ensures Saved(bs + [x]) == Saved(bs) + (if x.stored then x.events else [])
    ensures Lost(bs + [x]) == Lost(bs) + (if x.stored then [] else x.events)
  {
    assert (bs + [x])[..|bs|] == bs;
  }

  /** Every event handed over is either saved or lost, and nothing else is. */
  lemma {:induction false} HandedIsSavedOrLost(bs: seq<Batch>)
    ensures multiset(Handed(bs)) == multiset(Saved(bs)) + multiset(Lost(bs))
    ensures |Handed(bs)| == |Saved(bs)| + |Lost(bs)|
  {
    if |bs| > 0 {
      HandedIsSavedOrLost(bs[..|bs| - 1]);
    }
  }

  /** The batch size at which `track_event` flushes. */
  const FlushAt: nat := 10

  /**
   * `_flush_events`: an empty queue is left alone. Otherwise the whole queue
   * is handed to the database in one call; the queue is kept only when that
   * call raises, and is cleared whether the database stored the batch or not.
   */
  function Flush(b: Buffer, w: Write): (r: Buffer)
    ensures Handed(r.batches) + r.queue == Handed(b.batches) + b.queue
    ensures |b.queue| == 0 || w == Raised <==> r == b
    ensures w != Raised ==> |r.queue| == 0
    ensures w == ReturnedTrue ==> Saved(r.batches) == Saved(b.batches) + b.queue && Lost(r.batches) == Lost(b.batches)
    ensures w == ReturnedFalse ==> Lost(r.batches) == Lost(b.batches) + b.queue && Saved(r.batches) == Saved(b.batches)
  {
    if |b.queue| == 0 || w == Raised then b
    else
      var x := Batch(b.queue, w == ReturnedTrue);
      AppendBatch(b.batches, x);
      Buffer([], b.batches + [x])
  }

  /**
   * `track_event`: the event is built with `metadata or {}` and appended;
   * once ten or more events are queued the queue is flushed.
   */
  function TrackEvent(b: Buffer, eventType: EventType, userId: int, now: int,
                      metadata: Option<map<string, string>>, sessionId: Option<string>, w: Write): (r: Buffer)
    ensures Handed(r.batches) + r.queue == Handed(b.batches) + b.queue + [Event(eventType, userId, now, metadata.GetOr(map[]), sessionId)]
    ensures |b.queue| + 1 < FlushAt || w == Raised ==>
      r.batches == b.batches && r.queue == b.queue + [Event(eventType, userId, now, metadata.GetOr(map[]), sessionId)]
    ensures |b.queue| + 1 >= FlushAt && w != Raised ==>
      |r.queue| == 0 && r.batches == b.batches + [Batch(b.queue + [Event(eventType, userId, now, metadata.GetOr(map[]), sessionId)], w == ReturnedTrue)]
    ensures w == ReturnedTrue ==> Lost(r.batches) == Lost(b.batches)
  {
    var e := Event(eventType, userId, now, metadata.GetOr(map[]), sessionId);
    var queued := Buffer(b.queue + [e], b.batches);
    assert Handed(queued.batches) + queued.queue == Handed(b.batches) + b.queue + [e];
    if |queued.queue| >= FlushAt then Flush(queued, w) else queued
  }

  /** When no write raises, fewer than ten events are ever left queued. */
  lemma QueueStaysShort(b: Buffer, eventType: EventType, userId: int, now: int,
                        metadata: Option<map<string, string>>, sessionId: Option<string>, w: Write)
    requires |b.queue| < FlushAt && w != Raised
    ensures |TrackEvent(b, eventType, userId, now, metadata, sessionId, w).queue| < FlushAt
  {
  }

  /** A write raising at the tenth event leaves the queue growing past ten with the next one. */
  lemma FailedFlushGrows(b: Buffer, eventType: EventType, userId: int, now: int)
    requires |b.queue| == FlushAt - 1
    ensures
      var b2 := TrackEvent(b, eventType, userId, now, None, None, Raised);
      |TrackEvent(b2, eventType, userId, now, None, None, Raised).queue| == FlushAt + 1
  {
  }

  /**
   * A refused write at the tenth event loses the whole batch: the queue is
   * empty, nothing more is saved, and all ten events are lost.
   */
  lemma RefusedBatchLost(b: Buffer, eventType: EventType, userId: int, now: int)
    requires |b.queue| == FlushAt - 1
    ensures
      var r := TrackEvent(b, eventType, userId, now, None, None, ReturnedFalse);
      && |r.queue| == 0
      && Saved(r.batches) == Saved(b.batches)
      && Lost(r.batches) == Lost(b.batches) + b.queue + [Event(eventType, userId, now, map[], None)]
      && |Lost(r.batches)| == |Lost(b.batches)| + FlushAt
  {
    var e := Event(eventType, userId, now, map[], None);
    AppendBatch(b.batches, Batch(b.queue + [e], false));
  }

  /** One tracked call: the event's fields and how the database call at that point would end. */
  datatype Call = Call(eventType: EventType, userId: int, now: int,
                       metadata: Option<map<string, string>>, sessionId: Option<string>, write: Write)

  /** The event a call records. */
  function EventOf(c: Call): Event {
    Event(c.eventType, c.userId, c.now, c.metadata.GetOr(map[]), c.sessionId)
  }

  /** The events of several calls, in call order. */
  function EventsOf(calls: seq<Call>): (r: seq<Event>)
    ensures |r| == |calls|
    ensures forall k :: 0 <= k < |calls| ==> r[k] == EventOf(calls[k])
  {
    if |calls| == 0 then [] else [EventOf(calls[0])] + EventsOf(calls[1..])
  }

  /**
   * A run of `track_event` calls. Every event is handed over exactly once,
   * in call order, or still queued; when no write raises the queue stays
   * below ten; and only when every write is stored is nothing new lost.
   */
  method TrackAll(b: Buffer, calls: seq<Call>) returns (r: Buffer)
    ensures Handed(r.batches) + r.queue == Handed(b.batches) + b.queue + EventsOf(calls)
    ensures |b.queue| < FlushAt && (forall k :: 0 <= k < |calls| ==> calls[k].write != Raised) ==> |r.queue| < FlushAt
    ensures (forall k :: 0 <= k < |calls| ==> calls[k].write == ReturnedTrue) ==> Lost(r.batches) == Lost(b.batches)
  {
    ghost var neverRaised := forall k :: 0 <= k < |calls| ==> calls[k].write != Raised;
    ghost var allStored := forall k :: 0 <= k < |calls| ==> calls[k].write == ReturnedTrue;
    r := b;
    var i := 0;
    while i < |calls|
      invariant 0 <= i <= |calls|
      invariant Handed(r.batches) + r.queue == Handed(b.batches) + b.queue + EventsOf(calls[..i])
      invariant |b.queue| < FlushAt && neverRaised ==> |r.queue| < FlushAt
      invariant allStored ==> Lost(r.batches) == Lost(b.batches)
    {
      var c := calls[i];
      r := TrackEvent(r, c.eventType, c.userId, c.now, c.metadata, c.sessionId, c.write);
      assert EventsOf(calls[..i + 1]) == EventsOf(calls[..i]) + [EventOf(c)];
      i := i + 1;
    }
    assert calls[..i] == calls;
  }
}

=== FILE: billing.dfy ===
/**
 * The subscription manager of albot/src/billing.py: trial creation, trial
 * expiry into read-only mode, the dialog-limit gate, paid activation, the
 * payment-link guard and the subscription texts. Time is integer seconds;
 * the Supabase table is an in-memory map from user id to subscription.
 */
module Billing {
  import opened Wrappers
  import opened Text

  /** One day in seconds; `timedelta.days` is floor division by it. */
  const Day: int := 86400

  /** Name shown for trial and read-only subscriptions. */
  const DefaultBotName: string := "AL Bot"

  datatype Tier = Trial | Basic | Pro | Enterprise {
    function Value(): string {
      match this
      case Trial => "trial"
      case Basic => "basic"
      case Pro => "pro"
      case Enterprise => "enterprise"
    }
  }

  datatype Status = Active | Trial | Expired | Cancelled {
    function Value(): string {
      match this
      case Active => "active"
      case Trial => "trial"
      case Expired => "expired"
      case Cancelled => "cancelled"
    }
  }

  /** `UserSubscription`; instants are seconds, optional fields default to `None`. */
  datatype Subscription = Subscription(
    userId: int,
    tier: Tier,
    status: Status,
    trialStart: Option<int>,
    trialEnd: Option<int>,
    dialogsUsed: int,
    dialogsLimit: int,
    createdAt: int,
    expiresAt: Option<int>,
    customBotName: Option<string>,
    customLogoUrl: Option<string>,
    isReadOnly: bool)

  /** Stored subscriptions, by user id. */
  type Store = map<int, Subscription>

  /* ---------- trial ---------- */

  /** `create_trial_subscription`, with the configured trial length and dialog allowance. */
  function CreateTrial(userId: int, now: int, trialDays: int, trialDialogs: int): (r: Subscription)
    ensures r.userId == userId && r.tier == Tier.Trial && r.status == Status.Trial
    ensures r.trialStart == Some(now) && r.trialEnd == Some(now + trialDays * Day) && r.createdAt == now
    ensures r.dialogsUsed == 0 && r.dialogsLimit == trialDialogs
    ensures !r.isReadOnly && r.expiresAt == None && r.customBotName == None && r.customLogoUrl == None
  {
    Subscription(userId, Tier.Trial, Status.Trial, Some(now), Some(now + trialDays * Day),
      0, trialDialogs, now, None, None, None, false)
  }

  /**
   * `check_trial_expired`: a TRIAL subscription whose end lies strictly in
   * the past becomes EXPIRED and read-only and the answer is true; every
   * other subscription is returned unchanged with false.
   */
  function CheckTrialExpired(s: Subscription, now: int): (r: (bool, Subscription))
    ensures s.status != Status.Trial ==> r == (false, s)
    ensures r.0 <==> s.status == Status.Trial && s.trialEnd.Some? && now > s.trialEnd.value
    ensures r.0 ==> r.1 == s.(status := Status.Expired, isReadOnly := true)
    ensures !r.0 ==> r.1 == s
  {
    if s.status != Status.Trial then (false, s)
    else if s.trialEnd.Some? && now > s.trialEnd.value then
      (true, s.(status := Status.Expired, isReadOnly := true))
    else (false, s)
  }

  /** A trial without an end date never expires. */
  lemma OpenEndedTrialNeverExpires(s: Subscription, now: int)
    requires s.trialEnd == None
    ensures CheckTrialExpired(s, now) == (false, s)
  {
  }

  /** Checking again after an expiry reports nothing and changes nothing, at any later time. */
  lemma ExpiryIdempotent(s: Subscription, now: int, later: int)
    requires CheckTrialExpired(s, now).0
    ensures var e := CheckTrialExpired(s, now).1; CheckTrialExpired(e, later) == (false, e)
  {
  }

  /** A fresh trial expires exactly when the clock passes its configured length. */
  lemma FreshTrialExpiry(userId: int, created: int, trialDays: int, trialDialogs: int, now: int)
    ensures CheckTrialExpired(CreateTrial(userId, created, trialDays, trialDialogs), now).0
      <==> now > created + trialDays * Day
  {
  }

  /* ---------- dialog gate ---------- */

  /**
   * `check_dialog_limit`: true means no new dialog may start. Read-only
   * blocks; a trial blocks once its allowance is used up; a paid
   * subscription blocks only when it has a positive limit and reached it.
   */
  function CheckDialogLimit(s: Subscription): (blocked: bool)
    ensures s.isReadOnly ==> blocked
    ensures !s.isReadOnly && s.status == Status.Trial ==> (blocked <==> s.dialogsUsed >= s.dialogsLimit)
    ensures !s.isReadOnly && s.status != Status.Trial ==> (blocked <==> s.dialogsLimit > 0 && s.dialogsUsed >= s.dialogsLimit)
  {
    if s.isReadOnly then true
    else if s.status == Status.Trial then s.dialogsUsed >= s.dialogsLimit
    else if s.dialogsLimit > 0 then s.dialogsUsed >= s.dialogsLimit
    else false
  }

  /** An expired trial is blocked, whatever its counters say. */
  lemma ExpiredTrialBlocked(s: Subscription, now: int)
    requires CheckTrialExpired(s, now).0
    ensures CheckDialogLimit(CheckTrialExpired(s, now).1)
  {
  }

  /** Outside read-only mode the gate is the same for trials with a positive allowance and paid plans. */
  lemma PositiveLimitGate(s: Subscription)
    requires !s.isReadOnly && s.dialogsLimit > 0
    ensures CheckDialogLimit(s) <==> s.dialogsUsed >= s.dialogsLimit
  {
  }

  /** A fresh trial admits a dialog iff its allowance is positive. */
  lemma FreshTrialOpen(userId: int, now: int, trialDays: int, trialDialogs: int)
    ensures !CheckDialogLimit(CreateTrial(userId, now, trialDays, trialDialogs)) <==> trialDialogs > 0
  {
  }

  /* ---------- payment and activation ---------- */

  /** The monthly price in roubles of a paid tier; a trial cannot be bought. */
  function Price(tier: Tier): (r: Option<int>)
    ensures r.None? <==> tier == Tier.Trial
    ensures tier == Tier.Basic ==> r == Some(9900)
    ensures tier == Tier.Pro ==> r == Some(19900)
    ensures tier == Tier.Enterprise ==> r == Some(39900)
  {
    match tier
    case Trial => None
    case Basic => Some(9900)
    case Pro => Some(19900)
    case Enterprise => Some(39900)
  }

  /**
   * `create_payment_link`. The YooMoney request is a network call, given
   * here as `yoomoney(userId, tier, amount)`; the Tinkoff and
   * CloudPayments integrations are unimplemented and yield no link.
   */
  function CreatePaymentLink(userId: int, tier: Tier, provider: string,
                             yoomoney: (int, Tier, int) -> Option<string>): (r: Option<string>)
    ensures tier == Tier.Trial ==> r == None
    ensures r.Some? ==> provider == "yoomoney" && Price(tier).Some? && r == yoomoney(userId, tier, Price(tier).value)
    ensures tier != Tier.Trial && provider == "yoomoney" ==> r == yoomoney(userId, tier, Price(tier).value)
  {
    match Price(tier)
    case None => None
    case Some(amount) =>
      if provider == "yoomoney" then yoomoney(userId, tier, amount)
      else None
  }

  /** The dialog allowance of a paid tier; a tier outside the table gets 100. */
  function DialogLimit(tier: Tier): (r: int)
    ensures tier == Tier.Basic ==> r == 100
    ensures tier == Tier.Pro ==> r == 300
    ensures tier == Tier.Enterprise ==> r == 500
    ensures tier == Tier.Trial ==> r == 100
  {
    match tier
    case Pro => 300
    case Enterprise => 500
    case _ => 100
  }

  /** Higher tiers never get a smaller allowance. */
  lemma DialogLimitMonotone()
    ensures DialogLimit(Tier.Basic) < DialogLimit(Tier.Pro) < DialogLimit(Tier.Enterprise)
    ensures forall t: Tier :: DialogLimit(t) >= 100
  {
  }

  /**
   * The record `activate_subscription` saves: a fresh ACTIVE subscription
   * for thirty days. Fields it does not write, trial dates and custom
   * branding among them, come back as their defaults.
   */
  function Activated(userId: int, tier: Tier, now: int): (r: Subscription)
    ensures r.userId == userId && r.tier == tier && r.status == Status.Active
    ensures r.dialogsUsed == 0 && r.dialogsLimit == DialogLimit(tier) && !r.isReadOnly
    ensures r.createdAt == now && r.expiresAt == Some(now + 30 * Day)
    ensures r.trialStart == None && r.trialEnd == None && r.customBotName == None && r.customLogoUrl == None
  {
    Subscription(userId, tier, Status.Active, None, None, 0, DialogLimit(tier), now,
      Some(now + 30 * Day), None, None, false)
  }

  /** `activate_subscription`: the new record replaces whatever the user had. */
  function ActivateSubscription(store: Store, userId: int, tier: Tier, now: int): (r: (bool, Store))
    ensures r.0
    ensures r.1.Keys == store.Keys + {userId}
    ensures r.1[userId] == Activated(userId, tier, now)
    ensures forall u :: u in store && u != userId ==> r.1[u] == store[u]
  {
    (true, store[userId := Activated(userId, tier, now)])
  }

  /** Activation lifts every block: an activated subscription admits a dialog and is not a trial. */
  lemma ActivationOpensGate(userId: int, tier: Tier, now: int, later: int)
    ensures !CheckDialogLimit(Activated(userId, tier, now))
    ensures CheckTrialExpired(Activated(userId, tier, now), later).0 == false
  {
  }

  /** `cancel_subscription`: only the status of a stored subscription changes. */
  function CancelSubscription(store: Store, userId: int): (r: (bool, Store))
    ensures r.0
    ensures r.1.Keys == store.Keys
    ensures userId in store ==> r.1[userId] == store[userId].(status := Status.Cancelled)
    ensures forall u :: u in store && u != userId ==> r.1[u] == store[u]
  {
    if userId in store then (true, store[userId := store[userId].(status := Status.Cancelled)])
    else (true, store)
  }

  /** `increment_dialog_count`: one more dialog on a stored subscription, nothing else. */
  function IncrementDialogCount(store: Store, userId: int): (r: (bool, Store))
    ensures r.0
    ensures r.1.Keys == store.Keys
    ensures userId in store ==> r.1[userId] == store[userId].(dialogsUsed := store[userId].dialogsUsed + 1)
    ensures forall u :: u in store && u != userId ==> r.1[u] == store[u]
  {
    if userId in store then (true, store[userId := store[userId].(dialogsUsed := store[userId].dialogsUsed + 1)])
    else (true, store)
  }

  /** Each increment brings a trial with allowance `n` one dialog closer to the block: `n` of them reach it. */
  lemma {:induction false} IncrementsReachLimit(store: Store, userId: int, k: nat)
    requires userId in store && store[userId].status == Status.Trial && !store[userId].isReadOnly
    requires store[userId].dialogsUsed + k == store[userId].dialogsLimit
    ensures CheckDialogLimit(IncrementTimes(store, userId, k)[userId])
    ensures k > 0 ==> !CheckDialogLimit(store[userId])
  {
    if k > 0 {
      var next := IncrementDialogCount(store, userId).1;
      IncrementsReachLimit(next, userId, k - 1);
      IncrementTimesShift(store, userId, k);
    }
  }

  /** `k` increments in a row. */
  function IncrementTimes(store: Store, userId: int, k: nat): (r: Store)
    ensures r.Keys == store.Keys
    ensures userId in store ==> r[userId] == store[userId].(dialogsUsed := store[userId].dialogsUsed + k)
  {
    if k == 0 then store else IncrementDialogCount(IncrementTimes(store, userId, k - 1), userId).1
  }

  /** Doing the first increment before the remaining ones is the same as doing them all. */
  lemma IncrementTimesShift(store: Store, userId: int, k: nat)
    requires userId in store && k > 0
    ensures IncrementTimes(IncrementDialogCount(store, userId).1, userId, k - 1)[userId] == IncrementTimes(store, userId, k)[userId]
  {
  }

  /* ---------- texts ---------- */

  /** `timedelta(seconds=end - now).days`: the floor of the remaining time in whole days. */
  function DaysLeft(end: int, now: int): (d: int)
    ensures d * Day <= end - now < (d + 1) * Day
  {
    (end - now) / Day
  }

  /** Any two whole-day counts framing the same remaining time are equal. */
  lemma DaysLeftUnique(end: int, now: int, d: int)
    requires d * Day <= end - now < (d + 1) * Day
    ensures DaysLeft(end, now) == d
  {
  }

  const TrialInactive: string := "Trial не активен"

  /**
   * `get_trial_info`. A TRIAL subscription without an end date makes the
   * subtraction raise a `TypeError`, given here as a failure.
   */
  function GetTrialInfo(s: Subscription, now: int): (r: Result<string>)
    ensures s.status != Status.Trial ==> r == Success(TrialInactive)
    ensures s.status == Status.Trial ==> (r.Failure? <==> s.trialEnd.None?)
    ensures s.status == Status.Trial && s.trialEnd.Some? ==>
      r == Success("Trial: " + IntToString(DaysLeft(s.trialEnd.value, now)) + " дней, "
        + IntToString(s.dialogsLimit - s.dialogsUsed) + " диалогов")
  {
    if s.status != Status.Trial then Success(TrialInactive)
    else if s.trialEnd.None? then Failure("TypeError: unsupported operand type(s) for -")
    else
      var daysLeft := DaysLeft(s.trialEnd.value, now);
      var dialogsLeft := s.dialogsLimit - s.dialogsUsed;
      Success("Trial: " + IntToString(daysLeft) + " дней, " + IntToString(dialogsLeft) + " диалогов")
  }

  /** A trial ending nine days after it was read, read a moment later: eight days and twenty dialogs left of fifty. */
  lemma TrialInfoNineDaysAhead(s: Subscription, now: int)
    requires s.status == Status.Trial && s.trialEnd.Some?
    requires s.trialEnd.value - 9 * Day < now <= s.trialEnd.value - 8 * Day
    requires s.dialogsUsed == 30 && s.dialogsLimit == 50
    ensures GetTrialInfo(s, now) == Success("Trial: 8 дней, 20 диалогов")
  {
    DaysLeftUnique(s.trialEnd.value, now, 8);
    assert IntToString(8) == "8";
    assert IntToString(20) == NatToString(2) + "0" == "20";
    assert "Trial: " + "8" + " дней, " + "20" + " диалогов" == "Trial: 8 дней, 20 диалогов";
  }

  const ReadOnlyInfo: string := "🔒 Read-only режим. Доступна только история. Оформите подписку для продолжения работы."
  const ExpiredInfo: string := "Подписка истекла. Обновите для продолжения работы"
  const InactiveInfo: string := "Подписка не активна"

  /** `get_subscription_info`: read-only first, then by status. */
  function GetSubscriptionInfo(s: Subscription, now: int): (r: Result<string>)
    ensures s.isReadOnly ==> r == Success(ReadOnlyInfo)
    ensures !s.isReadOnly && s.status == Status.Trial ==> r == GetTrialInfo(s, now)
    ensures !s.isReadOnly && s.status == Status.Active ==> r == Success("Подписка " + s.tier.Value() + " активна")
    ensures !s.isReadOnly && s.status == Status.Expired ==> r == Success(ExpiredInfo)
    ensures !s.isReadOnly && s.status == Status.Cancelled ==> r == Success(InactiveInfo)
  {
    if s.isReadOnly then Success(ReadOnlyInfo)
    else match s.status
      case Trial => GetTrialInfo(s, now)
      case Active => Success("Подписка " + s.tier.Value() + " активна")
      case Expired => Success(ExpiredInfo)
      case Cancelled => Success(InactiveInfo)
  }

  /** Once a trial has expired its info is the read-only notice, at any time. */
  lemma ExpiredTrialInfo(s: Subscription, now: int, later: int)
    requires CheckTrialExpired(s, now).0
    ensures GetSubscriptionInfo(CheckTrialExpired(s, now).1, later) == Success(ReadOnlyInfo)
  {
  }

  /** Trials and read-only subscriptions show fixed branding. */
  predicate FixedBranding(s: Subscription) {
    s.status == Status.Trial || s.isReadOnly
  }

  /** `get_bot_name`: the custom name when branding is allowed and the name is non-empty. */
  function GetBotName(s: Subscription): (r: string)
    ensures FixedBranding(s) ==> r == DefaultBotName
    ensures !FixedBranding(s) && s.customBotName.Some? && s.customBotName.value != "" ==> r == s.customBotName.value
    ensures r == DefaultBotName || (s.customBotName == Some(r) && r != "")
  {
    if FixedBranding(s) then DefaultBotName
    else if s.customBotName.Some? && s.customBotName.value != "" then s.customBotName.value
    else DefaultBotName
  }

  /** `get_bot_logo`: the custom logo when branding is allowed. */
  function GetBotLogo(s: Subscription): (r: Option<string>)
    ensures FixedBranding(s) ==> r == None
    ensures !FixedBranding(s) ==> r == s.customLogoUrl
  {
    if FixedBranding(s) then None else s.customLogoUrl
  }

  /** Expiry takes the custom branding away, and activation starts from the default one. */
  lemma BrandingAfterTransitions(s: Subscription, now: int, userId: int, tier: Tier)
    ensures CheckTrialExpired(s, now).0 ==>
      GetBotName(CheckTrialExpired(s, now).1) == DefaultBotName && GetBotLogo(CheckTrialExpired(s, now).1) == None
    ensures GetBotName(Activated(userId, tier, now)) == DefaultBotName && GetBotLogo(Activated(userId, tier, now)) == None
  {
  }
}

=== FILE: branding.dfy ===
/**
 * Branding rights of albot/src/branding.py, decided from a billing.py
 * subscription: trials and read-only subscriptions get the fixed "AL Bot"
 * branding, PRO and ENTERPRISE may customise, ENTERPRISE alone the colours.
 */
module Branding {
  import opened Wrappers
  import Billing

  type Subscription = Billing.Subscription

  /** `BotBranding`. */
  datatype BotBranding = BotBranding(
    botName: string,
    logoUrl: Option<string>,
    welcomeMessage: Option<string>,
    customColors: Option<map<string, string>>)

  const FixedWelcome: string := "Привет! Я AL-бот: на базе ваших данных создам скрипт диалога и рекомендации."

  /** The branding every trial, read-only or unknown user gets. */
  const FixedBranding := BotBranding(Billing.DefaultBotName, None, Some(FixedWelcome), None)

  /** Trial status or read-only mode. */
  predicate Restricted(s: Subscription) {
    s.status == Billing.Status.Trial || s.isReadOnly
  }

  /**
   * `get_bot_branding`. Paid subscriptions show their own name (when
   * non-empty) and logo; the per-tier welcome message and colours are not
   * stored anywhere yet and always come out empty.
   */
  function GetBotBranding(sub: Option<Subscription>): (r: BotBranding)
    ensures sub.None? || Restricted(sub.value) ==> r == FixedBranding
    ensures sub.Some? && !Restricted(sub.value) ==>
      && r.logoUrl == sub.value.customLogoUrl
      && r.welcomeMessage == None && r.customColors == None
      && (r.botName == Billing.DefaultBotName || (sub.value.customBotName == Some(r.botName) && r.botName != ""))
  {
    match sub
    case None => FixedBranding
    case Some(s) =>
      if Restricted(s) then FixedBranding
      else
        var name := if s.customBotName.Some? && s.customBotName.value != "" then s.customBotName.value
                    else Billing.DefaultBotName;
        BotBranding(name, s.customLogoUrl, None, None)
  }

  /** The branding manager and the billing manager show the same name and logo. */
  lemma BrandingAgreesWithBilling(s: Subscription)
    ensures GetBotBranding(Some(s)).botName == Billing.GetBotName(s)
    ensures GetBotBranding(Some(s)).logoUrl == Billing.GetBotLogo(s)
  {
  }

  /** `can_customize_branding`: not for trials or read-only; otherwise PRO and ENTERPRISE only. */
  predicate CanCustomizeBranding(s: Subscription)
    ensures CanCustomizeBranding(s) ==>
      Billing.GetBotName(s) == (if s.customBotName.Some? && s.customBotName.value != "" then s.customBotName.value else Billing.DefaultBotName)
    ensures CanCustomizeBranding(s) ==> Billing.Price(s.tier).Some? && s.tier != Billing.Tier.Basic
  {
    !Restricted(s) && s.tier in {Billing.Tier.Pro, Billing.Tier.Enterprise}
  }

  /** `can_customize_name`. */
  predicate CanCustomizeName(s: Subscription)
    ensures CanCustomizeName(s) <==> CanCustomizeColors(s) || (!Restricted(s) && s.tier == Billing.Tier.Pro)
  {
    CanCustomizeBranding(s)
  }

  /** `can_customize_logo`. */
  predicate CanCustomizeLogo(s: Subscription)
    ensures CanCustomizeLogo(s) ==> GetBotBranding(Some(s)).logoUrl == s.customLogoUrl
  {
    CanCustomizeBranding(s)
  }

  /** `can_customize_colors`: ENTERPRISE only, and not for trials or read-only. */
  predicate CanCustomizeColors(s: Subscription)
    ensures CanCustomizeColors(s) ==> CanCustomizeBranding(s)
    ensures CanCustomizeColors(s) <==> CanCustomizeBranding(s) && s.tier != Billing.Tier.Pro
  {
    !Restricted(s) && s.tier == Billing.Tier.Enterprise
  }

  /** The rights are nested: colours imply branding, which implies a paid, unrestricted subscription. */
  lemma CustomizationRights(s: Subscription)
    ensures CanCustomizeColors(s) ==> CanCustomizeBranding(s)
    ensures CanCustomizeName(s) == CanCustomizeBranding(s) && CanCustomizeLogo(s) == CanCustomizeBranding(s)
    ensures CanCustomizeBranding(s) ==> !Restricted(s) && s.tier != Billing.Tier.Basic && s.tier != Billing.Tier.Trial
    ensures CanCustomizeBranding(s) && !CanCustomizeColors(s) ==> s.tier == Billing.Tier.Pro
  {
  }

  /** An expired trial loses every right at once. */
  lemma ExpiryRevokesRights(s: Subscription, now: int)
    requires Billing.CheckTrialExpired(s, now).0
    ensures var e := Billing.CheckTrialExpired(s, now).1;
      !CanCustomizeBranding(e) && !CanCustomizeColors(e) && GetBotBranding(Some(e)) == FixedBranding
  {
  }

  const TrialRestriction: string := "Trial: персонализация недоступна. Оформите подписку Pro или Enterprise."
  const ReadOnlyRestriction: string := "Read-only: персонализация недоступна. Оформите подписку для продолжения."
  const BasicRestriction: string := "Basic: персонализация недоступна. Обновите до Pro или Enterprise."
  const NoRestriction: string := "Персонализация доступна"

  /** `get_branding_restrictions`: trial first, then read-only, then BASIC, else allowed. */
  function GetBrandingRestrictions(s: Subscription): (r: string)
    ensures s.status == Billing.Status.Trial ==> r == TrialRestriction
    ensures s.status != Billing.Status.Trial && s.isReadOnly ==> r == ReadOnlyRestriction
    ensures !Restricted(s) && s.tier == Billing.Tier.Basic ==> r == BasicRestriction
    ensures r == NoRestriction <==> !Restricted(s) && s.tier != Billing.Tier.Basic
  {
    if s.status == Billing.Status.Trial then TrialRestriction
    else if s.isReadOnly then ReadOnlyRestriction
    else if s.tier == Billing.Tier.Basic then BasicRestriction
    else NoRestriction
  }

  /**
   * The message and the right agree except on one kind of subscription: a
   * TRIAL-tier plan with a non-trial status, which the message calls
   * customisable while `can_customize_branding` refuses it.
   */
  lemma RestrictionsMatchRights(s: Subscription)
    ensures CanCustomizeBranding(s) ==> GetBrandingRestrictions(s) == NoRestriction
    ensures GetBrandingRestrictions(s) == NoRestriction && !CanCustomizeBranding(s) <==>
      !Restricted(s) && s.tier == Billing.Tier.Trial
  {
  }
}

=== FILE: commands.dfy ===
/**
 * The decisions inside three command handlers of albot/src/commands.py:
 * how `/leads` buckets and tabulates leads, which buttons `/billing` offers
 * for a subscription, and who may see `/status`. Message layout and the
 * Telegram calls themselves are outside the model.
 */
module Commands {
  import opened Wrappers
  import opened Text
  import Models
  import Scoring
  import Billing

  /* ---------- /leads ---------- */

  /** A stored field of a lead: no such key, a stored null, or a value. */
  datatype Field<+T> = Missing | Null | Present(value: T) {
    /** `lead.get(key, default)` on a field that is not null. */
    function GetOr(default: T): T
      requires !Null?
    {
      if Present? then value else default
    }
  }

  /** A lead record as the database returns it. */
  datatype Lead = Lead(name: Field<string>, phone: Field<string>, score: Field<int>, status: Field<string>)

  /**
   * A lead the table cannot print: slicing a null name or phone, comparing
   * a null score and padding a null status each raise TypeError.
   */
  predicate HasNull(l: Lead) {
    l.name.Null? || l.phone.Null? || l.score.Null? || l.status.Null?
  }

  /** `lead.get('score', 0)`, defined where the score is not null. */
  function ScoreOf(l: Lead): int
    requires !l.score.Null?
  {
    l.score.GetOr(0)
  }

  /** No lead's score is null, so the summary can compare every score. */
  predicate ScoresPresent(leads: seq<Lead>) {
    forall k :: 0 <= k < |leads| ==> !leads[k].score.Null?
  }

  /** The emoji a row gets from its score. */
  datatype Bucket = Hot | Warm | Cold {
    function Emoji(): string {
      match this
      case Hot => "🔥"
      case Warm => "🟡"
      case Cold => "❄️"
    }
  }

  /** The row emoji: 🔥 from 70, 🟡 from 40, ❄️ below. */
  function BucketOf(score: int): (b: Bucket)
    ensures b == Hot ==> score >= 70
    ensures b == Cold ==> score < 40
  {
    if score >= 70 then Hot else if score >= 40 then Warm else Cold
  }

  /** The emoji bands are the lead-status bands of the scoring engine. */
  lemma BucketsAreStatuses(score: int)
    ensures BucketOf(score) == Hot <==> Scoring.StatusForScore(score) == Models.Hot
    ensures BucketOf(score) == Warm <==> Scoring.StatusForScore(score) == Models.Qualified
    ensures BucketOf(score) == Cold <==> Scoring.StatusForScore(score) == Models.New
  {
  }

  /** The summary's hot count: leads scoring at least 70; zero exactly when none does. */
  function HotCount(leads: seq<Lead>): (n: nat)
    requires ScoresPresent(leads)
    ensures n <= |leads|
    ensures n == 0 <==> forall k :: 0 <= k < |leads| ==> ScoreOf(leads[k]) < 70
  {
    if |leads| == 0 then 0
    else
      assert forall k :: 0 <= k < |leads| - 1 ==> leads[1..][k] == leads[k + 1];
      (if ScoreOf(leads[0]) >= 70 then 1 else 0) + HotCount(leads[1..])
  }

  /** The summary's warm count: leads scoring from 40 up to 69; zero exactly when none does. */
  function WarmCount(leads: seq<Lead>): (n: nat)
    requires ScoresPresent(leads)
    ensures n <= |leads|
    ensures n == 0 <==> forall k :: 0 <= k < |leads| ==> !(40 <= ScoreOf(leads[k]) < 70)
  {
    if |leads| == 0 then 0
    else
      assert forall k :: 0 <= k < |leads| - 1 ==> leads[1..][k] == leads[k + 1];
      (if 40 <= ScoreOf(leads[0]) < 70 then 1 else 0) + WarmCount(leads[1..])
  }

  /** The summary's cold count: leads scoring below 40; zero exactly when none does. */
  function ColdCount(leads: seq<Lead>): (n: nat)
    requires ScoresPresent(leads)
    ensures n <= |leads|
    ensures n == 0 <==> forall k :: 0 <= k < |leads| ==> ScoreOf(leads[k]) >= 40
  {
    if |leads| == 0 then 0
    else
      assert forall k :: 0 <= k < |leads| - 1 ==> leads[1..][k] == leads[k + 1];
      (if ScoreOf(leads[0]) < 40 then 1 else 0) + ColdCount(leads[1..])
  }

  /** Every lead is counted exactly once: the three counts add up to the total. */
  lemma {:induction false} CountsPartition(leads: seq<Lead>)
    requires ScoresPresent(leads)
    ensures HotCount(leads) + WarmCount(leads) + ColdCount(leads) == |leads|
  {
    if |leads| > 0 {
      CountsPartition(leads[1..]);
    }
  }

  /** Leads whose row emoji is the given one. */
  function BucketCount(leads: seq<Lead>, b: Bucket): (n: nat)
    requires ScoresPresent(leads)
    ensures n <= |leads|
  {
    if |leads| == 0 then 0 else (if BucketOf(ScoreOf(leads[0])) == b then 1 else 0) + BucketCount(leads[1..], b)
  }

  /** The summary counts are the numbers of rows carrying each emoji. */
  lemma {:induction false} CountsMatchEmoji(leads: seq<Lead>)
    requires ScoresPresent(leads)
    ensures HotCount(leads) == BucketCount(leads, Hot)
    ensures WarmCount(leads) == BucketCount(leads, Warm)
    ensures ColdCount(leads) == BucketCount(leads, Cold)
  {
    if |leads| > 0 {
      CountsMatchEmoji(leads[1..]);
    }
  }

  /** One line of the leads table. */
  datatype TableRow = TableRow(name: string, phone: string, score: int, bucket: Bucket, status: string)

  /** The name shown for a lead without one. */
  const UnknownName: string := "Неизвестно"

  /** How many leads the table shows. */
  const TableSize: nat := 10

  /**
   * One lead's line: name cut to 15 characters, phone to 12, missing fields
   * defaulted; nothing when a field is a stored null, where the source raises.
   */
  function RowOf(l: Lead): (r: Option<TableRow>)
    ensures r.None? <==> HasNull(l)
    ensures r.Some? ==> |r.value.name| <= 15 && IsPrefix(r.value.name, l.name.GetOr(UnknownName))
    ensures r.Some? ==> |r.value.phone| <= 12 && IsPrefix(r.value.phone, l.phone.GetOr(""))
    ensures r.Some? ==> r.value.name == Take(l.name.GetOr(UnknownName), 15)
    ensures r.Some? ==> r.value.phone == Take(l.phone.GetOr(""), 12)
    ensures r.Some? ==> r.value.score == ScoreOf(l) && r.value.bucket == BucketOf(ScoreOf(l))
    ensures r.Some? ==> r.value.status == l.status.GetOr("new")
  {
    if HasNull(l) then None
    else Some(TableRow(Take(l.name.GetOr(UnknownName), 15), Take(l.phone.GetOr(""), 12), ScoreOf(l),
      BucketOf(ScoreOf(l)), l.status.GetOr("new")))
  }

  /** The lines of all the given leads, or nothing as soon as one of them cannot be printed. */
  function Rows(leads: seq<Lead>): (r: Option<seq<TableRow>>)
    ensures r.None? <==> exists k :: 0 <= k < |leads| && HasNull(leads[k])
    ensures r.Some? ==> |r.value| == |leads| && forall k :: 0 <= k < |leads| ==> RowOf(leads[k]) == Some(r.value[k])
  {
    if |leads| == 0 then Some([])
    else
      assert forall k :: 0 <= k < |leads| - 1 ==> leads[1..][k] == leads[k + 1];
      match RowOf(leads[0])
      case None => None
      case Some(row) =>
        match Rows(leads[1..])
        case None => None
        case Some(rest) => Some([row] + rest)
  }

  /** How many lines the table has: the first ten leads at most. */
  function ShownCount(leads: seq<Lead>): nat {
    if |leads| <= TableSize then |leads| else TableSize
  }

  /**
   * The table of `/leads`: the first ten leads, in order, one line each;
   * nothing when one of those ten holds a null, while a null further down
   * is never looked at.
   */
  function Table(leads: seq<Lead>): (r: Option<seq<TableRow>>)
    ensures r.None? <==> exists k :: 0 <= k < |leads| && k < TableSize && HasNull(leads[k])
    ensures r.Some? ==> |r.value| == ShownCount(leads) && |r.value| <= TableSize
    ensures r.Some? ==> forall k :: 0 <= k < |r.value| ==> RowOf(leads[k]) == Some(r.value[k])
  {
    var n := ShownCount(leads);
    assert forall k :: 0 <= k < n ==> leads[..n][k] == leads[k];
    Rows(leads[..n])
  }

  /** A lead without a name appears as "Неизвестно" in full, and a short name is never cut. */
  lemma ShortNamesShownWhole(leads: seq<Lead>, k: nat)
    requires k < |leads| && k < TableSize
    ensures Table(leads).Some? && leads[k].name.Missing? ==> Table(leads).value[k].name == UnknownName
    ensures Table(leads).Some? && leads[k].name.Present? && |leads[k].name.value| <= 15 ==>
      Table(leads).value[k].name == leads[k].name.value
  {
    assert |UnknownName| == 10;
  }

  /** The number of 🔥 lines of a table. */
  function HotLines(rows: seq<TableRow>): (n: nat)
    ensures n <= |rows|
  {
    if |rows| == 0 then 0 else (if rows[0].bucket == Hot then 1 else 0) + HotLines(rows[1..])
  }

  /**
   * With at most ten leads, a table that can be printed has no null score,
   * and the hot count of the summary is the number of 🔥 lines in it.
   */
  lemma TableAgreesWithSummary(leads: seq<Lead>)
    requires |leads| <= TableSize
    ensures Table(leads).Some? ==> ScoresPresent(leads) && HotCount(leads) == HotLines(Table(leads).value)
  {
    if Table(leads).Some? {
      assert ScoresPresent(leads) by {
        forall k | 0 <= k < |leads| ensures !leads[k].score.Null? {
          assert RowOf(leads[k]).Some?;
        }
      }
      CountsMatchEmoji(leads);
      HotRows(leads, Table(leads).value);
    }
  }

  /** Lines built one per lead carry as many 🔥 as there are hot-bucketed leads. */
  lemma {:induction false} HotRows(leads: seq<Lead>, rows: seq<TableRow>)
    requires ScoresPresent(leads)
    requires |rows| == |leads|
    requires forall k :: 0 <= k < |rows| ==> rows[k].bucket == BucketOf(ScoreOf(leads[k]))
    ensures BucketCount(leads, Hot) == HotLines(rows)
  {
    if |leads| > 0 {
      assert forall k :: 0 <= k < |rows[1..]| ==> rows[1..][k] == rows[k + 1] && leads[1..][k] == leads[k + 1];
      HotRows(leads[1..], rows[1..]);
    }
  }

  /** What `/leads` answers: the empty notice, the error reply, or the table with its summary. */
  datatype LeadsView =
    | NoLeads
    | LeadsError
    | LeadsShown(rows: seq<TableRow>, total: nat, hot: nat, warm: nat, cold: nat)

  /**
   * `on_leads` once the leads are fetched: the empty notice for none; the
   * error reply when the table or the summary meets a null; otherwise the
   * table and the three counts.
   */
  function OnLeads(leads: seq<Lead>): (v: LeadsView)
    ensures v == NoLeads <==> |leads| == 0
    ensures v == LeadsError <==>
      exists k :: 0 <= k < |leads| && (leads[k].score.Null? || (k < TableSize && HasNull(leads[k])))
    ensures v.LeadsShown? ==> v.total == |leads| && v.hot + v.warm + v.cold == v.total
    ensures v.LeadsShown? ==> ScoresPresent(leads)
    ensures v.LeadsShown? ==> v.hot == HotCount(leads) && v.warm == WarmCount(leads) && v.cold == ColdCount(leads)
    ensures v.LeadsShown? ==> |v.rows| == ShownCount(leads)
    ensures v.LeadsShown? ==> forall k :: 0 <= k < |v.rows| ==> RowOf(leads[k]) == Some(v.rows[k])
  {
    if |leads| == 0 then NoLeads
    else
      match Table(leads)
      case None => LeadsError
      case Some(rows) =>
        if !ScoresPresent(leads) then LeadsError
        else
          CountsPartition(leads);
          LeadsShown(rows, |leads|, HotCount(leads), WarmCount(leads), ColdCount(leads))
  }

  /**
   * A null among the first ten leads fails the whole reply, while a null
   * name on the eleventh lead is never read; a null score fails it anywhere,
   * because the summary compares every score.
   */
  lemma NullsFailTheReply()
    ensures var plain := Lead(Present("Анна"), Present("+79001234567"), Present(80), Missing);
      OnLeads([Lead(Null, Missing, Present(80), Missing)]) == LeadsError &&
      OnLeads(seq(10, _ => plain) + [Lead(Null, Missing, Present(10), Missing)]).LeadsShown? &&
      OnLeads(seq(10, _ => plain) + [Lead(Missing, Missing, Null, Missing)]) == LeadsError
  {
    var plain := Lead(Present("Анна"), Present("+79001234567"), Present(80), Missing);
    var first := seq(10, _ => plain);
    var late := first + [Lead(Null, Missing, Present(10), Missing)];
    assert late[..10] == first;
    assert !HasNull(plain);
    assert Table(late).Some?;
    assert late[10].score.Present?;
    assert ScoresPresent(late);
    var bad := first + [Lead(Missing, Missing, Null, Missing)];
    assert bad[10].score.Null?;
  }

  /* ---------- /billing ---------- */

  /** The dialog limit as displayed: "Безлимит" for zero or below. */
  const Unlimited: string := "Безлимит"

  /** `/billing`'s limit line; a positive limit is shown as its decimal digits, which read back as the limit. */
  function LimitText(limit: int): (r: string)
    ensures r == Unlimited <==> limit <= 0
    ensures limit > 0 ==> AllDigits(r) && ParseDigits(r) == limit
  {
    if limit > 0 then
      var r := NatToString(limit);
      ParseNatToString(limit);
      assert IsDigit(r[0]) && !IsDigit(Unlimited[0]);
      r
    else Unlimited
  }

  /** The buttons `/billing` can offer. */
  datatype Button = SubscribeBasic | SubscribePro | SubscribeEnterprise | CancelSubscription {
    function Callback(): string {
      match this
      case SubscribeBasic => "subscribe_basic"
      case SubscribePro => "subscribe_pro"
      case SubscribeEnterprise => "subscribe_enterprise"
      case CancelSubscription => "cancel_subscription"
    }
  }

  /** The three subscribe buttons, cheapest first. */
  const SubscribeButtons: seq<Button> := [SubscribeBasic, SubscribePro, SubscribeEnterprise]

  /**
   * The keyboard of `/billing`: the three subscribe buttons for a trial, an
   * expired or a read-only subscription, then the cancel button for an
   * active one.
   */
  function Keyboard(s: Billing.Subscription): (r: seq<Button>)
    ensures SubscribeBasic in r <==> s.status in {Billing.Status.Trial, Billing.Status.Expired} || s.isReadOnly
    ensures SubscribeBasic in r <==> SubscribeEnterprise in r
    ensures CancelSubscription in r <==> s.status == Billing.Status.Active
    ensures |r| == 0 <==> s.status == Billing.Status.Cancelled && !s.isReadOnly
  {
    var subscribe := s.status in {Billing.Status.Trial, Billing.Status.Expired} || s.isReadOnly;
    (if subscribe then SubscribeButtons else []) + (if s.status == Billing.Status.Active then [CancelSubscription] else [])
  }

  /**
   * What `/billing` shows: nothing found; the error reply when building the
   * text raised; or the usage, the limit line, the trial line of a trial,
   * and the keyboard.
   */
  datatype BillingView =
    | NotFound
    | BillingError(message: string)
    | Shown(used: int, limitText: string, trialInfo: Option<string>, buttons: seq<Button>)

  /** The prefix of the reply `/billing` sends when building its text raised. */
  const BillingErrorPrefix: string := "❌ Ошибка получения информации о подписке: "

  /**
   * `/billing` at time `now`. For a trial the text includes `get_trial_info`,
   * which raises on a trial without an end date; the handler then sends the
   * error reply without a keyboard.
   */
  function OnBilling(sub: Option<Billing.Subscription>, now: int): (r: BillingView)
    ensures sub.None? <==> r == NotFound
    ensures r.BillingError? <==> sub.Some? && sub.value.status == Billing.Status.Trial && sub.value.trialEnd.None?
    ensures r.BillingError? ==> IsPrefix(BillingErrorPrefix, r.message)
    ensures r.Shown? ==> r.used == sub.value.dialogsUsed
    ensures r.Shown? ==> r.limitText == LimitText(sub.value.dialogsLimit) && r.buttons == Keyboard(sub.value)
    ensures r.Shown? ==> (r.trialInfo.Some? <==> sub.value.status == Billing.Status.Trial)
    ensures r.Shown? && r.trialInfo.Some? ==> Billing.GetTrialInfo(sub.value, now) == Success(r.trialInfo.value)
  {
    match sub
    case None => NotFound
    case Some(s) =>
      if s.status != Billing.Status.Trial then Shown(s.dialogsUsed, LimitText(s.dialogsLimit), None, Keyboard(s))
      else
        match Billing.GetTrialInfo(s, now)
        case Failure(e) => BillingError(BillingErrorPrefix + e)
        case Success(info) => Shown(s.dialogsUsed, LimitText(s.dialogsLimit), Some(info), Keyboard(s))
  }

  /** A trial with no end date gets the error reply and no buttons; with an end date it gets the three plans. */
  lemma OpenTrialBillingFails(s: Billing.Subscription, now: int)
    requires s.status == Billing.Status.Trial
    ensures s.trialEnd.None? ==> OnBilling(Some(s), now).BillingError?
    ensures s.trialEnd.Some? ==> OnBilling(Some(s), now).Shown? && OnBilling(Some(s), now).buttons == SubscribeButtons
  {
  }

  /** A freshly paid subscription offers only cancellation; a trial that has just expired offers only the three plans. */
  lemma KeyboardAfterTransitions(userId: int, tier: Billing.Tier, now: int, s: Billing.Subscription, later: int)
    ensures Keyboard(Billing.Activated(userId, tier, now)) == [CancelSubscription]
    ensures Billing.CheckTrialExpired(s, later).0 ==> Keyboard(Billing.CheckTrialExpired(s, later).1) == SubscribeButtons
  {
  }

  /* ---------- /status ---------- */

  /** The admin list `/status` checks. */
  const Admins: seq<int> := [123456789]

  /** `/status` answers only users on the admin list; everyone else is refused. */
  function SystemStatusAllowed(userId: int): (ok: bool)
    ensures ok <==> userId == 123456789
  {
    userId in Admins
  }
}

=== FILE: commercial.dfy ===
/**
 * The offer and cost rules of albot/src/commercial.py over billing.py
 * subscriptions: which commercial offer a user sees, the usage percentage,
 * the monthly cost table and the guards around the ROI estimate. Rates
 * are exact rationals where Python computes with floats.
 */
module Commercial {
  import opened Wrappers
  import Billing

  type Subscription = Billing.Subscription

  /** The three offers of `get_commercial_offer` with the figures each one shows. */
  datatype Offer =
    | TrialOffer
    | UpgradeOffer(daysLeft: int)
    | CurrentPlan(tier: Billing.Tier, dialogsUsed: int, dialogsLimit: int, usagePercent: real)
  {
    function OfferType(): string {
      match this
      case TrialOffer => "trial"
      case UpgradeOffer(_) => "upgrade"
      case CurrentPlan(_, _, _, _) => "current_plan"
    }
  }

  /** `used / limit * 100`, or 0 when the limit is not positive. */
  function UsagePercent(used: int, limit: int): (r: real)
    ensures limit <= 0 ==> r == 0.0
    ensures limit > 0 ==> r * limit as real == 100.0 * used as real
  {
    if limit > 0 then used as real / limit as real * 100.0 else 0.0
  }

  /** Usage stays within 0..100 while the count stays within the positive limit. */
  lemma UsagePercentBounds(used: int, limit: int)
    requires limit > 0 && 0 <= used <= limit
    ensures 0.0 <= UsagePercent(used, limit) <= 100.0
    ensures UsagePercent(used, limit) == 100.0 <==> used == limit
  {
  }

  /**
   * `get_commercial_offer`: a new user is offered the trial, a TRIAL-tier
   * user an upgrade with the whole days left (0 without an end date), and
   * anyone else sees their current plan.
   */
  function GetCommercialOffer(sub: Option<Subscription>, now: int): (r: Offer)
    ensures sub.None? <==> r.TrialOffer?
    ensures r.UpgradeOffer? <==> sub.Some? && sub.value.tier == Billing.Tier.Trial
    ensures r.UpgradeOffer? && sub.value.trialEnd.None? ==> r.daysLeft == 0
    ensures r.UpgradeOffer? && sub.value.trialEnd.Some? ==>
      r.daysLeft * Billing.Day <= sub.value.trialEnd.value - now < (r.daysLeft + 1) * Billing.Day
    ensures r.CurrentPlan? ==>
      && r.tier == sub.value.tier && r.dialogsUsed == sub.value.dialogsUsed
      && r.dialogsLimit == sub.value.dialogsLimit && r.usagePercent == UsagePercent(r.dialogsUsed, r.dialogsLimit)
  {
    match sub
    case None => TrialOffer
    case Some(s) =>
      if s.tier == Billing.Tier.Trial then
        UpgradeOffer(if s.trialEnd.Some? then Billing.DaysLeft(s.trialEnd.value, now) else 0)
      else CurrentPlan(s.tier, s.dialogsUsed, s.dialogsLimit, UsagePercent(s.dialogsUsed, s.dialogsLimit))
  }

  /** Offer types by subscription: "trial" without one, "upgrade" for TRIAL, "current_plan" otherwise. */
  lemma OfferTypes(sub: Option<Subscription>, now: int)
    ensures GetCommercialOffer(sub, now).OfferType() ==
      (if sub.None? then "trial" else if sub.value.tier == Billing.Tier.Trial then "upgrade" else "current_plan")
  {
  }

  /** A fresh billing.py trial is offered an upgrade counting down its configured days. */
  lemma FreshTrialUpgrade(userId: int, now: int, trialDays: int, trialDialogs: int)
    ensures GetCommercialOffer(Some(Billing.CreateTrial(userId, now, trialDays, trialDialogs)), now)
      == UpgradeOffer(trialDays)
  {
    Billing.DaysLeftUnique(now + trialDays * Billing.Day, now, trialDays);
  }

  /** `_get_monthly_cost`. */
  function MonthlyCost(tier: Billing.Tier): (r: int)
    ensures tier == Billing.Tier.Trial ==> r == 0
    ensures tier == Billing.Tier.Basic ==> r == 9900
    ensures tier == Billing.Tier.Pro ==> r == 19900
    ensures tier == Billing.Tier.Enterprise ==> r == 39900
  {
    match tier
    case Trial => 0
    case Basic => 9900
    case Pro => 19900
    case Enterprise => 39900
  }

  /** The monthly cost is the billing price of a paid tier and zero for a trial. */
  lemma CostMatchesPrice(tier: Billing.Tier)
    ensures Billing.Price(tier).Some? ==> MonthlyCost(tier) == Billing.Price(tier).value
    ensures Billing.Price(tier).None? <==> MonthlyCost(tier) == 0
  {
  }

  /** What `get_roi_calculation` returns. */
  datatype Roi =
    | NoSubscription
    | NotEnoughData
    | Calculated(dialogs: int, hotLeads: int, meetings: int, monthlyCost: int, roiPercent: real, paysOff: bool)

  /** Assumed deal value in roubles and the share of hot leads that close. */
  const AverageDeal: real := 500000.0
  const DealConversion: real := 0.05

  /** `(revenue - cost) / cost * 100`, or 0 when the cost is not positive. */
  function RoiPercent(revenue: real, cost: int): (r: real)
    ensures cost <= 0 ==> r == 0.0
    ensures cost > 0 ==> (r > 0.0 <==> revenue > cost as real)
  {
    if cost > 0 then (revenue - cost as real) / cost as real * 100.0 else 0.0
  }

  /**
   * `get_roi_calculation`. The metrics dictionary is `None` or a map of
   * counters; an empty one counts as missing, and missing counters are 0.
   */
  function GetRoiCalculation(sub: Option<Subscription>, metrics: Option<map<string, int>>): (r: Roi)
    ensures sub.None? <==> r.NoSubscription?
    ensures sub.Some? && (metrics.None? || metrics.value == map[]) <==> r.NotEnoughData?
    ensures r.Calculated? ==> r.dialogs == (if "total_dialogs" in metrics.value then metrics.value["total_dialogs"] else 0)
    ensures r.Calculated? ==> r.hotLeads == (if "hot_leads" in metrics.value then metrics.value["hot_leads"] else 0)
    ensures r.Calculated? ==> r.meetings == (if "meetings_scheduled" in metrics.value then metrics.value["meetings_scheduled"] else 0)
    ensures r.Calculated? ==>
      && r.monthlyCost == MonthlyCost(sub.value.tier)
      && (r.paysOff <==> r.roiPercent > 0.0)
      && (r.paysOff <==> r.monthlyCost > 0 && r.hotLeads as real * DealConversion * AverageDeal > r.monthlyCost as real)
  {
    match sub
    case None => NoSubscription
    case Some(s) =>
      match metrics
      case None => NotEnoughData
      case Some(m) =>
        if m == map[] then NotEnoughData
        else
          var dialogs := if "total_dialogs" in m then m["total_dialogs"] else 0;
          var hot := if "hot_leads" in m then m["hot_leads"] else 0;
          var meetings := if "meetings_scheduled" in m then m["meetings_scheduled"] else 0;
          var cost := MonthlyCost(s.tier);
          var revenue := hot as real * DealConversion * AverageDeal;
          var roi := RoiPercent(revenue, cost);
          Calculated(dialogs, hot, meetings, cost, roi, roi > 0.0)
  }

  /** A trial never pays off, however many hot leads it brought. */
  lemma TrialNeverPaysOff(s: Subscription, metrics: map<string, int>)
    requires s.tier == Billing.Tier.Trial && metrics != map[]
    ensures var r := GetRoiCalculation(Some(s), Some(metrics)); r.Calculated? && r.roiPercent == 0.0 && !r.paysOff
  {
  }

  /**
   * A hot lead is worth 25000 roubles: one pays off BASIC and PRO, two are
   * needed for ENTERPRISE.
   */
  lemma HotLeadsPayOff(s: Subscription, metrics: map<string, int>)
    requires s.tier != Billing.Tier.Trial && "hot_leads" in metrics
    ensures s.tier != Billing.Tier.Enterprise && metrics["hot_leads"] >= 1 ==> GetRoiCalculation(Some(s), Some(metrics)).paysOff
    ensures s.tier == Billing.Tier.Enterprise ==> (GetRoiCalculation(Some(s), Some(metrics)).paysOff <==> metrics["hot_leads"] >= 2)
  {
    var hot := metrics["hot_leads"];
    assert hot as real * DealConversion * AverageDeal == hot as real * 25000.0;
  }
}

=== FILE: error_handler.dfy ===
/**
 * The decisions of albot/src/error_handler.py: how an exception message is
 * classified, and which `handle_*` call raises an alert at which level.
 * Logging, the error-log table (still a stub in the source) and the
 * delivery of alerts are outside the model; an alert is returned instead.
 */
module ErrorHandler {
  import opened Wrappers
  import opened Text
  import opened Models
  import Monitoring

  /** `ErrorType`. */
  datatype ErrorType = Bot500 | BotTimeout | CrmError | LlmError | DatabaseError | NetworkError {
    function Value(): string {
      match this
      case Bot500 => "bot_500"
      case BotTimeout => "bot_timeout"
      case CrmError => "crm_error"
      case LlmError => "llm_error"
      case DatabaseError => "database_error"
      case NetworkError => "network_error"
    }
  }

  /** The alert a handler asks the monitoring manager to create. */
  datatype Alert = Alert(level: AlertLevel, title: string, message: string)

  predicate Says500(m: string) {
    Contains(m, "500") || Contains(m, "internal server error")
  }

  predicate SaysTimeout(m: string) {
    Contains(m, "timeout") || Contains(m, "timed out")
  }

  predicate SaysNetwork(m: string) {
    Contains(m, "network") || Contains(m, "connection")
  }

  /**
   * `_classify_error` on the exception's message, lower-cased: server
   * errors first, then timeouts, then network errors; anything else counts
   * as a server error.
   */
  function ClassifyError(message: string): (r: ErrorType)
    ensures r in {Bot500, BotTimeout, NetworkError}
    ensures r == BotTimeout <==> !Says500(Lower(message)) && SaysTimeout(Lower(message))
    ensures r == NetworkError <==> !Says500(Lower(message)) && !SaysTimeout(Lower(message)) && SaysNetwork(Lower(message))
    ensures Says500(Lower(message)) ==> r == Bot500
  {
    var m := Lower(message);
    if Says500(m) then Bot500
    else if SaysTimeout(m) then BotTimeout
    else if SaysNetwork(m) then NetworkError
    else Bot500
  }

  /** Classification ignores case. */
  lemma ClassifyIgnoresCase(message: string)
    ensures ClassifyError(Lower(message)) == ClassifyError(message)
  {
    LowerIdempotent(message);
  }

  /** The classifier never produces the CRM, LLM or database types; those only come from their own handlers. */
  lemma ClassifierRange(message: string)
    ensures ClassifyError(message) !in {CrmError, LlmError, DatabaseError}
    ensures ClassifyError(message) == Bot500 <==> Says500(Lower(message)) || (!SaysTimeout(Lower(message)) && !SaysNetwork(Lower(message)))
  {
  }

  /**
   * `handle_bot_error`: a CRITICAL alert, with the message cut to 100
   * characters, exactly when the error is classified as a server error or
   * a timeout.
   */
  function BotErrorAlert(message: string): (r: Option<Alert>)
    ensures r.Some? <==> ClassifyError(message) in {Bot500, BotTimeout}
    ensures r.Some? ==> r.value.level == Critical && r.value.title == "Bot Critical Error"
    ensures r.Some? ==> r.value.message == "Bot error: " + ClassifyError(message).Value() + " - " + Take(message, 100)
  {
    var t := ClassifyError(message);
    if t == Bot500 || t == BotTimeout then
      Some(Alert(Critical, "Bot Critical Error", "Bot error: " + t.Value() + " - " + Take(message, 100)))
    else None
  }

  /** Network errors are the only bot errors that never alert. */
  lemma NetworkErrorsStayQuiet(message: string)
    ensures BotErrorAlert(message).None? <==> ClassifyError(message) == NetworkError
  {
  }

  /** `handle_crm_error`: a CRITICAL alert once more than five CRM errors in a row have been seen. */
  function CrmErrorAlert(crmType: string, consecutive: int): (r: Option<Alert>)
    ensures r.Some? <==> consecutive > 5
    ensures r.Some? ==> r.value.level == Critical && r.value.title == "CRM Consecutive Errors"
    ensures r.Some? ==> r.value.message == "CRM " + crmType + " has " + IntToString(consecutive) + " consecutive errors"
  {
    if consecutive > 5 then
      Some(Alert(Critical, "CRM Consecutive Errors", "CRM " + crmType + " has " + IntToString(consecutive) + " consecutive errors"))
    else None
  }

  /** `handle_llm_error`: a WARNING when the failing request used more than 100000 tokens. */
  function LlmErrorAlert(userId: int, tokensUsed: int): (r: Option<Alert>)
    ensures r.Some? <==> tokensUsed > 100000
    ensures r.Some? ==> r.value.level == Warning && r.value.title == "High LLM Usage"
    ensures r.Some? ==> r.value.message == "User " + IntToString(userId) + " used " + IntToString(tokensUsed) + " tokens with error"
  {
    if tokensUsed > 100000 then
      Some(Alert(Warning, "High LLM Usage", "User " + IntToString(userId) + " used " + IntToString(tokensUsed) + " tokens with error"))
    else None
  }

  /**
   * `handle_database_error`: every database error raises a CRITICAL alert,
   * whose message names the operation and keeps the first 100 characters
   * of the error.
   */
  function DatabaseErrorAlert(message: string, operation: string): (r: Alert)
    ensures r.level == Critical && r.title == "Database Error"
    ensures IsPrefix("Database error in " + operation + ": ", r.message)
    ensures |r.message| <= |"Database error in " + operation + ": "| + 100
    ensures |message| <= 100 ==> r.message == "Database error in " + operation + ": " + message
    ensures |message| > 100 ==> r.message == "Database error in " + operation + ": " + message[..100]
  {
    var head := "Database error in " + operation + ": ";
    var m := head + Take(message, 100);
    assert m[..|head|] == head;
    Alert(Critical, "Database Error", m)
  }

  /** The alert levels: only database and bot errors are critical, a CRM streak is too, LLM usage only warns. */
  lemma AlertLevels(message: string, crmType: string, consecutive: int, userId: int, tokens: int, operation: string)
    ensures BotErrorAlert(message).Some? ==> BotErrorAlert(message).value.level == Critical
    ensures CrmErrorAlert(crmType, consecutive).Some? ==> CrmErrorAlert(crmType, consecutive).value.level == Critical
    ensures LlmErrorAlert(userId, tokens).Some? ==> LlmErrorAlert(userId, tokens).value.level == Warning
    ensures DatabaseErrorAlert(message, operation).level == Critical
    ensures consecutive <= 5 && tokens <= 100000 ==> CrmErrorAlert(crmType, consecutive).None? && LlmErrorAlert(userId, tokens).None?
  {
  }

  /**
   * The CRM streak rule is the one the monitor applies: the handler alerts
   * exactly when `check_crm_api_errors` would raise its CRITICAL request, under
   * the same title.
   */
  lemma CrmRuleMatchesMonitor(crmType: string, consecutive: int, errorRate: real)
    ensures CrmErrorAlert(crmType, consecutive).Some? <==>
      Monitoring.CountLevel(Monitoring.CrmAlerts(errorRate, consecutive), Critical) == 1
    ensures CrmErrorAlert(crmType, consecutive).Some? ==>
      Monitoring.Request(Critical, CrmErrorAlert(crmType, consecutive).value.title) in Monitoring.CrmAlerts(errorRate, consecutive)
  {
  }

  /**
   * The LLM rule is the monitor's general 100000-token warning: the handler
   * alerts exactly when `check_llm_token_usage` would warn "High LLM Usage"
   * for a user without a plan.
   */
  lemma LlmRuleMatchesMonitor(userId: int, tokensUsed: int)
    ensures LlmErrorAlert(userId, tokensUsed).Some? <==>
      Monitoring.Request(Warning, "High LLM Usage") in Monitoring.TokenAlerts(None, tokensUsed)
  {
    var r := Monitoring.TokenAlerts(None, tokensUsed);
    assert r == (if tokensUsed > 100000 then [Monitoring.Request(Warning, "High LLM Usage")] else []) +
      (if tokensUsed > 500000 then [Monitoring.Request(Critical, "Excessive LLM Usage")] else []);
  }

  /** A handler's alert handed to `create_alert`. */
  function Deliver(queue: seq<Monitoring.Alert>, a: Alert, now: int): (r: (seq<Monitoring.Alert>, bool))
    ensures |r.0| == |queue| + 1 && r.0[..|queue|] == queue
    ensures r.0[|queue|].title == a.title && r.0[|queue|].message == a.message && !r.0[|queue|].resolved
  {
    var r := Monitoring.CreateAlert(queue, a.level, a.title, a.message, now);
    assert r.0[..|queue|] == queue;
    r
  }

  /**
   * Every alert a handler raises reaches the monitor's queue unresolved,
   * behind the alerts already there, and is forwarded to the Telegram
   * errors channel, since no handler raises an INFO alert.
   */
  lemma HandlerAlertsPushed(queue: seq<Monitoring.Alert>, now: int, message: string, crmType: string, consecutive: int,
                            userId: int, tokens: int, operation: string)
    ensures Deliver(queue, DatabaseErrorAlert(message, operation), now).1
    ensures BotErrorAlert(message).Some? ==> Deliver(queue, BotErrorAlert(message).value, now).1
    ensures CrmErrorAlert(crmType, consecutive).Some? ==> Deliver(queue, CrmErrorAlert(crmType, consecutive).value, now).1
    ensures LlmErrorAlert(userId, tokens).Some? ==> Deliver(queue, LlmErrorAlert(userId, tokens).value, now).1
  {
  }
}

=== FILE: health_checker.dfy ===
/**
 * The classifiers of albot/src/health_checker.py: each component check
 * turns a measurement into a status, the overall status is the worst of
 * them, and a non-healthy overall status raises one alert. The
 * measurements (response time, error rate, queue figures) are parameters;
 * the LLM and Telegram checks are stubs in the source that always report
 * healthy.
 */
module HealthChecker {
  import opened Wrappers
  import Models

  /** `HealthStatus`, listed from best to worst. */
  datatype HealthStatus = Healthy | Warning | Critical | Down {
    function Value(): string {
      match this
      case Healthy => "healthy"
      case Warning => "warning"
      case Critical => "critical"
      case Down => "down"
    }

    /** Position in the order healthy < warning < critical < down. */
    function Rank(): nat {
      match this
      case Healthy => 0
      case Warning => 1
      case Critical => 2
      case Down => 3
    }
  }

  /** Different statuses have different ranks. */
  lemma RankInjective(a: HealthStatus, b: HealthStatus)
    ensures a.Rank() == b.Rank() <==> a == b
  {
  }

  /**
   * What one check hands to the aggregation: either it raised, or it
   * returned a dictionary whose "status" entry may be missing.
   */
  datatype Outcome = Raised(error: string) | Returned(status: Option<HealthStatus>)

  /** A check that raised, or returned no status, counts as CRITICAL. */
  function StatusOf(o: Outcome): (r: HealthStatus)
    ensures o.Raised? || o.status.None? ==> r == Critical
    ensures o.Returned? && o.status.Some? ==> r == o.status.value
  {
    match o
    case Raised(_) => Critical
    case Returned(s) => s.GetOr(Critical)
  }

  /** The worse of two statuses. */
  function Worse(a: HealthStatus, b: HealthStatus): (r: HealthStatus)
    ensures r.Rank() >= a.Rank() && r.Rank() >= b.Rank()
    ensures r == a || r == b
  {
    if a.Rank() >= b.Rank() then a else b
  }

  /** Some outcome of the list has the given status. */
  predicate AnyIs(outcomes: seq<Outcome>, s: HealthStatus) {
    exists i :: 0 <= i < |outcomes| && StatusOf(outcomes[i]) == s
  }

  /**
   * The overall status: DOWN if any check is down, else CRITICAL if any is
   * critical, else WARNING if any warns, else HEALTHY.
   */
  function Overall(outcomes: seq<Outcome>): (r: HealthStatus)
    ensures AnyIs(outcomes, Down) ==> r == Down
    ensures !AnyIs(outcomes, Down) && AnyIs(outcomes, Critical) ==> r == Critical
    ensures !AnyIs(outcomes, Down) && !AnyIs(outcomes, Critical) && AnyIs(outcomes, Warning) ==> r == Warning
    ensures !AnyIs(outcomes, Down) && !AnyIs(outcomes, Critical) && !AnyIs(outcomes, Warning) ==> r == Healthy
  {
    if AnyIs(outcomes, Down) then Down
    else if AnyIs(outcomes, Critical) then Critical
    else if AnyIs(outcomes, Warning) then Warning
    else Healthy
  }

  /** The worst status of the list, folded pairwise: the reference for `Overall`. */
  function WorstOf(outcomes: seq<Outcome>): HealthStatus {
    if |outcomes| == 0 then Healthy else Worse(StatusOf(outcomes[0]), WorstOf(outcomes[1..]))
  }

  /** The priority chain of `Overall` is the same as taking the worst status. */
  lemma {:induction false} OverallIsWorst(outcomes: seq<Outcome>)
    ensures Overall(outcomes) == WorstOf(outcomes)
  {
    if |outcomes| > 0 {
      OverallIsWorst(outcomes[1..]);
      var first := StatusOf(outcomes[0]);
      var rest := outcomes[1..];
      forall s: HealthStatus ensures AnyIs(outcomes, s) <==> first == s || AnyIs(rest, s) {
        if AnyIs(outcomes, s) && first != s {
          var i :| 0 <= i < |outcomes| && StatusOf(outcomes[i]) == s;
          assert i > 0 && rest[i - 1] == outcomes[i];
        }
        if AnyIs(rest, s) {
          var i :| 0 <= i < |rest| && StatusOf(rest[i]) == s;
          assert outcomes[i + 1] == rest[i];
        }
      }
    }
  }

  /** No check is better than the overall status, and adding a check never improves it. */
  lemma OverallBounds(outcomes: seq<Outcome>, extra: Outcome)
    ensures forall i :: 0 <= i < |outcomes| ==> StatusOf(outcomes[i]).Rank() <= Overall(outcomes).Rank()
    ensures Overall(outcomes).Rank() <= Overall(outcomes + [extra]).Rank()
  {
    var all := outcomes + [extra];
    forall s: HealthStatus | AnyIs(outcomes, s) ensures AnyIs(all, s) {
      var i :| 0 <= i < |outcomes| && StatusOf(outcomes[i]) == s;
      assert all[i] == outcomes[i];
    }
  }

  /**
   * `_check_database_health` as written: the "> 5 s" test comes first, so
   * the "> 10 s" CRITICAL branch behind it can never be taken. A failed
   * query gives DOWN.
   */
  function DatabaseHealthAsWritten(responseTime: real, failed: bool): (r: HealthStatus)
    ensures failed <==> r == Down
    ensures !failed ==> (r == Warning <==> responseTime > 5.0)
  {
    if failed then Down
    else if responseTime > 5.0 then Warning
    else if responseTime > 10.0 then Critical
    else Healthy
  }

  /** Even a twelve-second response is only a warning, and no response time gives CRITICAL. */
  lemma DatabaseNeverCritical(responseTime: real, failed: bool)
    ensures DatabaseHealthAsWritten(responseTime, failed) != Critical
    ensures DatabaseHealthAsWritten(12.0, false) == Warning
  {
  }

  /**
   * The database classifier as evidently intended: DOWN on failure,
   * CRITICAL above 10 s, WARNING above 5 s, HEALTHY otherwise.
   */
  function DatabaseHealth(responseTime: real, failed: bool): (r: HealthStatus)
    ensures failed <==> r == Down
    ensures !failed ==> (r == Critical <==> responseTime > 10.0)
    ensures !failed ==> (r == Warning <==> 5.0 < responseTime <= 10.0)
    ensures !failed ==> (r == Healthy <==> responseTime <= 5.0)
  {
    if failed then Down
    else if responseTime > 10.0 then Critical
    else if responseTime > 5.0 then Warning
    else Healthy
  }

  /** The two agree up to 10 s and part ways only above it; a slower database is never healthier. */
  lemma DatabaseCorrection(t: real, u: real, failed: bool)
    ensures t <= 10.0 ==> DatabaseHealth(t, failed) == DatabaseHealthAsWritten(t, failed)
    ensures t > 10.0 && !failed ==> DatabaseHealth(t, failed) == Critical && DatabaseHealthAsWritten(t, failed) == Warning
    ensures t <= u ==> DatabaseHealth(t, failed).Rank() <= DatabaseHealth(u, failed).Rank()
  {
  }

  /** `_check_crm_health`: above half the calls failing is CRITICAL, above a tenth a WARNING; a failed query is CRITICAL. */
  function CrmHealth(errorRate: real, failed: bool): (r: HealthStatus)
    ensures r != Down
    ensures r == Critical <==> failed || errorRate > 0.5
    ensures r == Healthy <==> !failed && errorRate <= 0.1
  {
    if failed then Critical
    else if errorRate > 0.5 then Critical
    else if errorRate > 0.1 then Warning
    else Healthy
  }

  /**
   * `_check_queue_health`: the size is judged first (above 5000 CRITICAL,
   * above 1000 WARNING); only a queue of at most 1000 is judged by its
   * five-minute rate (above 1000 WARNING). A failed query is CRITICAL.
   */
  function QueueHealth(size: int, rate: int, failed: bool): (r: HealthStatus)
    ensures r != Down
    ensures r == Critical <==> failed || size > 5000
    ensures r == Warning <==> !failed && size <= 5000 && (size > 1000 || rate > 1000)
  {
    if failed then Critical
    else if size > 5000 then Critical
    else if size > 1000 then Warning
    else if rate > 1000 then Warning
    else Healthy
  }

  /** A longer queue or a higher rate never makes the queue healthier; above 1000 messages the rate is ignored. */
  lemma QueueMonotone(size: int, size2: int, rate: int, rate2: int)
    requires size <= size2 && rate <= rate2
    ensures QueueHealth(size, rate, false).Rank() <= QueueHealth(size2, rate2, false).Rank()
    ensures size > 1000 ==> QueueHealth(size, rate, false) == QueueHealth(size, 0, false)
  {
  }

  /** The measurements of one round of checks; `None` where a query failed. */
  datatype Measurements = Measurements(
    databaseResponse: Option<real>,
    crmErrorRate: Option<real>,
    queue: Option<(int, int)>)

  /** Every query answered, with every figure within its healthy range. */
  predicate AllQuiet(m: Measurements) {
    && m.databaseResponse.Some? && m.databaseResponse.value <= 5.0
    && m.crmErrorRate.Some? && m.crmErrorRate.value <= 0.1
    && m.queue.Some? && m.queue.value.0 <= 1000 && m.queue.value.1 <= 1000
  }

  /** The CRM or queue check reports CRITICAL for these measurements. */
  predicate OtherCritical(m: Measurements) {
    || m.crmErrorRate.None? || m.crmErrorRate.value > 0.5
    || m.queue.None? || m.queue.value.0 > 5000
  }

  /** The five outcomes in their fixed order (database, LLM, Telegram, CRM, queue), given the database status. */
  function Outcomes(db: HealthStatus, m: Measurements): (r: seq<Outcome>)
    ensures |r| == 5 && StatusOf(r[0]) == db
    ensures forall i :: 1 <= i < 5 ==> StatusOf(r[i]) != Down
    ensures AnyIs(r, Critical) <==> db == Critical || OtherCritical(m)
  {
    var crm := CrmHealth(m.crmErrorRate.GetOr(0.0), m.crmErrorRate.None?);
    var queue := QueueHealth(m.queue.GetOr((0, 0)).0, m.queue.GetOr((0, 0)).1, m.queue.None?);
    var r := [Returned(Some(db)), Returned(Some(Healthy)), Returned(Some(Healthy)), Returned(Some(crm)), Returned(Some(queue))];
    assert StatusOf(r[3]) == crm && StatusOf(r[4]) == queue;
    r
  }

  /**
   * `run_health_checks` as written: the database check is the one of
   * `_check_database_health`, so a slow database never makes the system
   * CRITICAL; only the CRM and queue checks can.
   */
  function RunChecks(m: Measurements): (r: (seq<Outcome>, HealthStatus))
    ensures |r.0| == 5
    ensures r.1 == Overall(r.0)
    ensures r.1 == Down <==> m.databaseResponse.None?
    ensures r.1 == Critical <==> m.databaseResponse.Some? && OtherCritical(m)
    ensures AllQuiet(m) ==> r.1 == Healthy
  {
    var outcomes := Outcomes(DatabaseHealthAsWritten(m.databaseResponse.GetOr(0.0), m.databaseResponse.None?), m);
    (outcomes, Overall(outcomes))
  }

  /** `run_health_checks` with the database classifier as evidently intended. */
  function RunChecksIntended(m: Measurements): (r: (seq<Outcome>, HealthStatus))
    ensures |r.0| == 5
    ensures r.1 == Overall(r.0)
    ensures r.1 == Down <==> m.databaseResponse.None?
    ensures r.1 == Critical <==> m.databaseResponse.Some? && (m.databaseResponse.value > 10.0 || OtherCritical(m))
    ensures AllQuiet(m) ==> r.1 == Healthy
  {
    var outcomes := Outcomes(DatabaseHealth(m.databaseResponse.GetOr(0.0), m.databaseResponse.None?), m);
    (outcomes, Overall(outcomes))
  }

  /**
   * The two runs differ only for a database slower than 10 s with the other
   * checks not critical: twelve seconds reads WARNING as written and
   * CRITICAL as intended.
   */
  lemma SlowDatabaseRuns(m: Measurements)
    ensures !(m.databaseResponse.Some? && m.databaseResponse.value > 10.0) ==> RunChecks(m).1 == RunChecksIntended(m).1
    ensures var q := Measurements(Some(12.0), Some(0.0), Some((0, 0)));
      && RunChecks(q).1 == Warning && RunChecksIntended(q).1 == Critical
      && AlertFor(RunChecks(q).1) == Some(HealthAlert(Models.Warning, "System Warning"))
  {
    var q := Measurements(Some(12.0), Some(0.0), Some((0, 0)));
    assert AnyIs(RunChecks(q).0, Warning) by {
      assert StatusOf(RunChecks(q).0[0]) == Warning;
    }
    if !(m.databaseResponse.Some? && m.databaseResponse.value > 10.0) {
      DatabaseCorrection(m.databaseResponse.GetOr(0.0), 0.0, m.databaseResponse.None?);
    }
  }

  /** The alert `_process_health_alerts` creates. */
  datatype HealthAlert = HealthAlert(level: Models.AlertLevel, title: string)

  /**
   * `_process_health_alerts`: DOWN and CRITICAL raise a CRITICAL alert,
   * WARNING a WARNING one, HEALTHY none.
   */
  function AlertFor(overall: HealthStatus): (r: Option<HealthAlert>)
    ensures r.None? <==> overall == Healthy
    ensures r.Some? ==> (r.value.level == Models.Critical <==> overall.Rank() >= 2)
    ensures r.Some? ==> r.value.level in {Models.Warning, Models.Critical}
  {
    match overall
    case Down => Some(HealthAlert(Models.Critical, "System Down"))
    case Critical => Some(HealthAlert(Models.Critical, "System Critical"))
    case Warning => Some(HealthAlert(Models.Warning, "System Warning"))
    case Healthy => None
  }

  /** A failed database query always ends in the "System Down" alert. */
  lemma DatabaseDownAlerts(m: Measurements)
    requires m.databaseResponse.None?
    ensures AlertFor(RunChecks(m).1) == Some(HealthAlert(Models.Critical, "System Down"))
  {
  }
}

=== FILE: hot_leads.dfy ===
/**
 * The hot-lead notification of albot/src/hot_leads.py: which answer
 * supplies the contact's name, phone and e-mail, and how the phone is
 * rendered for the managers' channel. Sending the message is I/O and is
 * not modelled; only the notification record and the display text are.
 */
module HotLeads {
  import opened Wrappers
  import opened Text
  import opened Models
  import Utils

  /** Placeholder for a missing phone or e-mail. */
  const NotGiven: string := "Не указан"

  /** The first index whose element satisfies `p`, if any. */
  function FirstWhere<T>(s: seq<T>, p: T -> bool): (r: Option<nat>)
    ensures r.None? ==> forall k :: 0 <= k < |s| ==> !p(s[k])
    ensures r.Some? ==> r.value < |s| && p(s[r.value]) && forall k :: 0 <= k < r.value ==> !p(s[k])
  {
    if |s| == 0 then None
    else if p(s[0]) then Some(0)
    else
      match FirstWhere(s[1..], p)
      case None => None
      case Some(i) => Some(i + 1)
  }

  /** The question id mentions a phone, in either language, in any case. */
  predicate IsPhoneAnswer(a: LeadAnswer) {
    Contains(Lower(a.questionId), "phone") || Contains(Lower(a.questionId), "телефон")
  }

  /** The question id mentions an e-mail, in either language, in any case. */
  predicate IsEmailAnswer(a: LeadAnswer) {
    Contains(Lower(a.questionId), "email") || Contains(Lower(a.questionId), "почта")
  }

  /** `_extract_phone_from_answers`: the first phone answer's value, else the placeholder. */
  function ExtractPhone(answers: seq<LeadAnswer>): (r: string)
    ensures FirstWhere(answers, IsPhoneAnswer).None? ==> r == NotGiven
    ensures FirstWhere(answers, IsPhoneAnswer).Some? ==> r == answers[FirstWhere(answers, IsPhoneAnswer).value].value
  {
    match FirstWhere(answers, IsPhoneAnswer)
    case None => NotGiven
    case Some(i) => answers[i].value
  }

  /** `_extract_email_from_answers`: the first e-mail answer's value, else nothing. */
  function ExtractEmail(answers: seq<LeadAnswer>): (r: Option<string>)
    ensures r.None? <==> forall k :: 0 <= k < |answers| ==> !IsEmailAnswer(answers[k])
    ensures r.Some? ==> exists k :: (0 <= k < |answers| && IsEmailAnswer(answers[k]) && answers[k].value == r.value
                                     && forall j :: 0 <= j < k ==> !IsEmailAnswer(answers[j]))
  {
    match FirstWhere(answers, IsEmailAnswer)
    case None => None
    case Some(i) => Some(answers[i].value)
  }

  /** Answers after the first phone answer cannot change the extracted phone, nor can non-phone answers before it. */
  lemma {:induction false} ExtractPhoneFirstWins(before: seq<LeadAnswer>, a: LeadAnswer, after: seq<LeadAnswer>)
    requires IsPhoneAnswer(a)
    requires forall k :: 0 <= k < |before| ==> !IsPhoneAnswer(before[k])
    ensures ExtractPhone(before + [a] + after) == a.value
  {
    var s := before + [a] + after;
    assert s[|before|] == a;
    assert forall k :: 0 <= k < |before| ==> s[k] == before[k];
  }

  /** `lead.answers[0].value if lead.answers else "Unknown"`. */
  function LeadName(answers: seq<LeadAnswer>): (r: string)
    ensures |answers| == 0 ==> r == "Unknown"
    ensures |answers| > 0 ==> r == answers[0].value
  {
    if |answers| > 0 then answers[0].value else "Unknown"
  }

  /** `HotLeadNotification`. */
  datatype HotLeadNotification = HotLeadNotification(
    leadId: string,
    userId: int,
    leadName: string,
    phone: string,
    email: Option<string>,
    score: int,
    source: string,
    createdAt: int,
    scriptId: string)

  /**
   * The notification `process_hot_lead` means to build, reading each
   * answer's `question_id` and `value`. `Some` stands for the `True` it
   * returns; sending and analytics are I/O whose failures it swallows.
   */
  function ProcessHotLead(lead: Lead, userId: int): (r: Option<HotLeadNotification>)
    ensures r.Some?
    ensures r.value.leadName == LeadName(lead.answers) && r.value.phone == ExtractPhone(lead.answers)
    ensures r.value.email == ExtractEmail(lead.answers)
    ensures r.value.leadId == lead.id && r.value.userId == userId && r.value.score == lead.leadScore
    ensures r.value.source == lead.source.Value() && r.value.scriptId == lead.scriptId && r.value.createdAt == lead.createdAt
  {
    Some(HotLeadNotification(lead.id, userId, LeadName(lead.answers), ExtractPhone(lead.answers),
      ExtractEmail(lead.answers), lead.leadScore, lead.source.Value(), lead.createdAt, lead.scriptId))
  }

  /**
   * `process_hot_lead` as written: the extractors call `answer.get(...)`,
   * but a lead's answers are `LeadAnswer` models, which have no `get`; the
   * AttributeError is caught and the result is `False` for every lead
   * that has at least one answer.
   */
  function ProcessHotLeadAsWritten(lead: Lead, userId: int): (r: Option<HotLeadNotification>)
    ensures r.None? <==> |lead.answers| > 0
  {
    if |lead.answers| > 0 then None
    else Some(HotLeadNotification(lead.id, userId, "Unknown", NotGiven, None,
      lead.leadScore, lead.source.Value(), lead.createdAt, lead.scriptId))
  }

  /** The two agree only on leads without answers, where the contact is "Unknown" with no phone or e-mail. */
  lemma AsWrittenLosesAnsweredLeads(lead: Lead, userId: int)
    ensures |lead.answers| == 0 ==> ProcessHotLeadAsWritten(lead, userId) == ProcessHotLead(lead, userId)
    ensures |lead.answers| > 0 ==> ProcessHotLeadAsWritten(lead, userId) != ProcessHotLead(lead, userId)
    ensures |lead.answers| == 0 ==>
      var n := ProcessHotLead(lead, userId).value; n.leadName == "Unknown" && n.phone == NotGiven && n.email == None
  {
  }

  /* ---------- phone display ---------- */

  /** The characters `_format_phone` deletes. */
  predicate IsPhonePunct(c: char) {
    c in "+ -()"
  }

  /** `phone.replace("+", "").replace(" ", "")…`: the phone without punctuation. */
  function Clean(s: string): (r: string)
    ensures |r| <= |s|
    ensures forall k :: 0 <= k < |r| ==> !IsPhonePunct(r[k])
  {
    if |s| == 0 then ""
    else (if IsPhonePunct(s[0]) then "" else [s[0]]) + Clean(s[1..])
  }

  lemma {:induction false} CleanAppend(a: string, b: string)
    ensures Clean(a + b) == Clean(a) + Clean(b)
  {
    if |a| > 0 {
      assert (a + b)[0] == a[0] && (a + b)[1..] == a[1..] + b;
      CleanAppend(a[1..], b);
    } else {
      assert a + b == b;
    }
  }

  lemma {:induction false} CleanOfPlain(s: string)
    requires forall k :: 0 <= k < |s| ==> !IsPhonePunct(s[k])
    ensures Clean(s) == s
  {
    if |s| > 0 {
      CleanOfPlain(s[1..]);
      assert s == [s[0]] + s[1..];
    }
  }

  /** "+7 AAA BBB-CC-DD" for a ten-digit national number. */
  function Display(n: string): string
    requires |n| == 10
  {
    "+7 " + (n[0..3] + (" " + (n[3..6] + ("-" + (n[6..8] + ("-" + n[8..10]))))))
  }

  /**
   * `_format_phone`: the placeholder stays; a cleaned 11-character number
   * starting with 7, or 10-character one starting with 9, is displayed as
   * "+7 AAA BBB-CC-DD"; anything else is shown as given.
   */
  function FormatPhone(phone: string): (r: string)
    ensures phone == "" || phone == NotGiven ==> r == NotGiven
    ensures phone != "" && phone != NotGiven ==>
      var c := Clean(phone);
      && (|c| == 11 && c[0] == '7' ==> r == Display(c[1..]))
      && (|c| == 10 && c[0] == '9' ==> r == Display(c))
      && (!(|c| == 11 && c[0] == '7') && !(|c| == 10 && c[0] == '9') ==> r == phone)
  {
    if phone == "" || phone == NotGiven then NotGiven
    else
      var c := Clean(phone);
      if |c| == 11 && c[0] == '7' then Display(c[1..])
      else if |c| == 10 && c[0] == '9' then Display(c)
      else phone
  }

  /** Cleaning drops a leading punctuation character. */
  lemma CleanPunct(c: char, s: string)
    requires IsPhonePunct(c)
    ensures Clean([c] + s) == Clean(s)
  {
    assert ([c] + s)[1..] == s;
  }

  /** Cleaning keeps a leading run without punctuation. */
  lemma CleanPlain(p: string, s: string)
    requires forall k :: 0 <= k < |p| ==> !IsPhonePunct(p[k])
    ensures Clean(p + s) == p + Clean(s)
  {
    CleanAppend(p, s);
    CleanOfPlain(p);
  }

  /** Cleaning the part after the area code: separators go, the three digit groups stay. */
  lemma CleanGroups(b: string, c: string, d: string)
    requires forall k :: 0 <= k < |b| ==> !IsPhonePunct(b[k])
    requires forall k :: 0 <= k < |c| ==> !IsPhonePunct(c[k])
    requires forall k :: 0 <= k < |d| ==> !IsPhonePunct(d[k])
    ensures Clean(" " + (b + ("-" + (c + ("-" + d))))) == b + (c + d)
  {
    var s8 := "-" + d;
    var s7 := c + s8;
    var s6 := "-" + s7;
    var s5 := b + s6;
    assert Clean(s8) == d by { CleanPunct('-', d); CleanOfPlain(d); }
    assert Clean(s7) == c + d by { CleanPlain(c, s8); }
    assert Clean(s6) == c + d by { CleanPunct('-', s7); }
    assert Clean(s5) == b + (c + d) by { CleanPlain(b, s6); }
    CleanPunct(' ', s5);
  }

  /** Cleaning "+7 " in front of a string leaves the 7. */
  lemma CleanCountryCode(x: string)
    ensures Clean("+7 " + x) == "7" + Clean(x)
  {
    assert "+7 " + x == ['+'] + ("7" + ([' '] + x));
    CleanPunct(' ', x);
    CleanPlain("7", [' '] + x);
    CleanPunct('+', "7" + ([' '] + x));
  }

  /** A ten-character string is its four display groups put back together. */
  lemma Groups(n: string)
    requires |n| == 10
    ensures n == n[0..3] + (n[3..6] + (n[6..8] + n[8..10]))
  {
    assert n[6..10] == n[6..8] + n[8..10];
    assert n[3..10] == n[3..6] + n[6..10];
    assert n[0..10] == n[0..3] + n[3..10];
  }

  /** Cleaning a displayed number gives back 7 and the national digits. */
  lemma CleanDisplay(n: string)
    requires |n| == 10 && forall k :: 0 <= k < |n| ==> !IsPhonePunct(n[k])
    ensures Clean(Display(n)) == "7" + n
  {
    var a, b, c, d := n[0..3], n[3..6], n[6..8], n[8..10];
    var s4 := " " + (b + ("-" + (c + ("-" + d))));
    var s3 := a + s4;
    assert Display(n) == "+7 " + s3;
    assert Clean(s4) == b + (c + d) by { CleanGroups(b, c, d); }
    assert Clean(s3) == a + (b + (c + d)) by { CleanPlain(a, s4); }
    CleanCountryCode(s3);
    Groups(n);
  }

  /** Formatting is stable: a displayed number displays as itself. */
  lemma FormatStable(n: string)
    requires |n| == 10 && forall k :: 0 <= k < |n| ==> !IsPhonePunct(n[k])
    ensures FormatPhone(Display(n)) == Display(n)
  {
    CleanDisplay(n);
    assert Display(n)[0] == '+';
    assert ("7" + n)[1..] == n;
  }

  /** A Russian number normalised by the contact helpers is displayed from its last ten digits. */
  lemma FormatNormalized(raw: Option<string>)
    requires var d := Digits(Utils.OrEmpty(raw)); (|d| == 11 && d[0] in "78") || (|d| == 10 && d[0] == '9')
    ensures var d := Digits(Utils.OrEmpty(raw)); FormatPhone(Utils.NormalizePhone(raw)) == Display(d[|d| - 10..])
  {
    var d := Digits(Utils.OrEmpty(raw));
    var e := Utils.RuDigits(d);
    var n := Utils.NormalizePhone(raw);
    assert |e| == 11 && e[0] == '7' && e[1..] == d[|d| - 10..];
    assert n != "" && n != NotGiven && Clean(n) == e by {
      CleanNormalized(raw);
      assert n[0] != NotGiven[0];
    }
    assert FormatPhone(n) == Display(e[1..]);
  }

  /** A normalised number cleans to its digits. */
  lemma CleanNormalized(raw: Option<string>)
    requires Utils.NormalizePhone(raw) != ""
    ensures Clean(Utils.NormalizePhone(raw)) == Utils.RuDigits(Digits(Utils.OrEmpty(raw)))
  {
    var n := Utils.NormalizePhone(raw);
    var e := n[1..];
    assert n == [n[0]] + e;
    assert forall k :: 0 <= k < |e| ==> !IsPhonePunct(e[k]) by {
      assert AllDigits(e);
    }
    CleanPunct(n[0], e);
    CleanOfPlain(e);
  }
}

=== FILE: hot_values.dfy ===
/**
 * Reading the hot values of a question from a message (albot/src/bot.py:966):
 * the text is split on commas, each piece trimmed, and the empty ones dropped.
 */
module HotValues {
  import opened Wrappers
  import opened Text

  /** `[v.strip() for v in parts if v.strip()]` */
  function StrippedNonEmpty(parts: seq<string>): (r: seq<string>)
    ensures |r| <= |parts|
  {
    if |parts| == 0 then []
    else
      var rest := StrippedNonEmpty(parts[1..]);
      var v := Strip(parts[0]);
      if v != "" then [v] + rest else rest
  }

  /** Keeping the stripped non-empty pieces distributes over concatenation. */
  lemma {:induction false} StrippedNonEmptyAppend(a: seq<string>, b: seq<string>)
    ensures StrippedNonEmpty(a + b) == StrippedNonEmpty(a) + StrippedNonEmpty(b)
  {
    if |a| > 0 {
      assert (a + b)[1..] == a[1..] + b;
      StrippedNonEmptyAppend(a[1..], b);
    } else {
      assert a + b == b;
    }
  }

  /** A value is kept exactly when it is what some piece strips down to, and is not empty. */
  lemma {:induction false} StrippedNonEmptyContents(parts: seq<string>, v: string)
    ensures v in StrippedNonEmpty(parts) <==> v != "" && exists j :: 0 <= j < |parts| && Strip(parts[j]) == v
  {
    if |parts| > 0 {
      StrippedNonEmptyContents(parts[1..], v);
      if v != "" && Strip(parts[0]) != v {
        if j :| 0 <= j < |parts| && Strip(parts[j]) == v {
          assert parts[1..][j - 1] == parts[j];
        }
      }
      if j :| 0 <= j < |parts[1..]| && Strip(parts[1..][j]) == v {
        assert parts[j + 1] == parts[1..][j];
      }
    }
  }

  /** One piece is kept, stripped, exactly when something is left after stripping. */
  lemma StrippedNonEmptySingle(p: string)
    ensures StrippedNonEmpty([p]) == if Strip(p) == "" then [] else [Strip(p)]
  {
    assert [p][1..] == [];
  }

  /** Every kept value is stripped and non-empty. */
  lemma StrippedNonEmptyClean(parts: seq<string>)
    ensures forall k :: 0 <= k < |StrippedNonEmpty(parts)| ==>
      StrippedNonEmpty(parts)[k] != "" && IsStripped(StrippedNonEmpty(parts)[k])
  {
    var r := StrippedNonEmpty(parts);
    forall k | 0 <= k < |r| ensures r[k] != "" && IsStripped(r[k]) {
      StrippedNonEmptyContents(parts, r[k]);
      var j :| 0 <= j < |parts| && Strip(parts[j]) == r[k];
    }
  }

  /** Stripping never brings in a comma: from comma-free pieces come comma-free values. */
  lemma StrippedCommaFree(parts: seq<string>)
    requires forall j :: 0 <= j < |parts| ==> ',' !in parts[j]
    ensures forall k :: 0 <= k < |StrippedNonEmpty(parts)| ==> ',' !in StrippedNonEmpty(parts)[k]
  {
    var r := StrippedNonEmpty(parts);
    forall k | 0 <= k < |r| ensures ',' !in r[k] {
      StrippedNonEmptyContents(parts, r[k]);
      var j :| 0 <= j < |parts| && Strip(parts[j]) == r[k];
      StripKeepsChars(parts[j]);
    }
  }

  /** The hot values read from a message: comma-separated, trimmed, empty pieces dropped. */
  function ParseHotValues(text: Option<string>): (r: seq<string>)
    ensures forall k :: 0 <= k < |r| ==> r[k] != "" && IsStripped(r[k]) && ',' !in r[k]
  {
    var parts := Split(text.GetOr(""), ',');
    StrippedNonEmptyClean(parts);
    StrippedCommaFree(parts);
    StrippedNonEmpty(parts)
  }

  /**
   * A message made of comma-free pieces joined by commas reads as exactly
   * those pieces, each trimmed, with the ones left empty dropped, in order.
   */
  lemma ParseHotValuesPieces(ps: seq<string>)
    requires |ps| >= 1
    requires forall k :: 0 <= k < |ps| ==> ',' !in ps[k]
    ensures ParseHotValues(Some(Join(ps, ','))) == StrippedNonEmpty(ps)
  {
    SplitJoin(ps, ',');
  }

  /** A piece without surrounding spaces is kept as typed. */
  lemma MoscowStripped()
    ensures Strip("Москва") == "Москва"
  {
    var a := "Москва";
    assert a[0] == 'М' && a[|a| - 1] == 'а';
    StripOfStripped(a);
  }

  /** A piece typed after ", " loses its leading space. */
  lemma PiterStripped()
    ensures Strip(" Питер") == "Питер"
  {
    var b, c := " Питер", "Питер";
    assert b[0] == ' ';
    StripLeadingSpace(b);
    assert b[1..] == c;
    assert c[0] == 'П' && c[|c| - 1] == 'р';
    StripOfStripped(c);
  }

  /** A message of two comma-free pieces reads as each piece kept or dropped on its own. */
  lemma ParseTwoPieces(a: string, b: string)
    requires ',' !in a && ',' !in b
    ensures ParseHotValues(Some(a + [','] + b)) == StrippedNonEmpty([a]) + StrippedNonEmpty([b])
  {
    assert Join([a, b], ',') == a + [','] + b by {
      assert Join([a, b][1..], ',') == b;
    }
    ParseHotValuesPieces([a, b]);
    StrippedNonEmptyAppend([a], [b]);
    assert [a, b] == [a] + [b];
  }

  /** Two names typed with a space after the comma both survive, trimmed. */
  lemma TwoCitiesParsed()
    ensures ParseHotValues(Some("Москва, Питер")) == ["Москва", "Питер"]
  {
    var a, b := "Москва", " Питер";
    assert a + [','] + b == "Москва, Питер";
    ParseTwoPieces(a, b);
    MoscowStripped();
    PiterStripped();
    StrippedNonEmptySingle(a);
    StrippedNonEmptySingle(b);
  }

  /** Values that are trimmed, non-empty and comma-free survive a join with commas and a re-parse. */
  lemma {:induction false} HotValuesRoundTrip(vs: seq<string>)
    requires |vs| >= 1
    requires forall k :: 0 <= k < |vs| ==> vs[k] != "" && IsStripped(vs[k]) && ',' !in vs[k]
    ensures ParseHotValues(Some(Join(vs, ','))) == vs
  {
    SplitJoin(vs, ',');
    KeepsCleanValues(vs);
  }

  lemma {:induction false} KeepsCleanValues(vs: seq<string>)
    requires forall k :: 0 <= k < |vs| ==> vs[k] != "" && IsStripped(vs[k])
    ensures StrippedNonEmpty(vs) == vs
  {
    if |vs| > 0 {
      StripOfStripped(vs[0]);
      KeepsCleanValues(vs[1..]);
      assert [vs[0]] + vs[1..] == vs;
    }
  }

  /** An empty or missing message clears nothing but sets an empty list. */
  lemma EmptyMessageGivesNoValues()
    ensures ParseHotValues(None) == []
    ensures ParseHotValues(Some("")) == []
  {
    assert Split("", ',') == [""];
    assert Strip("") == "";
  }
}

=== FILE: models.dfy ===
/**
 * The records the bot's scripts and leads are made of (albot/src/models.py).
 *
 * Python's string enums carry two spellings per member: the attribute name
 * (`QuestionType.TEXT`) and the value (`"text"`). Both are modelled, because
 * part of the code base looks members up by the lower-case spelling as an
 * attribute name, which Python rejects with `AttributeError`.
 */
module Models {
  import opened Wrappers

  /* ---------- QuestionType ---------- */

  /** How an answer to a script question is entered. */
  datatype QuestionType = Text | Number | Choice | Date {

    /** The enum value, as stored in JSON and in the database. */
    function Value(): string {
      match this
      case Text => "text"
      case Number => "number"
      case Choice => "choice"
      case Date => "date"
    }

    /** The attribute name of the enum member. */
    function Name(): string {
      match this
      case Text => "TEXT"
      case Number => "NUMBER"
      case Choice => "CHOICE"
      case Date => "DATE"
    }
  }

  /** `QuestionType(v)`: lookup by value, `None` where Python raises `ValueError`. */
  function QuestionTypeFromValue(v: string): (r: Option<QuestionType>)
    ensures forall t: QuestionType :: r == Some(t) <==> t.Value() == v
  {
    if v == "text" then Some(Text)
    else if v == "number" then Some(Number)
    else if v == "choice" then Some(Choice)
    else if v == "date" then Some(Date)
    else None
  }

  /** `getattr(QuestionType, name)`: lookup by member name, `None` where Python raises `AttributeError`. */
  function QuestionTypeAttr(name: string): (r: Option<QuestionType>)
    ensures forall t: QuestionType :: r == Some(t) <==> t.Name() == name
  {
    if name == "TEXT" then Some(Text)
    else if name == "NUMBER" then Some(Number)
    else if name == "CHOICE" then Some(Choice)
    else if name == "DATE" then Some(Date)
    else None
  }

  /** No member value is also a member name: `QuestionType.text` and friends do not exist. */
  lemma QuestionTypeValueIsNoAttr(t: QuestionType)
    ensures QuestionTypeAttr(t.Value()).None?
    ensures QuestionTypeFromValue(t.Value()) == Some(t)
  {
    assert t.Value() != t.Name() by {
      assert t.Value()[0] != t.Name()[0];
    }
  }

  /* ---------- ScriptQuestion and Script ---------- */

  const DefaultWeight: int := 10
  const MinWeight: int := 0
  const MaxWeight: int := 50

  /** The pydantic bound `Field(ge=0, le=50)` on a question weight. */
  predicate ValidWeight(w: int) {
    MinWeight <= w <= MaxWeight
  }

  /** One question of a qualification script. */
  datatype ScriptQuestion = ScriptQuestion(
    id: string,
    order: int,
    text: string,
    qtype: QuestionType,
    choices: Option<seq<string>>,
    mandatory: bool,
    weight: int,
    hotValues: Option<seq<string>>)

  /**
   * The `ScriptQuestion(...)` constructor. Arguments left out are `None`;
   * pydantic fills in `mandatory=True` and `weight=10` and rejects a weight
   * outside 0..50.
   */
  function NewQuestion(
    id: string, order: int, text: string, qtype: QuestionType,
    choices: Option<seq<string>>, mandatory: Option<bool>, weight: Option<int>,
    hotValues: Option<seq<string>>): (r: Result<ScriptQuestion>)
    ensures r.Success? <==> (weight.None? || ValidWeight(weight.value))
    ensures r.Success? ==> ValidWeight(r.value.weight)
    ensures r.Success? && weight.None? ==> r.value.weight == 10
    ensures r.Success? && mandatory.None? ==> r.value.mandatory
    ensures r.Success? ==> r.value.choices == choices && r.value.hotValues == hotValues
    ensures r.Success? ==> r.value.id == id && r.value.order == order && r.value.qtype == qtype
  {
    var w := weight.GetOr(DefaultWeight);
    if ValidWeight(w) then
      Success(ScriptQuestion(id, order, text, qtype, choices, mandatory.GetOr(true), w, hotValues))
    else
      Failure("ValidationError: weight must be between 0 and 50")
  }

  /** A qualification script: an ordered list of questions. */
  datatype Script = Script(id: string, name: string, createdBy: string, questions: seq<ScriptQuestion>)

  /** Every question of the list satisfies the model's weight bound. */
  predicate ValidWeights(qs: seq<ScriptQuestion>) {
    forall i :: 0 <= i < |qs| ==> ValidWeight(qs[i].weight)
  }

  /** A script as pydantic accepts it: every weight within 0..50. */
  predicate ValidScript(s: Script) {
    ValidWeights(s.questions)
  }

  /* ---------- leads ---------- */

  datatype LeadSource = Telegram | Site | Uploaded {
    function Value(): string {
      match this
      case Telegram => "telegram"
      case Site => "site"
      case Uploaded => "uploaded"
    }
  }

  /** Where a lead stands in the sales funnel. */
  datatype LeadStatus = New | Qualified | Hot | Followup | Booked {

    function Value(): string {
      match this
      case New => "new"
      case Qualified => "qualified"
      case Hot => "hot"
      case Followup => "followup"
      case Booked => "booked"
    }

    function Name(): string {
      match this
      case New => "NEW"
      case Qualified => "QUALIFIED"
      case Hot => "HOT"
      case Followup => "FOLLOWUP"
      case Booked => "BOOKED"
    }
  }

  /** `LeadStatus(v)`: lookup by value. */
  function LeadStatusFromValue(v: string): (r: Option<LeadStatus>)
    ensures forall st: LeadStatus :: r == Some(st) <==> st.Value() == v
  {
    if v == "new" then Some(New)
    else if v == "qualified" then Some(Qualified)
    else if v == "hot" then Some(Hot)
    else if v == "followup" then Some(Followup)
    else if v == "booked" then Some(Booked)
    else None
  }

  /** `getattr(LeadStatus, name)`: lookup by member name. */
  function LeadStatusAttr(name: string): (r: Option<LeadStatus>)
    ensures forall st: LeadStatus :: r == Some(st) <==> st.Name() == name
  {
    if name == "NEW" then Some(New)
    else if name == "QUALIFIED" then Some(Qualified)
    else if name == "HOT" then Some(Hot)
    else if name == "FOLLOWUP" then Some(Followup)
    else if name == "BOOKED" then Some(Booked)
    else None
  }

  /** No status value is also a member name: `LeadStatus.new` does not exist. */
  lemma LeadStatusValueIsNoAttr(st: LeadStatus)
    ensures LeadStatusAttr(st.Value()).None?
    ensures LeadStatusFromValue(st.Value()) == Some(st)
  {
    assert st.Value() != st.Name() by {
      assert st.Value()[0] != st.Name()[0];
    }
  }

  /** One answer a lead gave: the question it answers and the raw text. */
  datatype LeadAnswer = LeadAnswer(questionId: string, value: string)

  /** A lead; the time of creation is an abstract integer (seconds). */
  datatype Lead = Lead(
    id: string,
    source: LeadSource,
    scriptId: string,
    answers: seq<LeadAnswer>,
    leadScore: int,
    status: LeadStatus,
    assignedTo: Option<string>,
    createdAt: int,
    calendarEventId: Option<string>,
    crmId: Option<string>)

  /** `Lead(id=…, source=…, script_id=…, answers=…)` with every default taken. */
  function NewLead(id: string, source: LeadSource, scriptId: string, answers: seq<LeadAnswer>, now: int): (l: Lead)
    ensures l.leadScore == 0 && l.status == New && l.status.Value() == "new"
    ensures l.assignedTo.None? && l.calendarEventId.None? && l.crmId.None?
    ensures l.id == id && l.answers == answers && l.createdAt == now
  {
    Lead(id, source, scriptId, answers, 0, New, None, now, None, None)
  }

  /* ---------- alerts ---------- */

  /** Alert severity, ordered from least to most severe. */
  datatype AlertLevel = Info | Warning | Error | Critical {
    function Value(): string {
      match this
      case Info => "info"
      case Warning => "warning"
      case Error => "error"
      case Critical => "critical"
    }
  }
}

=== FILE: monitoring.dfy ===
/**
 * The alerting rules of albot/src/monitoring.py: which alerts each
 * periodic check emits for given figures, how `create_alert` queues an
 * alert and decides whether to push it to Telegram, and the alert counts of
 * the status report. The figures come from the database and are
 * parameters; the Telegram push itself is outside the model.
 */
module Monitoring {
  import opened Wrappers
  import opened Models

  /** `Alert`; the timestamp is in seconds and metadata is left out. */
  datatype Alert = Alert(level: AlertLevel, title: string, message: string, timestamp: int, resolved: bool)

  /** A request to create one alert: level and title. */
  datatype Request = Request(level: AlertLevel, title: string)

  /** The levels `create_alert` forwards to the Telegram errors channel. */
  predicate Pushed(level: AlertLevel) {
    level == Critical || level == Error || level == Warning
  }

  /**
   * `create_alert`: the alert is appended to the queue unresolved; the
   * second result says whether it is pushed to Telegram.
   */
  function CreateAlert(queue: seq<Alert>, level: AlertLevel, title: string, message: string, now: int): (r: (seq<Alert>, bool))
    ensures r.0 == queue + [Alert(level, title, message, now, false)]
    ensures r.1 <==> level != Info
  {
    (queue + [Alert(level, title, message, now, false)], Pushed(level))
  }

  /** Every requested alert in order, each through `create_alert`. */
  function Emit(queue: seq<Alert>, reqs: seq<Request>, now: int): (r: seq<Alert>)
    ensures |r| == |queue| + |reqs|
    ensures r[..|queue|] == queue
    ensures forall k :: 0 <= k < |reqs| ==>
      r[|queue| + k] == Alert(reqs[k].level, reqs[k].title, reqs[k].title, now, false)
    decreases |reqs|
  {
    if |reqs| == 0 then queue
    else Emit(CreateAlert(queue, reqs[0].level, reqs[0].title, reqs[0].title, now).0, reqs[1..], now)
  }

  /** Number of alerts in the queue that are not resolved. */
  function Unresolved(queue: seq<Alert>): (n: nat)
    ensures n <= |queue|
  {
    if |queue| == 0 then 0 else (if queue[0].resolved then 0 else 1) + Unresolved(queue[1..])
  }

  /** The report's unresolved count equals its total when no queued alert is resolved. */
  lemma {:induction false} UnresolvedAll(queue: seq<Alert>)
    requires forall k :: 0 <= k < |queue| ==> !queue[k].resolved
    ensures Unresolved(queue) == |queue|
  {
    if |queue| > 0 {
      UnresolvedAll(queue[1..]);
    }
  }

  /**
   * Nothing in the manager ever marks a queued alert resolved (`resolve_alert`
   * only writes to the database), so after any run of emissions from an
   * empty queue the unresolved count is the total.
   */
  lemma EmittedStayUnresolved(reqs: seq<Request>, now: int)
    ensures Unresolved(Emit([], reqs, now)) == |Emit([], reqs, now)|
  {
    var empty: seq<Alert> := [];
    var q := Emit(empty, reqs, now);
    forall k | 0 <= k < |q|
      ensures !q[k].resolved
    {
      assert k < |reqs| && q[|empty| + k] == Alert(reqs[k].level, reqs[k].title, reqs[k].title, now, false);
    }
    UnresolvedAll(q);
  }

  /** `Request`s matching a level. */
  function CountLevel(reqs: seq<Request>, level: AlertLevel): (n: nat)
    ensures n <= |reqs|
  {
    if |reqs| == 0 then 0 else (if reqs[0].level == level then 1 else 0) + CountLevel(reqs[1..], level)
  }

  /** The counts of a list of reqs add up over concatenation. */
  lemma {:induction false} CountAppend(a: seq<Request>, b: seq<Request>, level: AlertLevel)
    ensures CountLevel(a + b, level) == CountLevel(a, level) + CountLevel(b, level)
  {
    if |a| > 0 {
      assert (a + b)[1..] == a[1..] + b;
      CountAppend(a[1..], b, level);
    } else {
      assert a + b == b;
    }
  }

  /** The counts of three lists of reqs add up over their concatenation. */
  lemma Count3(a: seq<Request>, b: seq<Request>, c: seq<Request>)
    ensures forall level :: CountLevel(a + b + c, level) == CountLevel(a, level) + CountLevel(b, level) + CountLevel(c, level)
  {
    forall level: AlertLevel
      ensures CountLevel(a + b + c, level) == CountLevel(a, level) + CountLevel(b, level) + CountLevel(c, level)
    {
      CountAppend(a, b, level);
      CountAppend(a + b, c, level);
    }
  }

  /** A one-alert list when the condition holds, else no alert. */
  function If(c: bool, s: Request): seq<Request> {
    if c then [s] else []
  }

  /**
   * `check_backend_errors`: three independent tests, in this order: any
   * critical error (CRITICAL), an error rate above 10% (WARNING), above 20%
   * (CRITICAL).
   */
  function BackendAlerts(errorRate: real, criticalErrors: int): (r: seq<Request>)
    ensures CountLevel(r, Warning) == (if errorRate > 0.1 then 1 else 0)
    ensures CountLevel(r, Critical) == (if criticalErrors > 0 then 1 else 0) + (if errorRate > 0.2 then 1 else 0)
    ensures |r| == CountLevel(r, Warning) + CountLevel(r, Critical)
  {
    var a := If(criticalErrors > 0, Request(Critical, "Critical Bot Errors"));
    var b := If(errorRate > 0.1, Request(Warning, "High Error Rate"));
    var c := If(errorRate > 0.2, Request(Critical, "Critical Error Rate"));
    Count3(a, b, c);
    a + b + c
  }

  /** A quarter of requests failing gives a WARNING and then a CRITICAL alert. */
  lemma QuarterErrorRate()
    ensures BackendAlerts(0.25, 0) == [Request(Warning, "High Error Rate"), Request(Critical, "Critical Error Rate")]
  {
  }

  /** `check_crm_api_errors`: more than five consecutive errors (CRITICAL), then an error rate above 10% (WARNING). */
  function CrmAlerts(errorRate: real, consecutive: int): (r: seq<Request>)
    ensures CountLevel(r, Critical) == (if consecutive > 5 then 1 else 0)
    ensures CountLevel(r, Warning) == (if errorRate > 0.1 then 1 else 0)
    ensures |r| == CountLevel(r, Warning) + CountLevel(r, Critical)
  {
    var a := If(consecutive > 5, Request(Critical, "CRM Consecutive Errors"));
    var b := If(errorRate > 0.1, Request(Warning, "CRM API Issues"));
    Count3(a, b, []);
    assert a + b + [] == a + b;
    a + b
  }

  /**
   * `check_message_queue`: a rate above 1000 per five minutes (WARNING),
   * a queue above 1000 (WARNING), a queue above 5000 (CRITICAL).
   */
  function QueueAlerts(size: int, rate: int): (r: seq<Request>)
    ensures CountLevel(r, Warning) == (if rate > 1000 then 1 else 0) + (if size > 1000 then 1 else 0)
    ensures CountLevel(r, Critical) == (if size > 5000 then 1 else 0)
    ensures |r| == CountLevel(r, Warning) + CountLevel(r, Critical)
  {
    var a := If(rate > 1000, Request(Warning, "Message Queue Overload"));
    var b := If(size > 1000, Request(Warning, "Message Queue Overload"));
    var c := If(size > 5000, Request(Critical, "Message Queue Critical"));
    Count3(a, b, c);
    a + b + c
  }

  /** A queue of 6000 messages gives both a WARNING and a CRITICAL alert. */
  lemma OverloadedQueue(rate: int)
    requires rate <= 1000
    ensures QueueAlerts(6000, rate) == [Request(Warning, "Message Queue Overload"), Request(Critical, "Message Queue Critical")]
  {
  }

  /** More errors or a longer queue never mean fewer alerts. */
  lemma AlertsMonotone(rate: real, rate2: real, crit: int, crit2: int, size: int, size2: int, qrate: int, qrate2: int, cons: int, cons2: int)
    requires rate <= rate2 && crit <= crit2 && size <= size2 && qrate <= qrate2 && cons <= cons2
    ensures |BackendAlerts(rate, crit)| <= |BackendAlerts(rate2, crit2)|
    ensures |QueueAlerts(size, qrate)| <= |QueueAlerts(size2, qrate2)|
    ensures |CrmAlerts(rate, cons)| <= |CrmAlerts(rate2, cons2)|
  {
  }

  /**
   * The hourly token budget `check_llm_token_usage` allows a tier before a
   * tier-specific warning, with that warning's title; ENTERPRISE, an unknown
   * tier and a user without a subscription have none.
   */
  function TierRule(tier: Option<string>): (r: Option<(int, string)>)
    ensures r.Some? <==> tier in {Some("trial"), Some("basic"), Some("pro")}
    ensures r.Some? ==> 10000 <= r.value.0 <= 200000
    ensures tier == Some("trial") ==> r == Some((10000, "Trial User High LLM Usage"))
    ensures tier == Some("basic") ==> r == Some((50000, "Basic User High LLM Usage"))
    ensures tier == Some("pro") ==> r == Some((200000, "Pro User High LLM Usage"))
  {
    match tier
    case Some("trial") => Some((10000, "Trial User High LLM Usage"))
    case Some("basic") => Some((50000, "Basic User High LLM Usage"))
    case Some("pro") => Some((200000, "Pro User High LLM Usage"))
    case _ => None
  }

  /**
   * The alerts for one user's hourly tokens: the tier-specific warning,
   * then the tier-independent WARNING above 100000 and CRITICAL above
   * 500000.
   */
  function TokenAlerts(tier: Option<string>, tokens: int): (r: seq<Request>)
    ensures CountLevel(r, Critical) == (if tokens > 500000 then 1 else 0)
    ensures CountLevel(r, Warning) ==
      (if TierRule(tier).Some? && tokens > TierRule(tier).value.0 then 1 else 0) + (if tokens > 100000 then 1 else 0)
    ensures |r| == CountLevel(r, Warning) + CountLevel(r, Critical)
  {
    var tierAlert := match TierRule(tier)
      case Some((limit, title)) => If(tokens > limit, Request(Warning, title))
      case None => [];
    var b := If(tokens > 100000, Request(Warning, "High LLM Usage"));
    var c := If(tokens > 500000, Request(Critical, "Excessive LLM Usage"));
    Count3(tierAlert, b, c);
    tierAlert + b + c
  }

  /** As intended, ENTERPRISE users only ever meet the tier-independent thresholds, which apply to every tier alike. */
  lemma EnterpriseTokens(tokens: int, tier: Option<string>)
    ensures TokenAlerts(Some("enterprise"), tokens) == TokenAlerts(None, tokens)
    ensures tokens <= 10000 ==> CountLevel(TokenAlerts(tier, tokens), Warning) == 0
  {
  }

  /** Number of users in the usage report above the given hourly token count. */
  function UsersAbove(usage: seq<(int, int)>, tokens: int): (n: nat)
    ensures n <= |usage|
  {
    if |usage| == 0 then 0 else (if usage[0].1 > tokens then 1 else 0) + UsersAbove(usage[1..], tokens)
  }

  /**
   * `check_llm_token_usage` over the whole report as evidently intended,
   * reading each stored subscription's tier; users in the order the report
   * lists them: one CRITICAL alert per user above 500000 tokens, and at
   * least one WARNING per user above 100000.
   */
  function AllTokenAlerts(usage: seq<(int, int)>, tiers: map<int, string>): (r: seq<Request>)
    ensures CountLevel(r, Critical) == UsersAbove(usage, 500000)
    ensures CountLevel(r, Warning) >= UsersAbove(usage, 100000)
  {
    if |usage| == 0 then []
    else
      var tier := if usage[0].0 in tiers then Some(tiers[usage[0].0]) else None;
      var first := TokenAlerts(tier, usage[0].1);
      var rest := AllTokenAlerts(usage[1..], tiers);
      CountAppend(first, rest, Critical);
      CountAppend(first, rest, Warning);
      first + rest
  }
  /** The position of the first user in the report who has a stored subscription, or the report's length. */
  function FirstSubscribed(usage: seq<(int, int)>, tiers: map<int, string>): (j: nat)
    ensures j <= |usage|
    ensures forall k :: 0 <= k < j ==> usage[k].0 !in tiers
    ensures j < |usage| ==> usage[j].0 in tiers
  {
    if |usage| == 0 || usage[0].0 in tiers then 0 else 1 + FirstSubscribed(usage[1..], tiers)
  }

  /**
   * `check_llm_token_usage` as written: the subscription comes back from the
   * database client as a dictionary, so `subscription.tier` raises
   * AttributeError for the first user who has one. The exception is caught
   * around the whole loop, so that user and every later one get no alert
   * at all; the users before get the tier-independent alerts only.
   */
  function AllTokenAlertsAsWritten(usage: seq<(int, int)>, tiers: map<int, string>): (r: seq<Request>)
    ensures r == AllTokenAlerts(usage[..FirstSubscribed(usage, tiers)], tiers)
    ensures CountLevel(r, Critical) == UsersAbove(usage[..FirstSubscribed(usage, tiers)], 500000)
  {
    if |usage| == 0 || usage[0].0 in tiers then []
    else
      var rest := AllTokenAlertsAsWritten(usage[1..], tiers);
      var j := FirstSubscribed(usage, tiers);
      assert usage[..j][1..] == usage[1..][..j - 1];
      TokenAlerts(None, usage[0].1) + rest
  }

  /**
   * Two users above 500000 tokens, the first on a trial: as written the
   * check stops at the first user and emits nothing; as intended it emits
   * three alerts for the trial user and two for the other.
   */
  lemma TokenCheckAborts()
    ensures AllTokenAlertsAsWritten([(1, 600000), (2, 600000)], map[1 := "trial"]) == []
    ensures |AllTokenAlerts([(1, 600000), (2, 600000)], map[1 := "trial"])| == 5
  {
    var usage: seq<(int, int)> := [(1, 600000), (2, 600000)];
    assert usage[1..][1..] == [];
  }

  /** Without any stored subscription the code as written and the intended check agree. */
  lemma NoSubscriptionsAgree(usage: seq<(int, int)>, tiers: map<int, string>)
    requires forall k :: 0 <= k < |usage| ==> usage[k].0 !in tiers
    ensures AllTokenAlertsAsWritten(usage, tiers) == AllTokenAlerts(usage, tiers)
  {
    assert usage[..|usage|] == usage;
  }
}

=== FILE: parsing.dfy ===
/**
 * The decision rules of albot/src/parsing.py: which reader a file suffix
 * selects, and how `_parse_csv` and `_parse_excel` sort the cells of a
 * table row into contact fields. Reading the files (pandas, pdfminer,
 * python-docx) is outside the model: a table arrives as rows of
 * (column name, cell text) pairs, where the cell text is `str(row[col])`
 * and a missing cell reads "nan"; a reader failure arrives as its message.
 */
module Parsing {
  import opened Wrappers
  import opened Text
  import Utils

  /** The readers `parse_file` chooses between. */
  datatype Format = Csv | Excel | Pdf | Docx | PlainText

  /**
   * `parse_file`'s dispatch on the lower-cased suffix; any other suffix
   * raises ValueError naming it.
   */
  function FormatOf(suffix: string): (r: Result<Format>)
    ensures r.Success? <==> Lower(suffix) in [".csv", ".xlsx", ".xls", ".pdf", ".docx", ".txt"]
    ensures r.Failure? ==> r.error == "ValueError: Unsupported file format: " + Lower(suffix)
    ensures r == Success(Excel) <==> Lower(suffix) in [".xlsx", ".xls"]
  {
    var s := Lower(suffix);
    if s == ".csv" then Success(Csv)
    else if s == ".xlsx" || s == ".xls" then Success(Excel)
    else if s == ".pdf" then Success(Pdf)
    else if s == ".docx" then Success(Docx)
    else if s == ".txt" then Success(PlainText)
    else Failure("ValueError: Unsupported file format: " + s)
  }

  /** The dispatch ignores case: ".CSV" and ".csv" select the same reader. */
  lemma FormatIgnoresCase(suffix: string)
    ensures FormatOf(suffix) == FormatOf(Lower(suffix))
  {
    LowerIdempotent(suffix);
  }

  /** The contact fields a cell can fill. */
  datatype Field = Phone | Email | Name | Comment | Other {
    function Key(): string {
      match this
      case Phone => "phone"
      case Email => "email"
      case Name => "name"
      case Comment => "comment"
      case Other => "other"
    }
  }

  const FieldKeys: set<string> := {"phone", "email", "name", "comment", "other"}

  /** A contact: the fields found in one row, keyed by `Field.Key()`. */
  type Contact = map<string, string>

  /**
   * `ParsedData`. The contact list is never `None`: the constructor
   * replaces a missing list by the empty one.
   */
  datatype ParsedData = ParsedData(
    rawText: Option<string>,
    contacts: seq<Contact>,
    sampleAd: Option<string>,
    avgPrice: Option<real>,
    address: Option<string>)

  /** `ParsedData(raw_text=…)`: text only, no contacts. */
  function TextData(text: string): (r: ParsedData)
    ensures r.rawText == Some(text) && r.contacts == []
    ensures r.sampleAd.None? && r.avgPrice.None? && r.address.None?
  {
    ParsedData(Some(text), [], None, None, None)
  }

  /** One cell of a table row: its column name and `str()` of its content. */
  datatype Cell = Cell(column: string, text: string)

  type Row = seq<Cell>

  /** A stripped cell that is empty or "nan" is skipped. */
  predicate Skipped(value: string) {
    value == "" || value == "nan"
  }

  predicate HasAny(s: string, subs: seq<string>) {
    exists k :: 0 <= k < |subs| && Contains(s, subs[k])
  }

  /**
   * The content rules used when no column name applies: a value with a
   * digit, longer than five characters and with a '+' or at least two
   * spaces is a phone; then '@' means e-mail; a digit-free value longer
   * than two characters is a name; anything else is "other".
   */
  function ContentField(value: string): (r: Field)
    ensures r == Phone <==> HasDigit(value) && |value| > 5 && ('+' in value || Count(value, ' ') >= 2)
    ensures r == Email <==> r != Phone && '@' in value
    ensures r == Name ==> |value| > 2 && !HasDigit(value) && '@' !in value
    ensures r != Comment
  {
    if HasDigit(value) && |value| > 5 && ('+' in value || Count(value, ' ') >= 2) then Phone
    else if '@' in value then Email
    else if |value| > 2 && !HasDigit(value) then Name
    else Other
  }

  /** The column-name keywords of `_parse_csv`, one list per field. */
  const PhoneWords: seq<string> := ["phone", "телефон"]
  const EmailWords: seq<string> := ["email", "почта"]
  const NameWords: seq<string> := ["name", "имя", "фио"]
  const CommentWords: seq<string> := ["comment", "комментарий", "описание"]

  /** A name column that neither a phone nor an e-mail column, nor an '@' in the value, pre-empts. */
  predicate NameColumn(col: string, value: string) {
    !HasAny(col, PhoneWords) && !HasAny(col, EmailWords) && '@' !in value && HasAny(col, NameWords)
  }

  /** No phone, e-mail or name column, and no '@' in the value. */
  predicate NoFieldColumn(col: string, value: string) {
    !HasAny(col, PhoneWords) && !HasAny(col, EmailWords) && !HasAny(col, NameWords) && '@' !in value
  }

  /**
   * `_parse_csv`'s classifier: the lower-cased column name decides first
   * (a phone column wins over everything, an e-mail column or an '@' in
   * the value comes next, then name and comment columns); a column that
   * names none of them falls back to the content rules.
   */
  function CsvField(column: string, value: string): (r: Field)
    ensures HasAny(Lower(column), PhoneWords) ==> r == Phone
    ensures r == Email <==> !HasAny(Lower(column), PhoneWords) && (HasAny(Lower(column), EmailWords) || '@' in value)
    ensures NameColumn(Lower(column), value) ==> r == Name
    ensures r == Name <==> NameColumn(Lower(column), value) ||
                           (NoFieldColumn(Lower(column), value) && !HasAny(Lower(column), CommentWords) && ContentField(value) == Name)
    ensures r == Comment <==> NoFieldColumn(Lower(column), value) && HasAny(Lower(column), CommentWords)
    ensures NoFieldColumn(Lower(column), value) && !HasAny(Lower(column), CommentWords) ==> r == ContentField(value)
  {
    var col := Lower(column);
    if HasAny(col, PhoneWords) then Phone
    else if HasAny(col, EmailWords) || '@' in value then Email
    else if HasAny(col, NameWords) then Name
    else if HasAny(col, CommentWords) then Comment
    else ContentField(value)
  }

  /**
   * `_parse_excel`'s classifier: the column name is not looked at, and any
   * value with a digit that is longer than five characters is a phone.
   */
  function ExcelField(value: string): (r: Field)
    ensures r == Phone <==> HasDigit(value) && |value| > 5
    ensures r == Email <==> r != Phone && '@' in value
    ensures r == Name <==> r != Phone && '@' !in value && |value| > 2 && !HasDigit(value)
    ensures r != Comment
  {
    if HasDigit(value) && |value| > 5 then Phone
    else if '@' in value then Email
    else if |value| > 2 && !HasDigit(value) then Name
    else Other
  }

  /**
   * Where the CSV content rules and the Excel classifier part ways: only a
   * long value with a digit but neither '+' nor two spaces, which Excel
   * calls a phone and CSV does not.
   */
  lemma ContentAgainstExcel(value: string)
    ensures ContentField(value) != ExcelField(value) <==>
      HasDigit(value) && |value| > 5 && '+' !in value && Count(value, ' ') < 2
  {
  }

  /** The two table readers. */
  datatype Sheet = CsvSheet | ExcelSheet

  function Classify(sheet: Sheet, cell: Cell, value: string): Field {
    match sheet
    case CsvSheet => CsvField(cell.column, value)
    case ExcelSheet => ExcelField(value)
  }

  /** What a kept cell stores: phones are normalised, anything else is kept as stripped. */
  function Stored(f: Field, value: string): (r: string)
    ensures f == Phone ==> r == Utils.NormalizePhone(Some(value))
    ensures f != Phone ==> r == value
  {
    if f == Phone then Utils.NormalizePhone(Some(value)) else value
  }

  /** `v` is a fixed point of phone normalisation. */
  predicate NormalPhone(v: string) {
    Utils.NormalizePhone(Some(v)) == v
  }

  /** A kept cell: the field it fills and the value stored there. */
  datatype Entry = Entry(field: Field, value: string)

  /** What every kept cell satisfies: a phone in normal form, any other value stripped and not skipped. */
  predicate GoodEntry(e: Entry) {
    if e.field == Phone then NormalPhone(e.value) else !Skipped(e.value) && IsStripped(e.value)
  }

  /** One cell: nothing when its stripped text is skipped, otherwise its field and stored value. */
  function CellEntry(sheet: Sheet, cell: Cell): (r: Option<Entry>)
    ensures r.None? <==> Skipped(Strip(cell.text))
    ensures r.Some? ==> r.value.value == Stored(r.value.field, Strip(cell.text))
  {
    var v := Strip(cell.text);
    if Skipped(v) then None
    else
      var f := Classify(sheet, cell, v);
      Some(Entry(f, Stored(f, v)))
  }

  /** Every kept cell is a good entry. */
  lemma CellEntryGood(sheet: Sheet, cell: Cell)
    ensures CellEntry(sheet, cell).Some? ==> GoodEntry(CellEntry(sheet, cell).value)
  {
    var v := Strip(cell.text);
    StripIdempotent(cell.text);
    Utils.NormalizeIdempotent(Some(v));
  }

  /** Different fields have different keys. */
  lemma KeyInjective(f: Field, g: Field)
    ensures f.Key() == g.Key() <==> f == g
  {
  }

  /**
   * Filling a contact from the kept cells, left to right: a later cell of
   * the same field overwrites an earlier one.
   */
  function Fill(es: seq<Option<Entry>>): (r: Contact)
    ensures r.Keys <= FieldKeys
    ensures r == map[] <==> forall i :: 0 <= i < |es| ==> es[i].None?
    decreases |es|
  {
    if |es| == 0 then map[]
    else
      var init := es[..|es| - 1];
      assert forall i :: 0 <= i < |init| ==> init[i] == es[i];
      var c := Fill(init);
      match es[|es| - 1]
      case None => c
      case Some(e) =>
        var r := c[e.field.Key() := e.value];
        assert e.field.Key() in r;
        r
  }

  /**
   * A field of the filled contact holds the value of the LAST entry of that
   * field, and is present exactly when some entry has that field.
   */
  lemma {:induction false} FillLastWins(es: seq<Option<Entry>>, f: Field)
    ensures f.Key() in Fill(es) <==> exists i :: 0 <= i < |es| && es[i].Some? && es[i].value.field == f
    ensures forall i :: (0 <= i < |es| && es[i].Some? && es[i].value.field == f &&
      (forall j :: i < j < |es| ==> es[j].None? || es[j].value.field != f)
      ==> Fill(es)[f.Key()] == es[i].value.value)
    decreases |es|
  {
    if |es| > 0 {
      var init := es[..|es| - 1];
      FillLastWins(init, f);
      assert forall i :: 0 <= i < |init| ==> init[i] == es[i];
      match es[|es| - 1]
      case None =>
      case Some(e) => KeyInjective(e.field, f);
    }
  }

  /** Whatever every entry satisfies, every field of the filled contact satisfies. */
  lemma {:induction false} FillKeeps(es: seq<Option<Entry>>, good: Entry -> bool, f: Field)
    requires forall i :: 0 <= i < |es| && es[i].Some? ==> good(es[i].value)
    ensures f.Key() in Fill(es) ==> good(Entry(f, Fill(es)[f.Key()]))
    decreases |es|
  {
    if |es| > 0 {
      var init := es[..|es| - 1];
      assert forall i :: 0 <= i < |init| ==> init[i] == es[i];
      FillKeeps(init, good, f);
      match es[|es| - 1]
      case None =>
      case Some(e) => KeyInjective(e.field, f);
    }
  }

  /** The kept cells of a row, in column order. */
  function Entries(sheet: Sheet, row: Row): (es: seq<Option<Entry>>)
    ensures |es| == |row|
    ensures forall i :: 0 <= i < |row| ==> es[i] == CellEntry(sheet, row[i])
  {
    seq(|row|, i requires 0 <= i < |row| => CellEntry(sheet, row[i]))
  }

  /** The contact built from one row. */
  function RowContact(sheet: Sheet, row: Row): (r: Contact)
    ensures r.Keys <= FieldKeys
  {
    Fill(Entries(sheet, row))
  }

  /** Every cell of the row is skipped. */
  predicate BlankRow(row: Row) {
    forall i :: 0 <= i < |row| ==> Skipped(Strip(row[i].text))
  }

  /** A row gives an empty contact exactly when all its cells are skipped. */
  lemma RowContactBlank(sheet: Sheet, row: Row)
    ensures RowContact(sheet, row) == map[] <==> BlankRow(row)
  {
    var es := Entries(sheet, row);
    assert forall i :: 0 <= i < |row| ==> (es[i].None? <==> Skipped(Strip(row[i].text)));
  }

  /** A stored phone is in normal form; every other stored value is stripped and not skipped. */
  lemma RowContactValues(sheet: Sheet, row: Row)
    ensures "phone" in RowContact(sheet, row) ==> NormalPhone(RowContact(sheet, row)["phone"])
    ensures forall f: Field :: f != Phone && f.Key() in RowContact(sheet, row) ==>
      !Skipped(RowContact(sheet, row)[f.Key()]) && IsStripped(RowContact(sheet, row)[f.Key()])
  {
    var es := Entries(sheet, row);
    forall i | 0 <= i < |row| {
      CellEntryGood(sheet, row[i]);
    }
    forall f: Field ensures f.Key() in Fill(es) ==> GoodEntry(Entry(f, Fill(es)[f.Key()])) {
      FillKeeps(es, GoodEntry, f);
    }
    assert Phone.Key() == "phone";
  }

  /**
   * A field of a row's contact holds what the LAST cell kept as that field
   * stores.
   */
  lemma RowContactLastWins(sheet: Sheet, row: Row, f: Field, i: int)
    requires 0 <= i < |row| && CellEntry(sheet, row[i]).Some? && CellEntry(sheet, row[i]).value.field == f
    requires forall j :: i < j < |row| ==> CellEntry(sheet, row[j]).None? || CellEntry(sheet, row[j]).value.field != f
    ensures f.Key() in RowContact(sheet, row)
    ensures RowContact(sheet, row)[f.Key()] == Stored(f, Strip(row[i].text))
  {
    FillLastWins(Entries(sheet, row), f);
  }

  /** Any column whose lower-cased name is "phone" holds phones, whatever the value. */
  lemma PhoneColumn(value: string)
    ensures CsvField("phone", value) == Phone
  {
    assert Lower("phone") == "phone";
    assert IsPrefix(PhoneWords[0], "phone");
    assert Contains("phone", PhoneWords[0]);
  }

  /** A value with a digit in it is never skipped. */
  lemma KeptWithDigit(v: string)
    requires HasDigit(v)
    ensures !Skipped(v)
  {
    var n := "nan";
    assert forall k :: 0 <= k < |n| ==> !IsDigit(n[k]);
  }

  /**
   * A cell of a phone column with a digit in it is stored as "+" and its
   * digits in the Russian form, however it was spaced or punctuated.
   */
  lemma PhoneColumnCell(column: string, text: string)
    requires HasAny(Lower(column), PhoneWords) && HasDigit(Strip(text))
    ensures CellEntry(CsvSheet, Cell(column, text)) == Some(Entry(Phone, "+" + Utils.RuDigits(Digits(Strip(text)))))
  {
    var v := Strip(text);
    var e := CellEntry(CsvSheet, Cell(column, text));
    assert e.Some? by {
      KeptWithDigit(v);
    }
    assert e.value.field == Phone;
    assert e.value.value == Utils.NormalizePhone(Some(v));
    assert Utils.NormalizePhone(Some(v)) == "+" + Utils.RuDigits(Digits(v)) by {
      Utils.NormalizeByDigits(Some(v), Digits(v));
    }
  }

  /** The kept cells of every row of a table. */
  function TableEntries(sheet: Sheet, rows: seq<Row>): (t: seq<seq<Option<Entry>>>)
    ensures |t| == |rows|
    ensures forall j :: 0 <= j < |rows| ==> t[j] == Entries(sheet, rows[j])
  {
    seq(|rows|, j requires 0 <= j < |rows| => Entries(sheet, rows[j]))
  }

  /** The contacts of a table: one per row that kept at least one cell, in row order. */
  function Contacts(table: seq<seq<Option<Entry>>>): (r: seq<Contact>)
    ensures |r| <= |table|
    ensures forall k :: 0 <= k < |r| ==> r[k] != map[] && r[k].Keys <= FieldKeys
    ensures |r| == |table| <==> forall j :: 0 <= j < |table| ==> Fill(table[j]) != map[]
  {
    if |table| == 0 then []
    else
      var c := Fill(table[0]);
      var rest := Contacts(table[1..]);
      assert forall j :: 0 <= j < |table| - 1 ==> table[1..][j] == table[j + 1];
      if c == map[] then rest
      else
        var r := [c] + rest;
        assert forall k :: 1 <= k < |r| ==> r[k] == rest[k - 1];
        r
  }

  /** Whatever every entry of the table satisfies, every field of every contact satisfies. */
  lemma {:induction false} ContactsKeep(table: seq<seq<Option<Entry>>>, good: Entry -> bool, f: Field)
    requires forall j, i :: 0 <= j < |table| && 0 <= i < |table[j]| && table[j][i].Some? ==> good(table[j][i].value)
    ensures forall k :: 0 <= k < |Contacts(table)| && f.Key() in Contacts(table)[k] ==>
      good(Entry(f, Contacts(table)[k][f.Key()]))
  {
    if |table| > 0 {
      assert forall j :: 0 <= j < |table| - 1 ==> table[1..][j] == table[j + 1];
      ContactsKeep(table[1..], good, f);
      FillKeeps(table[0], good, f);
      var rest := Contacts(table[1..]);
      if Fill(table[0]) != map[] {
        assert forall k :: 1 <= k < |Contacts(table)| ==> Contacts(table)[k] == rest[k - 1];
      }
    }
  }

  /**
   * `_parse_csv` / `_parse_excel`. Any exception, which in the model can
   * only come from reading the file, yields just the error text.
   */
  function ParseTable(sheet: Sheet, read: Result<seq<Row>>): (r: ParsedData)
    ensures read.Failure? ==> r == TextData((if sheet == CsvSheet then "Error parsing CSV: " else "Error parsing Excel: ") + read.error)
    ensures read.Success? ==> r.rawText.None? && r.contacts == Contacts(TableEntries(sheet, read.value))
  {
    match read
    case Failure(e) => TextData((if sheet == CsvSheet then "Error parsing CSV: " else "Error parsing Excel: ") + e)
    case Success(rows) => ParsedData(None, Contacts(TableEntries(sheet, rows)), None, None, None)
  }

  /** Exactly the rows whose every cell is skipped are dropped. */
  lemma ParseTableDropsBlankRows(sheet: Sheet, rows: seq<Row>)
    ensures |ParseTable(sheet, Success(rows)).contacts| <= |rows|
    ensures |ParseTable(sheet, Success(rows)).contacts| == |rows| <==> forall j :: 0 <= j < |rows| ==> !BlankRow(rows[j])
  {
    var t := TableEntries(sheet, rows);
    forall j | 0 <= j < |rows| ensures Fill(t[j]) == map[] <==> BlankRow(rows[j]) {
      RowContactBlank(sheet, rows[j]);
    }
  }

  /** Every phone in a parsed contact list is already in normal form. */
  lemma ParsedPhonesNormal(sheet: Sheet, rows: seq<Row>)
    ensures var cs := ParseTable(sheet, Success(rows)).contacts;
      forall k :: 0 <= k < |cs| && "phone" in cs[k] ==> NormalPhone(cs[k]["phone"])
  {
    var t: seq<seq<Option<Entry>>> := TableEntries(sheet, rows);
    forall j: int, i: int | 0 <= j < |t| && 0 <= i < |t[j]| && t[j][i].Some?
      ensures GoodEntry(t[j][i].value)
    {
      CellEntryGood(sheet, rows[j][i]);
    }
    ContactsKeep(t, GoodEntry, Phone);
  }

  /** The readers without a table keep the text they extract, or the error. */
  function ParseText(format: Format, read: Result<string>): (r: ParsedData)
    requires format in {Pdf, Docx, PlainText}
    ensures r.contacts == []
    ensures read.Success? ==> r.rawText == Some(read.value)
    ensures read.Failure? ==> r.rawText.Some? && IsPrefix("Error parsing ", r.rawText.value)
    ensures read.Failure? && format == Pdf ==> r == TextData("Error parsing PDF: " + read.error)
    ensures read.Failure? && format == Docx ==> r == TextData("Error parsing DOCX: " + read.error)
    ensures read.Failure? && format == PlainText ==> r == TextData("Error parsing text file: " + read.error)
  {
    var prefix := match format
      case Pdf => "Error parsing PDF: "
      case Docx => "Error parsing DOCX: "
      case _ => "Error parsing text file: ";
    match read
    case Success(text) => TextData(text)
    case Failure(e) => TextData(prefix + e)
  }

  /**
   * `parse_file` end to end. The reader's outcome is a parameter: `table`
   * for CSV and Excel files, `text` for the others.
   */
  function ParseFile(suffix: string, table: Result<seq<Row>>, text: Result<string>): (r: Result<ParsedData>)
    ensures r.Failure? <==> FormatOf(suffix).Failure?
    ensures FormatOf(suffix) == Success(Csv) ==> r == Success(ParseTable(CsvSheet, table))
    ensures FormatOf(suffix) == Success(Excel) ==> r == Success(ParseTable(ExcelSheet, table))
    ensures r.Success? && FormatOf(suffix).value !in {Csv, Excel} ==> r.value.contacts == []
  {
    match FormatOf(suffix)
    case Failure(e) => Failure(e)
    case Success(Csv) => Success(ParseTable(CsvSheet, table))
    case Success(Excel) => Success(ParseTable(ExcelSheet, table))
    case Success(f) => Success(ParseText(f, text))
  }
}

=== FILE: scoring.dfy ===
/**
 * Lead scoring (albot/src/scoring.py): every answer whose question carries
 * hot values and whose normalised text equals one of them adds the
 * question's weight; the total picks the lead status.
 */
module Scoring {
  import opened Wrappers
  import opened Text
  import opened Models

  const HotThreshold: int := 70
  const WarmThresholdLow: int := 40
  const WarmThresholdHigh: int := 69

  /**
   * `q_by_id.get(question_id)` where `q_by_id = {q.id: q for q in questions}`:
   * a later question with the same id overwrites an earlier one.
   */
  function LookupQuestion(qs: seq<ScriptQuestion>, id: string): (r: Option<ScriptQuestion>)
    ensures r.Some? ==> r.value in qs && r.value.id == id
    ensures r.None? <==> forall i :: 0 <= i < |qs| ==> qs[i].id != id
  {
    if |qs| == 0 then None
    else if qs[|qs| - 1].id == id then Some(qs[|qs| - 1])
    else LookupQuestion(qs[..|qs| - 1], id)
  }

  /** The last question carrying an id is the one the lookup finds. */
  lemma LookupLastWins(qs: seq<ScriptQuestion>, q: ScriptQuestion, id: string)
    ensures LookupQuestion(qs + [q], id) == if q.id == id then Some(q) else LookupQuestion(qs, id)
  {
    assert (qs + [q])[..|qs|] == qs;
  }

  /** In a script whose ids are unique, the lookup finds the question at its position. */
  lemma {:induction false} LookupUnique(qs: seq<ScriptQuestion>, i: nat)
    requires i < |qs|
    requires forall j, k :: 0 <= j < k < |qs| ==> qs[j].id != qs[k].id
    ensures LookupQuestion(qs, qs[i].id) == Some(qs[i])
  {
    if i < |qs| - 1 {
      var init := qs[..|qs| - 1];
      assert init[i] == qs[i];
      LookupUnique(init, i);
    }
  }

  /** The comparison form `s.strip().lower()` used on answers and hot values alike. */
  function Norm(s: string): (r: string)
    ensures |r| <= |s|
  {
    Lower(Strip(s))
  }

  /** `any(value_norm == hv.strip().lower() for hv in hot_values)`, false without hot values. */
  predicate HotMatch(q: ScriptQuestion, value: string) {
    q.hotValues.Some? &&
    exists k :: 0 <= k < |q.hotValues.value| && Norm(q.hotValues.value[k]) == Norm(value)
  }

  /** What a single answer adds to the score. */
  function Contribution(qs: seq<ScriptQuestion>, a: LeadAnswer): (c: int)
    ensures c >= 0
    ensures c > 0 ==> LookupQuestion(qs, a.questionId).Some?
    ensures c > 0 ==> c == LookupQuestion(qs, a.questionId).value.weight
    ensures c > 0 <==> LookupQuestion(qs, a.questionId).Some? &&
                       HotMatch(LookupQuestion(qs, a.questionId).value, a.value) &&
                       LookupQuestion(qs, a.questionId).value.weight > 0
  {
    match LookupQuestion(qs, a.questionId)
    case None => 0
    case Some(q) => if HotMatch(q, a.value) then (if q.weight > 0 then q.weight else 0) else 0
  }

  /** The `total_score` the loop accumulates over `answers`. */
  function Score(qs: seq<ScriptQuestion>, answers: seq<LeadAnswer>): (s: int)
    ensures s >= 0
  {
    if |answers| == 0 then 0
    else Score(qs, answers[..|answers| - 1]) + Contribution(qs, answers[|answers| - 1])
  }

  /** An answer that adds something to the score. */
  predicate Scores(qs: seq<ScriptQuestion>, a: LeadAnswer) {
    Contribution(qs, a) != 0
  }

  /** The score is zero exactly when no answer adds anything. */
  lemma {:induction false} ScoreZero(qs: seq<ScriptQuestion>, answers: seq<LeadAnswer>)
    ensures Score(qs, answers) == 0 <==> forall i :: 0 <= i < |answers| ==> !Scores(qs, answers[i])
  {
    if |answers| > 0 {
      var init := answers[..|answers| - 1];
      var last := answers[|answers| - 1];
      ScoreZero(qs, init);
      assert Score(qs, answers) == Score(qs, init) + Contribution(qs, last);
      if Score(qs, answers) == 0 {
        assert Score(qs, init) == 0 && Contribution(qs, last) == 0;
        forall i | 0 <= i < |answers| ensures !Scores(qs, answers[i]) {
          if i < |init| {
            assert init[i] == answers[i] && !Scores(qs, init[i]);
          } else {
            assert answers[i] == last;
          }
        }
      } else if Score(qs, init) != 0 {
        var i :| 0 <= i < |init| && Scores(qs, init[i]);
        assert init[i] == answers[i];
      } else {
        assert Scores(qs, last);
      }
    }
  }

  /** The status the thresholds assign to a score. */
  function StatusForScore(score: int): (st: LeadStatus)
    ensures st == Hot <==> score >= HotThreshold
    ensures st == Qualified <==> WarmThresholdLow <= score <= WarmThresholdHigh
    ensures st == New <==> score < WarmThresholdLow
    ensures st in {New, Qualified, Hot}
  {
    if score >= HotThreshold then Hot
    else if WarmThresholdLow <= score <= WarmThresholdHigh then Qualified
    else New
  }

  /** The boundaries of the status bands. */
  lemma StatusBoundaries()
    ensures StatusForScore(39) == New && StatusForScore(40) == Qualified
    ensures StatusForScore(69) == Qualified && StatusForScore(70) == Hot
  {
  }

  /**
   * `compute_lead_score` as its author intended it, with the status members
   * spelled `NEW`, `QUALIFIED` and `HOT` as `LeadStatus` declares them.
   */
  function ComputeLeadScore(script: Script, answers: seq<LeadAnswer>): (r: (int, LeadStatus))
    ensures r.0 == Score(script.questions, answers)
    ensures r.0 >= 0
    ensures r.1 == Hot <==> r.0 >= 70
    ensures r.1 == Qualified <==> 40 <= r.0 <= 69
    ensures r.1 == New <==> r.0 < 40
  {
    var total := Score(script.questions, answers);
    (total, StatusForScore(total))
  }

  /**
   * `compute_lead_score` as written: line 27 evaluates `LeadStatus.new`
   * before any branch, and `LeadStatus` has no attribute `new`, so every
   * call ends in `AttributeError`.
   */
  function ComputeLeadScoreAsWritten(script: Script, answers: seq<LeadAnswer>): (r: Result<(int, LeadStatus)>)
    ensures r.Failure?
  {
    LeadStatusValueIsNoAttr(New);
    match LeadStatusAttr("new")
    case None => Failure("AttributeError: new")
    case Some(initial) =>
      var total := Score(script.questions, answers);
      if total >= HotThreshold then
        (match LeadStatusAttr("hot") case Some(h) => Success((total, h)) case None => Failure("AttributeError: hot"))
      else if WarmThresholdLow <= total <= WarmThresholdHigh then
        (match LeadStatusAttr("qualified") case Some(w) => Success((total, w)) case None => Failure("AttributeError: qualified"))
      else Success((total, initial))
  }

  /* ---------- properties of the score ---------- */

  /** Scores over consecutive answer lists add up. */
  lemma {:induction false} ScoreAppend(qs: seq<ScriptQuestion>, a: seq<LeadAnswer>, b: seq<LeadAnswer>)
    ensures Score(qs, a + b) == Score(qs, a) + Score(qs, b)
    decreases |b|
  {
    if |b| == 0 {
      assert a + b == a;
    } else {
      var b' := b[..|b| - 1];
      ScoreAppend(qs, a, b');
      assert (a + b)[..|a + b| - 1] == a + b';
      assert (a + b)[|a + b| - 1] == b[|b| - 1];
    }
  }

  /** The score of a single answer is its contribution. */
  lemma ScoreSingle(qs: seq<ScriptQuestion>, x: LeadAnswer)
    ensures Score(qs, [x]) == Contribution(qs, x)
  {
    assert [x][..0] == [];
  }

  /** Appending an answer never lowers the score. */
  lemma ScoreMonotone(qs: seq<ScriptQuestion>, a: seq<LeadAnswer>, b: seq<LeadAnswer>)
    ensures Score(qs, a + b) >= Score(qs, a)
  {
    ScoreAppend(qs, a, b);
  }

  /** Answers count independently of their order: the score depends on the multiset of answers only. */
  lemma {:induction false} ScorePermutation(qs: seq<ScriptQuestion>, a: seq<LeadAnswer>, b: seq<LeadAnswer>)
    requires multiset(a) == multiset(b)
    ensures Score(qs, a) == Score(qs, b)
    decreases |a|
  {
    if |a| == 0 {
      assert |b| == |multiset(b)| == 0;
    } else {
      var x := a[|a| - 1];
      var a' := a[..|a| - 1];
      assert a == a' + [x];
      assert x in multiset(b);
      var i :| 0 <= i < |b| && b[i] == x;
      var b' := b[..i] + b[i + 1..];
      assert b == b[..i] + [x] + b[i + 1..];
      assert multiset(a) == multiset(a') + multiset{x};
      assert multiset(b) == multiset(b') + multiset{x} by {
        assert multiset(b) == multiset(b[..i]) + multiset{x} + multiset(b[i + 1..]);
      }
      assert multiset(a') == multiset(a) - multiset{x};
      assert multiset(b') == multiset(b) - multiset{x};
      ScorePermutation(qs, a', b');
      ScoreAppend(qs, b[..i] + [x], b[i + 1..]);
      ScoreAppend(qs, b[..i], [x]);
      ScoreAppend(qs, b[..i], b[i + 1..]);
      ScoreSingle(qs, x);
    }
  }

  /** A repeated answer counts once per occurrence. */
  lemma DuplicatesSum(qs: seq<ScriptQuestion>, a: seq<LeadAnswer>, x: LeadAnswer)
    ensures Score(qs, a + [x, x]) == Score(qs, a) + 2 * Contribution(qs, x)
  {
    ScoreAppend(qs, a, [x, x]);
    ScoreAppend(qs, [x], [x]);
    assert [x] + [x] == [x, x];
    ScoreSingle(qs, x);
  }

  /** An answer to a question the script does not have adds nothing and raises nothing. */
  lemma {:induction false} UnknownAnswerAddsNothing(qs: seq<ScriptQuestion>, a: seq<LeadAnswer>, x: LeadAnswer)
    requires forall i :: 0 <= i < |qs| ==> qs[i].id != x.questionId
    ensures Score(qs, a + [x]) == Score(qs, a)
  {
    ScoreAppend(qs, a, [x]);
    ScoreSingle(qs, x);
  }

  /** A question without hot values, or with an empty list of them, never adds anything. */
  lemma NoHotValuesAddsNothing(qs: seq<ScriptQuestion>, x: LeadAnswer)
    requires LookupQuestion(qs, x.questionId).Some?
    requires LookupQuestion(qs, x.questionId).value.hotValues in {None, Some([])}
    ensures Contribution(qs, x) == 0
  {
  }

  /** A matching answer adds `max(0, weight)`, whatever surrounding whitespace and case it uses. */
  lemma MatchAddsWeight(qs: seq<ScriptQuestion>, x: LeadAnswer, k: nat)
    requires LookupQuestion(qs, x.questionId).Some?
    requires LookupQuestion(qs, x.questionId).value.hotValues.Some?
    requires k < |LookupQuestion(qs, x.questionId).value.hotValues.value|
    requires Norm(LookupQuestion(qs, x.questionId).value.hotValues.value[k]) == Norm(x.value)
    ensures Contribution(qs, x) == Max0(LookupQuestion(qs, x.questionId).value.weight)
  {
  }

  /**
   * An answer whose normalised text equals none of its question's hot values
   * adds nothing: the weight is only added inside `if any(...)`.
   */
  lemma {:induction false} MismatchAddsNothing(qs: seq<ScriptQuestion>, a: seq<LeadAnswer>, x: LeadAnswer)
    requires LookupQuestion(qs, x.questionId).Some?
    requires !HotMatch(LookupQuestion(qs, x.questionId).value, x.value)
    ensures Contribution(qs, x) == 0
    ensures Score(qs, a + [x]) == Score(qs, a)
  {
    ScoreAppend(qs, a, [x]);
    ScoreSingle(qs, x);
  }

  function Max0(w: int): (r: nat)
    ensures r >= w && (r == 0 || r == w)
  {
    if w > 0 then w else 0
  }

  /** No answers score (0, new). */
  lemma EmptyAnswers(script: Script)
    ensures ComputeLeadScore(script, []) == (0, New)
  {
  }

  /* ---------- the all-hot lead ---------- */

  /** The answer list giving the first hot value to every question that has one. */
  function HotAnswers(qs: seq<ScriptQuestion>): (a: seq<LeadAnswer>)
    ensures |a| <= |qs|
  {
    if |qs| == 0 then []
    else
      var q := qs[|qs| - 1];
      var rest := HotAnswers(qs[..|qs| - 1]);
      if q.hotValues.Some? && |q.hotValues.value| > 0 then rest + [LeadAnswer(q.id, q.hotValues.value[0])]
      else rest
  }

  /** The weight of the questions that carry hot values, each counted at least at 0. */
  function HotWeight(qs: seq<ScriptQuestion>): (w: nat)
  {
    if |qs| == 0 then 0
    else
      var q := qs[|qs| - 1];
      HotWeight(qs[..|qs| - 1]) + if q.hotValues.Some? && |q.hotValues.value| > 0 then Max0(q.weight) else 0
  }

  /** `HotAnswers(qs)` answers only questions of `qs`: an id absent from `qs` is never answered. */
  lemma {:induction false} HotAnswersIds(qs: seq<ScriptQuestion>, id: string)
    requires forall i :: 0 <= i < |qs| ==> qs[i].id != id
    ensures forall j :: 0 <= j < |HotAnswers(qs)| ==> HotAnswers(qs)[j].questionId != id
  {
    if |qs| > 0 {
      var init := qs[..|qs| - 1];
      HotAnswersIds(init, id);
      var q := qs[|qs| - 1];
      if q.hotValues.Some? && |q.hotValues.value| > 0 {
        var x := LeadAnswer(q.id, q.hotValues.value[0]);
        assert HotAnswers(qs) == HotAnswers(init) + [x];
      } else {
        assert HotAnswers(qs) == HotAnswers(init);
      }
    }
  }

  /**
   * Over a script with unique ids, answering every question with one of its
   * hot values scores the total hot weight.
   */
  lemma {:induction false} HotAnswersScore(qs: seq<ScriptQuestion>)
    requires forall j, k :: 0 <= j < k < |qs| ==> qs[j].id != qs[k].id
    ensures Score(qs, HotAnswers(qs)) == HotWeight(qs)
  {
    if |qs| > 0 {
      var init := qs[..|qs| - 1];
      var q := qs[|qs| - 1];
      assert qs == init + [q];
      HotAnswersScore(init);
      ScoreOverExtendedScript(init, q, HotAnswers(init));
      if q.hotValues.Some? && |q.hotValues.value| > 0 {
        var x := LeadAnswer(q.id, q.hotValues.value[0]);
        ScoreAppend(qs, HotAnswers(init), [x]);
        ScoreSingle(qs, x);
        LookupLastWins(init, q, q.id);
        assert HotMatch(q, x.value) by {
          assert Norm(q.hotValues.value[0]) == Norm(x.value);
        }
      }
    }
  }

  /** Answers that name none of the new question's id score the same once it is added. */
  lemma {:induction false} ScoreOverExtendedScript(init: seq<ScriptQuestion>, q: ScriptQuestion, a: seq<LeadAnswer>)
    requires forall i :: 0 <= i < |init| ==> init[i].id != q.id
    requires a == HotAnswers(init)
    ensures Score(init + [q], a) == Score(init, a)
  {
    HotAnswersIds(init, q.id);
    ScoreAgrees(init, q, a);
  }

  lemma {:induction false} ScoreAgrees(init: seq<ScriptQuestion>, q: ScriptQuestion, a: seq<LeadAnswer>)
    requires forall j :: 0 <= j < |a| ==> a[j].questionId != q.id
    ensures Score(init + [q], a) == Score(init, a)
  {
    if |a| > 0 {
      ScoreAgrees(init, q, a[..|a| - 1]);
      LookupLastWins(init, q, a[|a| - 1].questionId);
    }
  }
}

=== FILE: script_editor.dfy ===
/**
 * The script editor of the bot (albot/src/bot.py): building an editable
 * script from the LLM's question list, and the button-driven edits on it
 * (toggle mandatory, weight ±5, reorder, cycle the type, enter hot values),
 * plus the two onboarding input rules (goal de-duplication and the agents
 * count).
 *
 * The editable script lives in the user's session; here it is the value
 * `Option<Script>` handed in and returned. Every handler returns at once
 * when there is no script in the session. Callback data parsing is left to
 * the caller: the handlers receive the question id, sign or direction.
 */
module ScriptEditor {
  import opened Wrappers
  import opened Text
  import opened Models
  import HotValues

  /* ---------- finding a question ---------- */

  /** Position of the first question with id `qid`: the `for … if qu.id == qid: … break` loops. */
  function FirstIndex(qs: seq<ScriptQuestion>, qid: string): (r: Option<nat>)
    ensures r.None? <==> forall k :: 0 <= k < |qs| ==> qs[k].id != qid
    ensures r.Some? ==> r.value < |qs| && qs[r.value].id == qid
    ensures r.Some? ==> forall k :: 0 <= k < r.value ==> qs[k].id != qid
  {
    if |qs| == 0 then None
    else if qs[0].id == qid then Some(0)
    else match FirstIndex(qs[1..], qid)
      case None => None
      case Some(i) => Some(i + 1)
  }

  /** Apply `f` to the first question with id `qid`, if there is one. */
  function UpdateFirst(qs: seq<ScriptQuestion>, qid: string, f: ScriptQuestion -> ScriptQuestion): (r: seq<ScriptQuestion>)
    ensures |r| == |qs|
    ensures forall k :: 0 <= k < |qs| && FirstIndex(qs, qid) != Some(k) ==> r[k] == qs[k]
    ensures forall k :: 0 <= k < |qs| && FirstIndex(qs, qid) == Some(k) ==> r[k] == f(qs[k])
  {
    match FirstIndex(qs, qid)
    case None => qs
    case Some(i) => qs[i := f(qs[i])]
  }

  /** `[f(x) for x in s]` */
  function Project<T, U>(s: seq<T>, f: T -> U): (r: seq<U>)
    ensures |r| == |s| && forall k :: 0 <= k < |s| ==> r[k] == f(s[k])
  {
    seq(|s|, k requires 0 <= k < |s| => f(s[k]))
  }

  function IdOf(q: ScriptQuestion): string { q.id }
  function OrderOf(q: ScriptQuestion): int { q.order }

  /** The question ids of a list, in list order. */
  function Ids(qs: seq<ScriptQuestion>): (r: seq<string>)
    ensures |r| == |qs| && forall k :: 0 <= k < |qs| ==> r[k] == qs[k].id
  {
    Project(qs, IdOf)
  }

  /** The `order` values of a list, in list order. */
  function Orders(qs: seq<ScriptQuestion>): (r: seq<int>)
    ensures |r| == |qs| && forall k :: 0 <= k < |qs| ==> r[k] == qs[k].order
  {
    Project(qs, OrderOf)
  }

  /** No two questions share an id. */
  predicate UniqueIds(qs: seq<ScriptQuestion>) {
    forall i, j :: 0 <= i < j < |qs| ==> qs[i].id != qs[j].id
  }

  /* ---------- toggling `mandatory` ---------- */

  /** `on_toggle_mandatory`: flip the flag of the first question with that id. */
  function ToggleMandatory(qs: seq<ScriptQuestion>, qid: string): (r: seq<ScriptQuestion>)
    ensures |r| == |qs|
    ensures forall k :: 0 <= k < |qs| ==> r[k].(mandatory := qs[k].mandatory) == qs[k]
    ensures forall k :: 0 <= k < |qs| ==> (r[k].mandatory != qs[k].mandatory <==> FirstIndex(qs, qid) == Some(k))
  {
    UpdateFirst(qs, qid, (q: ScriptQuestion) => q.(mandatory := !q.mandatory))
  }

  /** Toggling the same question twice restores the list. */
  lemma ToggleInvolution(qs: seq<ScriptQuestion>, qid: string)
    ensures ToggleMandatory(ToggleMandatory(qs, qid), qid) == qs
  {
    var r := ToggleMandatory(qs, qid);
    assert Ids(r) == Ids(qs);
    assert FirstIndex(r, qid) == FirstIndex(qs, qid) by {
      FirstIndexOfSameIds(qs, r, qid);
    }
  }

  /** Two lists with the same ids find a question at the same place. */
  lemma FirstIndexOfSameIds(a: seq<ScriptQuestion>, b: seq<ScriptQuestion>, qid: string)
    requires Ids(a) == Ids(b)
    ensures FirstIndex(a, qid) == FirstIndex(b, qid)
  {
    assert |a| == |b|;
    assert forall k :: 0 <= k < |a| ==> a[k].id == b[k].id by {
      forall k | 0 <= k < |a| ensures a[k].id == b[k].id {
        assert Ids(a)[k] == Ids(b)[k];
      }
    }
  }

  /* ---------- weights ---------- */

  /** One press of "Вес +" or "Вес -": ±5, clamped into 0..50. */
  function StepWeight(w: int, sign: string): (r: int)
    ensures ValidWeight(r)
    ensures var d := if sign == "+" then 5 else -5;
      && (ValidWeight(w + d) ==> r == w + d)
      && (w + d > MaxWeight ==> r == MaxWeight)
      && (w + d < MinWeight ==> r == MinWeight)
  {
    var delta := if sign == "+" then 5 else -5;
    if w + delta > MaxWeight then MaxWeight else if w + delta < MinWeight then MinWeight else w + delta
  }

  /** Away from the bounds a step up is undone by a step down, and the other way round. */
  lemma StepWeightUndo(w: int)
    ensures MinWeight <= w <= MaxWeight - 5 ==> StepWeight(StepWeight(w, "+"), "-") == w
    ensures MinWeight + 5 <= w <= MaxWeight ==> StepWeight(StepWeight(w, "-"), "+") == w
  {
  }

  /** A step up never lowers a valid weight and a step down never raises it. */
  lemma StepWeightMonotone(w: int, sign: string)
    requires ValidWeight(w)
    ensures sign == "+" ==> w <= StepWeight(w, sign) <= w + 5
    ensures sign != "+" ==> w - 5 <= StepWeight(w, sign) <= w
  {
  }

  /** `on_weight_change`: step the weight of the first question with that id. */
  function ChangeWeight(qs: seq<ScriptQuestion>, qid: string, sign: string): (r: seq<ScriptQuestion>)
    ensures |r| == |qs|
    ensures forall k :: 0 <= k < |qs| ==> r[k].(weight := qs[k].weight) == qs[k]
    ensures forall k :: 0 <= k < |qs| && FirstIndex(qs, qid) != Some(k) ==> r[k] == qs[k]
    ensures forall k :: 0 <= k < |qs| && FirstIndex(qs, qid) == Some(k) ==> ValidWeight(r[k].weight)
    ensures ValidWeights(qs) ==> ValidWeights(r)
  {
    UpdateFirst(qs, qid, (q: ScriptQuestion) => q.(weight := StepWeight(q.weight, sign)))
  }

  /* ---------- question types ---------- */

  /** The cycle `[text, number, choice, date]` of `on_change_type`. */
  const TypeCycle: seq<QuestionType> := [Text, Number, Choice, Date]

  /** `order.index(t)`. */
  function TypeIndex(t: QuestionType): (i: nat)
    ensures i < |TypeCycle| && TypeCycle[i] == t
  {
    match t
    case Text => 0
    case Number => 1
    case Choice => 2
    case Date => 3
  }

  /** `order[(cur + 1) % len(order)]`. */
  function NextType(t: QuestionType): (r: QuestionType)
    ensures r != t
    ensures TypeIndex(r) == (TypeIndex(t) + 1) % 4
  {
    TypeCycle[(TypeIndex(t) + 1) % |TypeCycle|]
  }

  /** Four presses bring every type back, passing through all four types. */
  lemma TypeCycleCloses(t: QuestionType)
    ensures NextType(NextType(NextType(NextType(t)))) == t
    ensures {t, NextType(t), NextType(NextType(t)), NextType(NextType(NextType(t)))} == {Text, Number, Choice, Date}
  {
  }

  /** `on_change_type` with the value-level intent: advance the first matching question's type. */
  function CycleType(qs: seq<ScriptQuestion>, qid: string): (r: seq<ScriptQuestion>)
    ensures |r| == |qs|
    ensures forall k :: 0 <= k < |qs| ==> r[k].(qtype := qs[k].qtype) == qs[k]
    ensures forall k :: 0 <= k < |qs| ==> (r[k].qtype != qs[k].qtype <==> FirstIndex(qs, qid) == Some(k))
    ensures forall k :: 0 <= k < |qs| && FirstIndex(qs, qid) == Some(k) ==> TypeIndex(r[k].qtype) == (TypeIndex(qs[k].qtype) + 1) % 4
  {
    UpdateFirst(qs, qid, (q: ScriptQuestion) => q.(qtype := NextType(q.qtype)))
  }

  /**
   * `on_change_type` as written: it builds its cycle from `QuestionType.text`,
   * `.number`, … , attribute names the enum does not have (its members are
   * upper-case), so with a script in the session the handler raises
   * `AttributeError` before touching any question.
   */
  function ChangeTypeAsWritten(model: Option<Script>, qid: string): (r: Result<Option<Script>>)
    ensures model.None? ==> r == Success(None)
    ensures model.Some? ==> r.Failure?
  {
    if model.None? then Success(None)
    else
      var cycled := Some(model.value.(questions := CycleType(model.value.questions, qid)));
      QuestionTypeValueIsNoAttr(Text);
      match QuestionTypeAttr("text")
      case None => Failure("AttributeError: text")
      case Some(_) => Success(cycled)
  }

  /* ---------- sorting by `order` ---------- */

  predicate SortedByOrder(qs: seq<ScriptQuestion>) {
    forall i, j :: 0 <= i < j < |qs| ==> qs[i].order <= qs[j].order
  }

  /** Sorted with no two equal `order` values. */
  predicate StrictlyOrdered(qs: seq<ScriptQuestion>) {
    forall i, j :: 0 <= i < j < |qs| ==> qs[i].order < qs[j].order
  }

  /** Insert `q` in front of the first element whose order is not below its own. */
  function Insert(q: ScriptQuestion, s: seq<ScriptQuestion>): (r: seq<ScriptQuestion>)
    ensures |r| == |s| + 1
    ensures multiset(r) == multiset(s) + multiset{q}
  {
    if |s| == 0 then [q]
    else if q.order <= s[0].order then [q] + s
    else
      assert s == [s[0]] + s[1..];
      [s[0]] + Insert(q, s[1..])
  }

  /** Every question of the list has an order of at least `v`. */
  predicate OrdersFrom(s: seq<ScriptQuestion>, v: int) {
    forall k :: 0 <= k < |s| ==> v <= s[k].order
  }

  lemma {:induction false} InsertOrdersFrom(q: ScriptQuestion, s: seq<ScriptQuestion>, v: int)
    requires OrdersFrom(s, v) && v <= q.order
    ensures OrdersFrom(Insert(q, s), v)
  {
    if |s| > 0 && q.order > s[0].order {
      InsertOrdersFrom(q, s[1..], v);
    }
  }

  lemma {:induction false} InsertSorted(q: ScriptQuestion, s: seq<ScriptQuestion>)
    requires SortedByOrder(s)
    ensures SortedByOrder(Insert(q, s))
  {
    if |s| > 0 && q.order > s[0].order {
      InsertSorted(q, s[1..]);
      InsertOrdersFrom(q, s[1..], s[0].order);
    }
  }

  /** `sorted(questions, key=lambda q: q.order)`: a sorted permutation of the list. */
  function SortByOrder(qs: seq<ScriptQuestion>): (r: seq<ScriptQuestion>)
    ensures |r| == |qs|
    ensures multiset(r) == multiset(qs)
    ensures SortedByOrder(r)
  {
    if |qs| == 0 then []
    else
      var t := SortByOrder(qs[1..]);
      InsertSorted(qs[0], t);
      assert qs == [qs[0]] + qs[1..];
      Insert(qs[0], t)
  }

  /** Sorting a sorted list leaves it as it is. */
  lemma {:induction false} SortSorted(qs: seq<ScriptQuestion>)
    requires SortedByOrder(qs)
    ensures SortByOrder(qs) == qs
  {
    if |qs| > 0 {
      SortSorted(qs[1..]);
      assert [qs[0]] + qs[1..] == qs;
    }
  }

  /** Sorting is idempotent. */
  lemma SortIdempotent(qs: seq<ScriptQuestion>)
    ensures SortByOrder(SortByOrder(qs)) == SortByOrder(qs)
  {
    SortSorted(SortByOrder(qs));
  }

  /** Removing the entry at `j` removes one copy of it from the multiset. */
  lemma DropAt<T>(s: seq<T>, j: nat)
    requires j < |s|
    ensures multiset(s[..j] + s[j + 1..]) == multiset(s) - multiset{s[j]}
  {
    assert s == s[..j] + [s[j]] + s[j + 1..];
  }

  /** A sorted and a strictly ordered list with the same elements start alike. */
  lemma SortedUniqueHead(a: seq<ScriptQuestion>, b: seq<ScriptQuestion>)
    requires SortedByOrder(a) && StrictlyOrdered(b)
    requires multiset(a) == multiset(b) && |a| > 0
    ensures |b| > 0 && a[0] == b[0]
  {
    assert a[0] in multiset(b);
    var j :| 0 <= j < |b| && b[j] == a[0];
    assert b[0] in multiset(a);
    var k :| 0 <= k < |a| && a[k] == b[0];
    assert a[0].order <= a[k].order;
    assert j == 0;
  }

  /** Two permutations of each other that start alike continue as permutations. */
  lemma TailsPermuted<T>(a: seq<T>, b: seq<T>)
    requires multiset(a) == multiset(b) && |a| > 0 && |b| > 0 && a[0] == b[0]
    ensures multiset(a[1..]) == multiset(b[1..])
  {
    assert a == [a[0]] + a[1..];
    assert b == [b[0]] + b[1..];
    assert multiset(a) == multiset{a[0]} + multiset(a[1..]);
    assert multiset(b) == multiset{a[0]} + multiset(b[1..]);
    assert multiset(a[1..]) == multiset(a) - multiset{a[0]};
    assert multiset(b[1..]) == multiset(b) - multiset{a[0]};
  }

  lemma TailsOrdered(a: seq<ScriptQuestion>, b: seq<ScriptQuestion>)
    requires SortedByOrder(a) && StrictlyOrdered(b) && |a| > 0 && |b| > 0
    ensures SortedByOrder(a[1..]) && StrictlyOrdered(b[1..])
  {
  }

  /** A sorted list and a strictly ordered list with the same elements are equal. */
  lemma {:induction false} SortedUnique(a: seq<ScriptQuestion>, b: seq<ScriptQuestion>)
    requires SortedByOrder(a) && StrictlyOrdered(b)
    requires multiset(a) == multiset(b)
    ensures a == b
  {
    if |a| == 0 {
      assert |multiset(b)| == 0;
    } else {
      SortedUniqueHead(a, b);
      TailsPermuted(a, b);
      TailsOrdered(a, b);
      SortedUnique(a[1..], b[1..]);
      assert a == [a[0]] + a[1..] && b == [b[0]] + b[1..];
    }
  }

  /* ---------- moving a question ---------- */

  /** Exchange the `order` values of the questions at positions `i` and `j`. */
  function SwapOrders(s: seq<ScriptQuestion>, i: nat, j: nat): (r: seq<ScriptQuestion>)
    requires i < |s| && j < |s|
    ensures |r| == |s|
  {
    s[i := s[i].(order := s[j].order)][j := s[j].(order := s[i].order)]
  }

  lemma SwapOrdersKeepsIds(s: seq<ScriptQuestion>, i: nat, j: nat)
    requires i < |s| && j < |s|
    ensures Ids(SwapOrders(s, i, j)) == Ids(s)
  {
  }

  /** Exchanging two entries of a sequence keeps its multiset. */
  lemma SwapMultiset<T>(x: seq<T>, i: nat, j: nat)
    requires i < |x| && j < |x|
    ensures multiset(x[i := x[j]][j := x[i]]) == multiset(x)
  {
  }

  lemma SwapOrdersKeepsOrders(s: seq<ScriptQuestion>, i: nat, j: nat)
    requires i < |s| && j < |s|
    ensures multiset(Orders(SwapOrders(s, i, j))) == multiset(Orders(s))
  {
    var o := Orders(s);
    assert Orders(SwapOrders(s, i, j)) == o[i := o[j]][j := o[i]];
    SwapMultiset(o, i, j);
  }

  /** Projecting a list with one entry removed removes that entry's image. */
  lemma ProjectDropAt<T, U>(s: seq<T>, j: nat, f: T -> U)
    requires j < |s|
    ensures multiset(Project(s, f)) == multiset(Project(s[..j] + s[j + 1..], f)) + multiset{f(s[j])}
  {
    var p := Project(s, f);
    assert Project(s[..j] + s[j + 1..], f) == p[..j] + p[j + 1..];
    assert p == p[..j] + [p[j]] + p[j + 1..];
  }

  /** Permuting a list permutes any projection of it the same way. */
  lemma {:induction false} ProjectPermutation<T, U>(a: seq<T>, b: seq<T>, f: T -> U)
    requires multiset(a) == multiset(b)
    ensures multiset(Project(a, f)) == multiset(Project(b, f))
    decreases |a|
  {
    if |a| == 0 {
      assert |multiset(b)| == 0;
    } else {
      var n := |a| - 1;
      assert a[n] in multiset(b);
      var j :| 0 <= j < |b| && b[j] == a[n];
      var b' := b[..j] + b[j + 1..];
      assert multiset(a[..n]) == multiset(b') by {
        DropAt(a, n);
        DropAt(b, j);
        assert a[..n] + a[n + 1..] == a[..n];
      }
      ProjectPermutation(a[..n], b', f);
      ProjectDropAt(a, n, f);
      ProjectDropAt(b, j, f);
      assert a[..n] + a[n + 1..] == a[..n];
    }
  }

  /** Permuting a list keeps the weight bound. */
  lemma PermutationKeepsWeights(a: seq<ScriptQuestion>, b: seq<ScriptQuestion>)
    requires multiset(a) == multiset(b)
    ensures ValidWeights(a) <==> ValidWeights(b)
  {
    assert forall k :: 0 <= k < |b| ==> b[k] in multiset(a);
    assert forall k :: 0 <= k < |a| ==> a[k] in multiset(b);
  }

  /** Permuting a list permutes its ids and its orders the same way and keeps the weight bound. */
  lemma PermutationProjections(a: seq<ScriptQuestion>, b: seq<ScriptQuestion>)
    requires multiset(a) == multiset(b)
    ensures multiset(Ids(a)) == multiset(Ids(b))
    ensures multiset(Orders(a)) == multiset(Orders(b))
    ensures ValidWeights(a) <==> ValidWeights(b)
  {
    ProjectPermutation(a, b, IdOf);
    ProjectPermutation(a, b, OrderOf);
    PermutationKeepsWeights(a, b);
  }

  /** A permutation of a list holds a question with a given id iff the list does. */
  lemma PermutationFinds(a: seq<ScriptQuestion>, b: seq<ScriptQuestion>, qid: string)
    requires multiset(a) == multiset(b)
    ensures FirstIndex(a, qid).None? <==> FirstIndex(b, qid).None?
  {
    if FirstIndex(a, qid).Some? {
      assert a[FirstIndex(a, qid).value] in multiset(b);
    }
    if FirstIndex(b, qid).Some? {
      assert b[FirstIndex(b, qid).value] in multiset(a);
    }
  }

  /** Exchange the orders of two questions and sort again: a permutation of ids and of orders. */
  function SwapAndSort(s: seq<ScriptQuestion>, i: nat, j: nat): (r: seq<ScriptQuestion>)
    requires i < |s| && j < |s|
    ensures |r| == |s| && SortedByOrder(r)
    ensures multiset(Ids(r)) == multiset(Ids(s))
    ensures multiset(Orders(r)) == multiset(Orders(s))
    ensures ValidWeights(r) <==> ValidWeights(s)
    ensures s[i].(order := s[j].order) in r && s[j].(order := s[i].order) in r
  {
    var t := SwapOrders(s, i, j);
    var r := SortByOrder(t);
    SwapOrdersKeepsIds(s, i, j);
    SwapOrdersKeepsOrders(s, i, j);
    PermutationProjections(r, t);
    assert ValidWeights(t) <==> ValidWeights(s);
    assert t[i] in multiset(r) && t[j] in multiset(r);
    r
  }

  /**
   * `on_move_question`: in the list sorted by order, exchange the orders of
   * the question and its neighbour above ("up") or below ("down"), then
   * sort again. An unknown id leaves the list untouched; a move past either
   * end or an unknown direction only sorts it.
   */
  function MoveQuestion(qs: seq<ScriptQuestion>, qid: string, direction: string): (r: seq<ScriptQuestion>)
    ensures |r| == |qs|
    ensures FirstIndex(qs, qid).None? ==> r == qs
    ensures FirstIndex(qs, qid).Some? ==> SortedByOrder(r)
    ensures multiset(Ids(r)) == multiset(Ids(qs))
    ensures multiset(Orders(r)) == multiset(Orders(qs))
    ensures ValidWeights(r) <==> ValidWeights(qs)
  {
    var s := SortByOrder(qs);
    PermutationProjections(s, qs);
    PermutationFinds(s, qs, qid);
    match FirstIndex(s, qid)
    case None => qs
    case Some(i) =>
      if direction == "up" && i > 0 then SwapAndSort(s, i - 1, i)
      else if direction == "down" && i < |s| - 1 then SwapAndSort(s, i, i + 1)
      else s
  }

  /** A move exchanges the orders of the question and its neighbour in sorted position, or only sorts. */
  lemma MoveSwapsNeighbours(qs: seq<ScriptQuestion>, qid: string, direction: string)
    ensures var s := SortByOrder(qs);
      var r := MoveQuestion(qs, qid, direction);
      FirstIndex(s, qid).Some? ==>
        var i := FirstIndex(s, qid).value;
        if direction == "up" && i > 0 then
          s[i].(order := s[i - 1].order) in r && s[i - 1].(order := s[i].order) in r
        else if direction == "down" && i < |s| - 1 then
          s[i].(order := s[i + 1].order) in r && s[i + 1].(order := s[i].order) in r
        else r == s
  {
    var s := SortByOrder(qs);
    PermutationProjections(s, qs);
    PermutationFinds(s, qs, qid);
  }

  /** `s` with the questions at `i - 1` and `i` exchanged, each keeping the order value of its place. */
  function ExchangeAt(s: seq<ScriptQuestion>, i: nat): (r: seq<ScriptQuestion>)
    requires 0 < i < |s|
    ensures |r| == |s|
    ensures r[i - 1].id == s[i].id && r[i].id == s[i - 1].id
    ensures forall k :: 0 <= k < |s| && k != i - 1 && k != i ==> r[k] == s[k]
  {
    s[i - 1 := s[i].(order := s[i - 1].order)][i := s[i - 1].(order := s[i].order)]
  }

  /** Exchanging the same two neighbours twice gives the list back. */
  lemma ExchangeTwice(s: seq<ScriptQuestion>, i: nat)
    requires 0 < i < |s|
    ensures ExchangeAt(ExchangeAt(s, i), i) == s
  {
    var u := ExchangeAt(s, i);
    var v := ExchangeAt(u, i);
    assert u[i - 1].order == s[i - 1].order && u[i].order == s[i].order;
    assert v[i - 1] == u[i].(order := s[i - 1].order) == s[i - 1];
    assert v[i] == u[i - 1].(order := s[i].order) == s[i];
    assert forall k :: 0 <= k < |s| && k != i - 1 && k != i ==> v[k] == s[k];
  }

  /** In a strictly ordered list, swapping two neighbours' orders and sorting exchanges the two questions. */
  lemma SortAfterAdjacentSwap(s: seq<ScriptQuestion>, i: nat)
    requires StrictlyOrdered(s) && 0 < i < |s|
    ensures SortByOrder(SwapOrders(s, i - 1, i)) == ExchangeAt(s, i)
    ensures StrictlyOrdered(ExchangeAt(s, i))
  {
    var t := SwapOrders(s, i - 1, i);
    var u := ExchangeAt(s, i);
    assert u == t[i - 1 := t[i]][i := t[i - 1]];
    SwapMultiset(t, i - 1, i);
    assert StrictlyOrdered(u);
    SortedUnique(SortByOrder(t), u);
  }

  /** The first question with id `qid` is the one at `i`. */
  lemma FirstIndexAt(qs: seq<ScriptQuestion>, qid: string, i: nat)
    requires i < |qs| && qs[i].id == qid
    requires forall k :: 0 <= k < i ==> qs[k].id != qid
    ensures FirstIndex(qs, qid) == Some(i)
  {
  }

  /** In a strictly ordered list, "up" exchanges the question with the one above it. */
  lemma MoveUpStrict(qs: seq<ScriptQuestion>, qid: string)
    requires StrictlyOrdered(qs)
    requires FirstIndex(qs, qid).Some? && FirstIndex(qs, qid).value > 0
    ensures MoveQuestion(qs, qid, "up") == ExchangeAt(qs, FirstIndex(qs, qid).value)
  {
    var i := FirstIndex(qs, qid).value;
    assert SortByOrder(qs) == qs by {
      assert SortedByOrder(qs);
      SortSorted(qs);
    }
    assert SwapAndSort(qs, i - 1, i) == ExchangeAt(qs, i) by {
      SortAfterAdjacentSwap(qs, i);
    }
  }

  /** In a strictly ordered list, "down" exchanges the question with the one below it. */
  lemma MoveDownStrict(qs: seq<ScriptQuestion>, qid: string, i: nat)
    requires StrictlyOrdered(qs)
    requires FirstIndex(qs, qid) == Some(i) && i < |qs| - 1
    ensures MoveQuestion(qs, qid, "down") == ExchangeAt(qs, i + 1)
  {
    assert SortByOrder(qs) == qs by {
      assert SortedByOrder(qs);
      SortSorted(qs);
    }
    assert SwapAndSort(qs, i, i + 1) == ExchangeAt(qs, i + 1) by {
      SortAfterAdjacentSwap(qs, i + 1);
    }
  }

  /** Exchanging the first question with id `qid` with its upper neighbour moves it one place up. */
  lemma ExchangeMovesIndex(qs: seq<ScriptQuestion>, qid: string, i: nat)
    requires FirstIndex(qs, qid) == Some(i) && i > 0
    ensures FirstIndex(ExchangeAt(qs, i), qid) == Some(i - 1)
  {
    var u := ExchangeAt(qs, i);
    assert forall k :: 0 <= k < i - 1 ==> u[k].id == qs[k].id != qid;
    FirstIndexAt(u, qid, i - 1);
  }

  /** For distinct orders, moving a question up and then down restores the list. */
  lemma MoveUpThenDown(qs: seq<ScriptQuestion>, qid: string)
    requires StrictlyOrdered(qs)
    requires FirstIndex(qs, qid).Some? && FirstIndex(qs, qid).value > 0
    ensures MoveQuestion(MoveQuestion(qs, qid, "up"), qid, "down") == qs
  {
    var i := FirstIndex(qs, qid).value;
    var u := ExchangeAt(qs, i);
    MoveUpStrict(qs, qid);
    SortAfterAdjacentSwap(qs, i);
    ExchangeMovesIndex(qs, qid, i);
    var down := MoveQuestion(u, qid, "down");
    assert down == qs by {
      MoveDownStrict(u, qid, i - 1);
      ExchangeTwice(qs, i);
    }
  }

  /* ---------- hot values ---------- */

  /** The session state of hot-value entry: the question awaiting values, and the script. */
  datatype HotValuesSession = HotValuesSession(awaiting: Option<string>, model: Option<Script>)

  /**
   * `on_hot_values_input`: with a question awaiting values and a script in
   * the session, replace that question's hot values and stop awaiting.
   * Without a script the awaited id stays in place.
   */
  function HotValuesInput(st: HotValuesSession, text: Option<string>): (r: HotValuesSession)
    ensures st.awaiting.None? || st.awaiting == Some("") || st.model.None? ==> r == st
    ensures st.awaiting.Some? && st.awaiting.value != "" && st.model.Some? ==>
      var qs := st.model.value.questions;
      var qid := st.awaiting.value;
      && r.awaiting.None? && r.model.Some?
      && r.model.value.(questions := qs) == st.model.value
      && |r.model.value.questions| == |qs|
      && (forall k :: 0 <= k < |qs| && FirstIndex(qs, qid) != Some(k) ==> r.model.value.questions[k] == qs[k])
      && (forall k :: 0 <= k < |qs| && FirstIndex(qs, qid) == Some(k) ==>
            r.model.value.questions[k] == qs[k].(hotValues := Some(HotValues.ParseHotValues(text))))
  {
    if st.awaiting.None? || st.awaiting.value == "" || st.model.None? then st
    else
      var values := HotValues.ParseHotValues(text);
      var qs := UpdateFirst(st.model.value.questions, st.awaiting.value, (q: ScriptQuestion) => q.(hotValues := Some(values)));
      HotValuesSession(None, Some(st.model.value.(questions := qs)))
  }

  /* ---------- the edit buttons together ---------- */

  /** One press of an editor button on a question. */
  datatype Edit =
    | ToggleMandatoryEdit(qid: string)
    | WeightEdit(qid: string, sign: string)
    | MoveEdit(qid: string, direction: string)
    | TypeEdit(qid: string)

  /** The effect of an editor button on the session's script (the intended type cycle). */
  function ApplyEdit(model: Option<Script>, e: Edit): (r: Option<Script>)
    ensures model.None? <==> r.None?
    ensures r.Some? ==> r.value.(questions := model.value.questions) == model.value
    ensures r.Some? ==> multiset(Ids(r.value.questions)) == multiset(Ids(model.value.questions))
    ensures r.Some? ==> |r.value.questions| == |model.value.questions|
    ensures r.Some? && ValidScript(model.value) ==> ValidScript(r.value)
  {
    match model
    case None => None
    case Some(s) =>
      var qs := s.questions;
      var qs' := match e
        case ToggleMandatoryEdit(qid) => ToggleMandatory(qs, qid)
        case WeightEdit(qid, sign) => ChangeWeight(qs, qid, sign)
        case MoveEdit(qid, direction) => MoveQuestion(qs, qid, direction)
        case TypeEdit(qid) => CycleType(qs, qid);
      assert e.MoveEdit? || Ids(qs') == Ids(qs);
      Some(s.(questions := qs'))
  }

  /* ---------- building the editable script ---------- */

  /**
   * One entry of the LLM's `script` list, with the keys the editor reads.
   * A missing key is `None`; `mandatory` is already its truth value.
   */
  datatype LlmItem = LlmItem(
    id: Option<string>,
    qtype: Option<string>,
    order: Option<int>,
    text: Option<string>,
    choices: Option<seq<string>>,
    mandatory: bool,
    weight: Option<int>,
    hotValues: Option<seq<string>>)

  /** `x or default` for an optional string: a missing or empty string gives the default. */
  function OrString(x: Option<string>, default: string): (r: string)
    ensures x.Some? && x.value != "" ==> r == x.value
    ensures x.None? || x.value == "" ==> r == default
  {
    if x.Some? && x.value != "" then x.value else default
  }

  /** `x or default` for an optional integer: a missing value or 0 gives the default. */
  function OrInt(x: Option<int>, default: int): (r: int)
    ensures x.Some? && x.value != 0 ==> r == x.value
    ensures x.None? || x.value == 0 ==> r == default
  {
    if x.Some? && x.value != 0 then x.value else default
  }

  /** The default question id `f"q{idx}"`. */
  function DefaultId(idx: nat): string {
    "q" + NatToString(idx)
  }

  /** The type an entry asks for: its `type` string, "text" when that is missing or empty. */
  function RequestedType(item: LlmItem): string {
    OrString(item.qtype, "text")
  }

  /** The entry at position `idx` (counting from 1) as a question; pydantic rejects a weight outside 0..50. */
  function ConvertItem(item: LlmItem, idx: nat): (r: Result<ScriptQuestion>)
    ensures r.Success? <==> ValidWeight(OrInt(item.weight, 0))
    ensures r.Success? ==>
      && r.value.id == OrString(item.id, DefaultId(idx))
      && r.value.order == OrInt(item.order, idx)
      && r.value.text == OrString(item.text, "Вопрос")
      && r.value.weight == OrInt(item.weight, 0)
      && r.value.mandatory == item.mandatory
      && r.value.choices == item.choices && r.value.hotValues == item.hotValues
      && (forall t: QuestionType :: t.Value() == RequestedType(item) ==> r.value.qtype == t)
      && (QuestionTypeFromValue(RequestedType(item)).None? ==> r.value.qtype == Text)
  {
    var qtype := QuestionTypeFromValue(RequestedType(item)).GetOr(Text);
    NewQuestion(
      OrString(item.id, DefaultId(idx)), OrInt(item.order, idx), OrString(item.text, "Вопрос"), qtype,
      item.choices, Some(item.mandatory), Some(OrInt(item.weight, 0)), item.hotValues)
  }

  /** Convert the entries in order; a rejected weight raises and fails the whole list. */
  function ConvertItems(items: seq<LlmItem>): (r: Result<seq<ScriptQuestion>>)
    ensures r.Success? <==> forall k :: 0 <= k < |items| ==> ValidWeight(OrInt(items[k].weight, 0))
    ensures r.Success? ==> |r.value| == |items|
    ensures r.Success? ==> forall k :: 0 <= k < |items| ==> ConvertItem(items[k], k + 1) == Success(r.value[k])
  {
    if forall k :: 0 <= k < |items| ==> ConvertItem(items[k], k + 1).Success? then
      Success(seq(|items|, k requires 0 <= k < |items| => ConvertItem(items[k], k + 1).value))
    else
      Failure("ValidationError: weight must be between 0 and 50")
  }

  /**
   * `_ensure_script_model` with the value-level intent (an unknown type
   * becomes "text"). An existing script is kept; a missing or non-list LLM
   * script leaves the session without one; otherwise the entries become a
   * draft script sorted by order.
   */
  function EnsureScriptModel(existing: Option<Script>, llmScript: Option<seq<LlmItem>>): (r: Result<Option<Script>>)
    ensures existing.Some? ==> r == Success(existing)
    ensures existing.None? && llmScript.None? ==> r == Success(None)
    ensures existing.None? && llmScript.Some? ==>
      (r.Success? <==> forall k :: 0 <= k < |llmScript.value| ==> ValidWeight(OrInt(llmScript.value[k].weight, 0)))
    ensures existing.None? && llmScript.Some? && r.Success? ==>
      && r.value.Some?
      && r.value.value.id == "scr_1" && r.value.value.name == "Черновик" && r.value.value.createdBy == "org_1"
      && |r.value.value.questions| == |llmScript.value|
      && SortedByOrder(r.value.value.questions)
      && ValidScript(r.value.value)
      && multiset(r.value.value.questions) == multiset(ConvertItems(llmScript.value).value)
  {
    if existing.Some? then Success(existing)
    else if llmScript.None? then Success(None)
    else
      match ConvertItems(llmScript.value)
      case Failure(e) => Failure(e)
      case Success(qs) =>
        assert ValidWeights(qs);
        var sorted := SortByOrder(qs);
        PermutationProjections(sorted, qs);
        Success(Some(Script("scr_1", "Черновик", "org_1", sorted)))
  }

  /** An entry with no keys at position `idx` becomes question `q<idx>` of order `idx`, weight 0, type text, optional. */
  lemma EmptyItemDefaults(idx: nat)
    requires idx != 0
    ensures var r := ConvertItem(LlmItem(None, None, None, None, None, false, None, None), idx);
      && r.Success?
      && r.value.id == "q" + NatToString(idx) && r.value.order == idx && r.value.weight == 0
      && r.value.qtype == Text && !r.value.mandatory && r.value.text == "Вопрос"
  {
  }

  /**
   * `_ensure_script_model` as written: an entry whose type is not one of the
   * four values falls back on `QuestionType.text`, which raises
   * `AttributeError`; the `except` branch repeats the lookup and raises
   * again, so such an entry fails the whole conversion.
   */
  function EnsureScriptModelAsWritten(existing: Option<Script>, llmScript: Option<seq<LlmItem>>): (r: Result<Option<Script>>)
    ensures existing.Some? || llmScript.None? ==> r == EnsureScriptModel(existing, llmScript)
    ensures existing.None? && llmScript.Some?
      && (exists k :: 0 <= k < |llmScript.value| && QuestionTypeFromValue(RequestedType(llmScript.value[k])).None?)
      ==> r.Failure?
    ensures existing.None? && llmScript.Some?
      && (forall k :: 0 <= k < |llmScript.value| ==> QuestionTypeFromValue(RequestedType(llmScript.value[k])).Some?)
      ==> r == EnsureScriptModel(existing, llmScript)
  {
    if existing.Some? || llmScript.None? then EnsureScriptModel(existing, llmScript)
    else if exists k :: 0 <= k < |llmScript.value| && QuestionTypeFromValue(RequestedType(llmScript.value[k])).None? then
      QuestionTypeValueIsNoAttr(Text);
      match QuestionTypeAttr("text")
      case None => Failure("AttributeError: text")
      case Some(_) => EnsureScriptModel(existing, llmScript)
    else EnsureScriptModel(existing, llmScript)
  }

  /** An entry asking for an unknown type makes the as-written conversion fail, while the intended one gives it type text. */
  lemma UnknownTypeDiscrepancy()
    ensures var item := LlmItem(Some("q1"), Some("rating"), Some(1), Some("Оценка"), None, true, Some(10), None);
      && EnsureScriptModelAsWritten(None, Some([item])).Failure?
      && EnsureScriptModel(None, Some([item])).Success?
      && EnsureScriptModel(None, Some([item])).value.value.questions[0].qtype == Text
  {
    var item := LlmItem(Some("q1"), Some("rating"), Some(1), Some("Оценка"), None, true, Some(10), None);
    assert QuestionTypeFromValue(RequestedType(item)).None?;
    var qs := ConvertItems([item]).value;
    assert Success(qs[0]) == ConvertItem(item, 1);
    var s := EnsureScriptModel(None, Some([item])).value.value.questions;
    assert s[0] in multiset(qs);
  }

  /* ---------- onboarding inputs ---------- */

  /** A list without repeated entries. */
  predicate NoDuplicates(xs: seq<string>) {
    forall i, j :: 0 <= i < j < |xs| ==> xs[i] != xs[j]
  }

  /** `on_q_goal_multi`: a goal is appended only when it is not chosen yet. */
  function AddGoal(goals: seq<string>, value: string): (r: seq<string>)
    ensures NoDuplicates(goals) ==> NoDuplicates(r)
    ensures value in r
    ensures forall g :: g in r <==> g in goals || g == value
    ensures |goals| <= |r| && r[..|goals|] == goals
  {
    if value in goals then goals else goals + [value]
  }

  /** Choosing the same goal twice has the effect of choosing it once. */
  lemma AddGoalIdempotent(goals: seq<string>, value: string)
    ensures AddGoal(AddGoal(goals, value), value) == AddGoal(goals, value)
  {
  }

  /** `on_q_agents`: the trimmed answer is accepted as a number only when it is all digits. */
  function AgentsInput(text: Option<string>): (r: Option<nat>)
    ensures r.Some? <==> AllDigits(Strip(text.GetOr("")))
  {
    var t := Strip(text.GetOr(""));
    if AllDigits(t) then Some(ParseDigits(t)) else None
  }

  /** Typing a number's decimal form, with any surrounding spaces, gives back the number. */
  lemma AgentsInputRoundTrip(n: nat)
    ensures AgentsInput(Some(NatToString(n))) == Some(n)
  {
    var s := NatToString(n);
    assert IsStripped(s) by {
      assert !IsSpace(s[0]) && !IsSpace(s[|s| - 1]);
    }
    StripOfStripped(s);
    ParseNatToString(n);
  }
}

=== FILE: script_generator.dfy ===
/**
 * The rule-based script generator of the mini app
 * (`generate_script_from_answers` in albot/mini_app/server.py): a fixed
 * frame of questions, two optional questions chosen from the onboarding
 * answers, and three fixed recommendations.
 */
module ScriptGenerator {
  import opened Wrappers
  import opened Models

  /** A JSON value as the mini app's request body delivers it. */
  datatype Json =
    | JNull
    | JBool(b: bool)
    | JNum(n: real)
    | JStr(s: string)
    | JList(items: seq<Json>)
    | JObject(fields: map<string, Json>)

  /** Python truthiness of a decoded JSON value. */
  predicate Truthy(v: Json) {
    match v
    case JNull => false
    case JBool(b) => b
    case JNum(n) => n != 0.0
    case JStr(s) => s != ""
    case JList(items) => items != []
    case JObject(fields) => fields != map[]
  }

  /** One question of a generated script: a dictionary with `options` instead of `choices` and no `order`. */
  datatype GeneratedQuestion = GeneratedQuestion(
    id: string,
    text: string,
    qtype: QuestionType,
    options: Option<seq<string>>,
    mandatory: bool,
    weight: int)

  datatype GeneratedScript = GeneratedScript(questions: seq<GeneratedQuestion>, recommendations: seq<string>)

  const NewBuilding: string := "Новостройка"
  const Rental: string := "Аренда"

  const Q1 := GeneratedQuestion("q1", "В каком районе вы ищете недвижимость?", QuestionType.Text, None, true, 20)
  const Q2 := GeneratedQuestion("q2", "Какой у вас бюджет?", QuestionType.Text, None, true, 30)
  const Q3NewBuilding := GeneratedQuestion("q3", "Интересуют ли вас новостройки с отделкой?", Choice,
    Some(["Да, с отделкой", "Нет, без отделки", "Не важно"]), true, 25)
  const Q3Rental := GeneratedQuestion("q3", "На какой срок планируете аренду?", Choice,
    Some(["До 1 года", "1-3 года", "Более 3 лет"]), true, 25)
  const Q4 := GeneratedQuestion("q4", "Когда планируете совершить сделку?", Choice,
    Some(["В течение месяца", "В течение 3 месяцев", "В течение года", "Пока присматриваюсь"]), true, 20)
  const Q5 := GeneratedQuestion("q5", "Как с вами лучше связаться?", Choice,
    Some(["Телефон", "WhatsApp", "Telegram", "Email"]), true, 10)

  const Recommendations: seq<string> := [
    "Используйте открытые вопросы для лучшего понимания потребностей",
    "Задавайте вопросы о бюджете в середине диалога",
    "Всегда уточняйте контактные данные в конце"]

  /** `answers.get(key) == s`: a missing key is `None`, which equals no string. */
  predicate AnswerIs(answers: map<string, Json>, key: string, s: string) {
    key in answers && answers[key] == JStr(s)
  }

  /** `bool(answers.get(key))`. */
  predicate AnswerTruthy(answers: map<string, Json>, key: string) {
    key in answers && Truthy(answers[key])
  }

  /** The number in a question id `"q<d>"`. */
  function IdNumber(id: string): int {
    if |id| == 2 && id[0] == 'q' && '0' <= id[1] <= '9' then id[1] as int - '0' as int else -1
  }

  /** Some question of the list has id `"q<n>"`. */
  predicate HasQuestion(qs: seq<GeneratedQuestion>, n: int) {
    exists i :: 0 <= i < |qs| && IdNumber(qs[i].id) == n
  }

  /** `generate_script_from_answers`. */
  function GenerateScript(answers: map<string, Json>): (r: GeneratedScript)
    ensures 3 <= |r.questions| <= 5
    ensures r.questions[0] == Q1 && r.questions[1] == Q2 && r.questions[|r.questions| - 1] == Q5
    ensures AnswerIs(answers, "business_type", NewBuilding) ==> r.questions[2] == Q3NewBuilding
    ensures AnswerIs(answers, "business_type", Rental) ==> r.questions[2] == Q3Rental
    ensures AnswerTruthy(answers, "client_urgency") ==> r.questions[|r.questions| - 2] == Q4
    ensures forall i :: 0 <= i < |r.questions| ==> r.questions[i].mandatory && ValidWeight(r.questions[i].weight)
    ensures |r.recommendations| == 3
  {
    var frame := [Q1, Q2];
    var withType :=
      if AnswerIs(answers, "business_type", NewBuilding) then frame + [Q3NewBuilding]
      else if AnswerIs(answers, "business_type", Rental) then frame + [Q3Rental]
      else frame;
    var withUrgency := if AnswerTruthy(answers, "client_urgency") then withType + [Q4] else withType;
    GeneratedScript(withUrgency + [Q5], Recommendations)
  }

  /** The generated question list is one of four shapes, picked by the two answers. */
  lemma GeneratedShapes(answers: map<string, Json>)
    ensures var qs := GenerateScript(answers).questions;
      var typed := AnswerIs(answers, "business_type", NewBuilding) || AnswerIs(answers, "business_type", Rental);
      var urgent := AnswerTruthy(answers, "client_urgency");
      && (!typed && !urgent ==> qs == [Q1, Q2, Q5])
      && (!typed && urgent ==> qs == [Q1, Q2, Q4, Q5])
      && (typed && !urgent ==> |qs| == 4 && qs[..2] == [Q1, Q2] && qs[3] == Q5 && qs[2] in {Q3NewBuilding, Q3Rental})
      && (typed && urgent ==> |qs| == 5 && qs[..2] == [Q1, Q2] && qs[3..] == [Q4, Q5] && qs[2] in {Q3NewBuilding, Q3Rental})
  {
  }

  /** q3 is asked iff the business type is a new building or a rental; q4 iff urgency was answered. */
  lemma {:induction false} GeneratedOptionalQuestions(answers: map<string, Json>)
    ensures HasQuestion(GenerateScript(answers).questions, 3)
      <==> AnswerIs(answers, "business_type", NewBuilding) || AnswerIs(answers, "business_type", Rental)
    ensures HasQuestion(GenerateScript(answers).questions, 4) <==> AnswerTruthy(answers, "client_urgency")
  {
    var qs := GenerateScript(answers).questions;
    GeneratedShapes(answers);
    IdNumbers();
    if HasQuestion(qs, 3) {
      var i :| 0 <= i < |qs| && IdNumber(qs[i].id) == 3;
    }
    if HasQuestion(qs, 4) {
      var i :| 0 <= i < |qs| && IdNumber(qs[i].id) == 4;
    }
    if AnswerIs(answers, "business_type", NewBuilding) || AnswerIs(answers, "business_type", Rental) {
      assert IdNumber(qs[2].id) == 3;
    }
    if AnswerTruthy(answers, "client_urgency") {
      assert IdNumber(qs[|qs| - 2].id) == 4;
    }
  }

  /** The ids of the fixed questions. */
  lemma IdNumbers()
    ensures IdNumber(Q1.id) == 1 && IdNumber(Q2.id) == 2 && IdNumber(Q4.id) == 4 && IdNumber(Q5.id) == 5
    ensures IdNumber(Q3NewBuilding.id) == 3 && IdNumber(Q3Rental.id) == 3
  {
  }

  /** Question ids strictly increase along the generated list. */
  lemma GeneratedIdsIncrease(answers: map<string, Json>)
    ensures var qs := GenerateScript(answers).questions;
      forall i, j :: 0 <= i < j < |qs| ==> 0 < IdNumber(qs[i].id) < IdNumber(qs[j].id)
  {
    GeneratedShapes(answers);
    IdNumbers();
  }

  /** The question count is three plus one for each optional question that applies. */
  lemma GeneratedCount(answers: map<string, Json>)
    ensures |GenerateScript(answers).questions| ==
      3 + (if AnswerIs(answers, "business_type", NewBuilding) || AnswerIs(answers, "business_type", Rental) then 1 else 0)
        + (if AnswerTruthy(answers, "client_urgency") then 1 else 0)
  {
  }

  /** With no onboarding answers the script is the bare frame q1, q2, q5. */
  lemma EmptyAnswersGiveFrame()
    ensures GenerateScript(map[]).questions == [Q1, Q2, Q5]
  {
  }
}

=== FILE: script_templates.dfy ===
/**
 * The four built-in qualification scripts and the manager that hands them
 * out (albot/src/script_templates.py). The `purpose=` argument the templates
 * pass to `ScriptQuestion` is not a field of the model and pydantic drops it,
 * so it does not appear here.
 */
module ScriptTemplates {
  import opened Wrappers
  import opened Models
  import opened Scoring

  /** The kinds of real estate a script can target. */
  datatype PropertyType = Novostroyka | Vtorichka | Arenda | Commercial | Mixed {
    function Value(): string {
      match this
      case Novostroyka => "novostroyka"
      case Vtorichka => "vtorichka"
      case Arenda => "arenda"
      case Commercial => "commercial"
      case Mixed => "mixed"
    }

    /** The member name; `PropertyType` is a plain `Enum`, so `str()` gives "PropertyType.<name>". */
    function Name(): string {
      match this
      case Novostroyka => "NOVOSTROYKA"
      case Vtorichka => "VTORICHKA"
      case Arenda => "ARENDA"
      case Commercial => "COMMERCIAL"
      case Mixed => "MIXED"
    }
  }

  /** Distinct property types have distinct values: they differ in the first letter. */
  lemma PropertyTypeValueInjective()
    ensures forall a: PropertyType, b: PropertyType :: a.Value() == b.Value() ==> a == b
  {
    forall a: PropertyType, b: PropertyType | a != b
      ensures a.Value() != b.Value()
    {
      assert a.Value()[0] != b.Value()[0];
    }
  }

  /** A template: a named, described list of questions for one property type. */
  datatype ScriptTemplate = ScriptTemplate(
    propertyType: PropertyType,
    name: string,
    description: string,
    questions: seq<ScriptQuestion>)

  /** A choice question of a template. */
  function ChoiceQ(id: string, order: int, text: string, choices: seq<string>, weight: int, hot: seq<string>): ScriptQuestion {
    ScriptQuestion(id, order, text, Choice, Some(choices), true, weight, Some(hot))
  }

  /** A free-text, optional question of a template. */
  function TextQ(id: string, order: int, text: string, weight: int, hot: seq<string>): ScriptQuestion {
    ScriptQuestion(id, order, text, QuestionType.Text, None, false, weight, Some(hot))
  }

  const Districts: seq<string> := ["Центр", "СЗАО", "САО", "СВАО", "ВАО", "ЮВАО", "ЮАО", "ЮЗАО", "ЗАО", "Не важно"]
  const HotDistricts: seq<string> := ["Центр", "СЗАО", "САО"]

  const NovostroykaTemplate: ScriptTemplate :=
    ScriptTemplate(Novostroyka, "Скрипт для новостроек",
      "Оптимизированный скрипт для работы с клиентами по новостройкам",
      [ ChoiceQ("district", 1, "В каком районе вы рассматриваете покупку квартиры?", Districts, 25, HotDistricts),
        ChoiceQ("budget", 2, "Какой у вас бюджет на покупку квартиры?",
          ["До 5 млн", "5-8 млн", "8-12 млн", "12-20 млн", "Свыше 20 млн", "Не определился"], 30,
          ["8-12 млн", "12-20 млн", "Свыше 20 млн"]),
        ChoiceQ("timeline", 3, "Когда планируете переезжать?",
          ["В течение месяца", "1-3 месяца", "3-6 месяцев", "6-12 месяцев", "Пока не знаю"], 20,
          ["В течение месяца", "1-3 месяца"]),
        ChoiceQ("mortgage", 4, "Планируете ли оформлять ипотеку?",
          ["Да, уже одобрена", "Да, планирую оформить", "Нет, наличными", "Пока не решил"], 15,
          ["Да, уже одобрена", "Да, планирую оформить"]),
        TextQ("new_building_specifics", 5, "Есть ли предпочтения по застройщику или этапу строительства?", 10,
          ["Топ-застройщик", "Готовый дом", "Сдача в этом году"]) ])

  const VtorichkaTemplate: ScriptTemplate :=
    ScriptTemplate(Vtorichka, "Скрипт для вторички",
      "Оптимизированный скрипт для работы с клиентами по вторичному рынку",
      [ ChoiceQ("district", 1, "В каком районе ищете квартиру?", Districts, 20, HotDistricts),
        ChoiceQ("budget", 2, "Какой у вас бюджет на покупку?",
          ["До 8 млн", "8-12 млн", "12-18 млн", "18-25 млн", "Свыше 25 млн", "Не определился"], 25,
          ["12-18 млн", "18-25 млн", "Свыше 25 млн"]),
        ChoiceQ("condition", 3, "Какое состояние квартиры вас интересует?",
          ["Евроремонт", "Хорошее состояние", "Требует ремонта", "Не важно"], 15,
          ["Евроремонт", "Хорошее состояние"]),
        ChoiceQ("urgency", 4, "Насколько срочно нужна квартира?",
          ["Очень срочно (до месяца)", "Срочно (1-2 месяца)", "В течение квартала", "Не спешу"], 20,
          ["Очень срочно (до месяца)", "Срочно (1-2 месяца)"]),
        TextQ("additional_requirements", 5, "Есть ли особые требования к квартире?", 10,
          ["Парковка", "Балкон", "Лоджия", "Консьерж"]),
        ChoiceQ("payment_method", 6, "Как планируете оплачивать покупку?",
          ["Наличными", "Ипотека", "Материнский капитал", "Смешанная оплата"], 10,
          ["Наличными", "Ипотека"]) ])

  const ArendaTemplate: ScriptTemplate :=
    ScriptTemplate(Arenda, "Скрипт для аренды",
      "Оптимизированный скрипт для работы с клиентами по аренде",
      [ ChoiceQ("district", 1, "В каком районе ищете квартиру для аренды?", Districts, 20, HotDistricts),
        ChoiceQ("budget", 2, "Какой у вас бюджет на аренду?",
          ["До 50 тыс", "50-80 тыс", "80-120 тыс", "120-200 тыс", "Свыше 200 тыс"], 25,
          ["80-120 тыс", "120-200 тыс", "Свыше 200 тыс"]),
        ChoiceQ("rental_period", 3, "На какой срок планируете арендовать?",
          ["До 6 месяцев", "6-12 месяцев", "1-2 года", "Долгосрочно (2+ года)"], 15,
          ["1-2 года", "Долгосрочно (2+ года)"]),
        ChoiceQ("urgency", 4, "Когда нужна квартира?",
          ["Срочно (до недели)", "В течение месяца", "В течение 2-3 месяцев", "Пока не спешу"], 20,
          ["Срочно (до недели)", "В течение месяца"]),
        ChoiceQ("family_composition", 5, "Сколько человек будет проживать?",
          ["1 человек", "2 человека", "Семья с детьми", "Студенты/молодые специалисты"], 10,
          ["Семья с детьми", "2 человека"]),
        TextQ("additional_requirements", 6, "Есть ли особые требования к квартире?", 10,
          ["Мебель", "Бытовая техника", "Парковка", "Балкон"]) ])

  const CommercialTemplate: ScriptTemplate :=
    ScriptTemplate(Commercial, "Скрипт для коммерческой недвижимости",
      "Оптимизированный скрипт для работы с клиентами по коммерческой недвижимости",
      [ ChoiceQ("property_type", 1, "Какой тип коммерческой недвижимости вас интересует?",
          ["Офис", "Торговое помещение", "Склад", "Производство", "Другое"], 25,
          ["Офис", "Торговое помещение"]),
        ChoiceQ("district", 2, "В каком районе рассматриваете помещение?",
          ["Центр", "Бизнес-центры", "Торговые центры", "Промзоны", "Не важно"], 20,
          ["Центр", "Бизнес-центры"]),
        ChoiceQ("area", 3, "Какая площадь помещения нужна?",
          ["До 50 кв.м", "50-100 кв.м", "100-300 кв.м", "300-1000 кв.м", "Свыше 1000 кв.м"], 20,
          ["100-300 кв.м", "300-1000 кв.м"]),
        ChoiceQ("budget", 4, "Какой у вас бюджет?",
          ["До 100 тыс/мес", "100-300 тыс/мес", "300-500 тыс/мес", "Свыше 500 тыс/мес"], 25,
          ["300-500 тыс/мес", "Свыше 500 тыс/мес"]),
        ChoiceQ("urgency", 5, "Когда нужно помещение?",
          ["Срочно (до месяца)", "1-3 месяца", "3-6 месяцев", "Планирую заранее"], 10,
          ["Срочно (до месяца)", "1-3 месяца"]) ])

  /** `ScriptTemplateManager`: the registry of templates by property type. */
  datatype TemplateManager = TemplateManager(templates: map<PropertyType, ScriptTemplate>)

  /** Every registered template is filed under its own property type. */
  predicate Consistent(m: TemplateManager) {
    forall pt :: pt in m.templates ==> m.templates[pt].propertyType == pt
  }

  /** `ScriptTemplateManager()`: the four built-in templates; `MIXED` has none. */
  const DefaultManager: TemplateManager := TemplateManager(map[
    Novostroyka := NovostroykaTemplate,
    Vtorichka := VtorichkaTemplate,
    Arenda := ArendaTemplate,
    Commercial := CommercialTemplate])

  /** The registry holds exactly the four non-mixed types, each under its own type. */
  lemma DefaultManagerRegistry()
    ensures forall pt: PropertyType :: pt in DefaultManager.templates <==> pt != Mixed
    ensures Consistent(DefaultManager)
  {
  }

  /** `get_template`: the template registered for the type, `None` otherwise. */
  function GetTemplate(m: TemplateManager, pt: PropertyType): (r: Option<ScriptTemplate>)
    ensures r.Some? <==> pt in m.templates
    ensures Consistent(m) && r.Some? ==> r.value.propertyType == pt
  {
    if pt in m.templates then Some(m.templates[pt]) else None
  }

  /** `get_template_names`: property-type value to template name, for every registered template. */
  function TemplateNames(m: TemplateManager): (names: map<string, string>)
    requires Consistent(m)
    ensures names.Keys == set pt | pt in m.templates :: pt.Value()
    ensures forall pt: PropertyType :: pt.Value() in names <==> pt in m.templates
    ensures forall pt: PropertyType :: pt in m.templates ==> names[pt.Value()] == m.templates[pt].name
  {
    PropertyTypeValueInjective();
    map pt | pt in m.templates :: pt.Value() := m.templates[pt].name
  }

  /** The built-in registry names exactly the four non-mixed types. */
  lemma DefaultTemplateNames()
    ensures Consistent(DefaultManager)
    ensures forall pt: PropertyType :: pt.Value() in TemplateNames(DefaultManager) <==> pt != Mixed
  {
    DefaultManagerRegistry();
  }

  /** The dictionary `create_script_from_template` returns. */
  datatype ScriptData = ScriptData(
    name: string,
    description: string,
    propertyType: string,
    questions: seq<ScriptQuestion>,
    createdBy: int,
    templateType: string)

  /** `create_script_from_template`: the template's data plus its creator; `ValueError` without a template. */
  function CreateScriptFromTemplate(m: TemplateManager, pt: PropertyType, userId: int): (r: Result<ScriptData>)
    ensures r.Failure? <==> pt !in m.templates
    ensures r.Success? ==> r.value.createdBy == userId && r.value.templateType == pt.Value()
    ensures r.Success? ==> r.value.propertyType == m.templates[pt].propertyType.Value()
    ensures r.Success? ==> r.value.questions == m.templates[pt].questions
    ensures r.Success? ==> r.value.name == m.templates[pt].name && r.value.description == m.templates[pt].description
  {
    match GetTemplate(m, pt)
    case None => Failure("ValueError: No template found for property type: PropertyType." + pt.Name())
    case Some(t) => Success(ScriptData(t.name, t.description, t.propertyType.Value(), t.questions, userId, pt.Value()))
  }

  /** From the built-in registry, only `MIXED` fails, naming the member as `str()` prints it, and the script carries its type's value. */
  lemma CreateFromDefault(pt: PropertyType, userId: int)
    ensures CreateScriptFromTemplate(DefaultManager, pt, userId).Failure? <==> pt == Mixed
    ensures pt != Mixed ==> CreateScriptFromTemplate(DefaultManager, pt, userId).value.propertyType == pt.Value()
    ensures pt == Mixed ==>
      CreateScriptFromTemplate(DefaultManager, pt, userId).error == "ValueError: No template found for property type: PropertyType.MIXED"
  {
    DefaultManagerRegistry();
  }

  /* ---------- what every template guarantees ---------- */

  /** Orders run 1..n in list order. */
  predicate OrdersConsecutive(qs: seq<ScriptQuestion>) {
    forall i :: 0 <= i < |qs| ==> qs[i].order == i + 1
  }

  predicate UniqueIds(qs: seq<ScriptQuestion>) {
    forall j, k :: 0 <= j < k < |qs| ==> qs[j].id != qs[k].id
  }

  /** Every hot value of a choice question is one of its choices. */
  predicate HotWithinChoices(q: ScriptQuestion) {
    q.qtype == Choice ==>
      q.choices.Some? && q.hotValues.Some? &&
      forall k :: 0 <= k < |q.hotValues.value| ==> q.hotValues.value[k] in q.choices.value
  }

  /** Every question has at least one hot value. */
  predicate AllHaveHotValues(qs: seq<ScriptQuestion>) {
    forall i :: 0 <= i < |qs| ==> qs[i].hotValues.Some? && |qs[i].hotValues.value| > 0
  }

  function SumWeights(qs: seq<ScriptQuestion>): int {
    if |qs| == 0 then 0 else SumWeights(qs[..|qs| - 1]) + qs[|qs| - 1].weight
  }

  /** Orders 1..n, unique ids, weights within bounds that add up to 100, hot values everywhere. */
  predicate Shaped(qs: seq<ScriptQuestion>) {
    && OrdersConsecutive(qs)
    && UniqueIds(qs)
    && (forall i :: 0 <= i < |qs| ==> ValidWeight(qs[i].weight))
    && AllHaveHotValues(qs)
    && SumWeights(qs) == 100
  }

  predicate ChoicesCoverHot(qs: seq<ScriptQuestion>) {
    forall i :: 0 <= i < |qs| ==> HotWithinChoices(qs[i])
  }

  predicate WellFormed(t: ScriptTemplate) {
    Shaped(t.questions) && ChoicesCoverHot(t.questions)
  }

  /** With every question carrying hot values and a non-negative weight, the hot weight is the weight sum. */
  lemma {:induction false} HotWeightIsSum(qs: seq<ScriptQuestion>)
    requires AllHaveHotValues(qs)
    requires forall i :: 0 <= i < |qs| ==> ValidWeight(qs[i].weight)
    ensures HotWeight(qs) == SumWeights(qs)
  {
    if |qs| > 0 {
      var init := qs[..|qs| - 1];
      assert forall i :: 0 <= i < |init| ==> init[i] == qs[i];
      HotWeightIsSum(init);
    }
  }

  /** Ids that start with pairwise different letters are pairwise different. */
  lemma DistinctInitials(qs: seq<ScriptQuestion>)
    requires forall i :: 0 <= i < |qs| ==> |qs[i].id| > 0
    requires forall j, k :: 0 <= j < k < |qs| ==> qs[j].id[0] != qs[k].id[0]
    ensures UniqueIds(qs)
  {
  }

  /** One step of `SumWeights` over a prefix. */
  lemma SumWeightsStep(qs: seq<ScriptQuestion>, n: nat)
    requires 0 < n <= |qs|
    ensures SumWeights(qs[..n]) == SumWeights(qs[..n - 1]) + qs[n - 1].weight
  {
    assert qs[..n][..n - 1] == qs[..n - 1];
  }

  /** `SumWeights` written out for a list of five or six questions. */
  lemma SumWeightsSmall(qs: seq<ScriptQuestion>)
    requires 5 <= |qs| <= 6
    ensures |qs| == 5 ==> SumWeights(qs) == qs[0].weight + qs[1].weight + qs[2].weight + qs[3].weight + qs[4].weight
    ensures |qs| == 6 ==> SumWeights(qs) == qs[0].weight + qs[1].weight + qs[2].weight + qs[3].weight + qs[4].weight + qs[5].weight
  {
    assert qs[..0] == [];
    SumWeightsStep(qs, 1);
    SumWeightsStep(qs, 2);
    SumWeightsStep(qs, 3);
    SumWeightsStep(qs, 4);
    SumWeightsStep(qs, 5);
    if |qs| == 6 {
      SumWeightsStep(qs, 6);
    }
    assert qs[..|qs|] == qs;
  }

  lemma NovostroykaShaped(qs: seq<ScriptQuestion>)
    requires qs == NovostroykaTemplate.questions
    ensures Shaped(qs)
  {
    assert OrdersConsecutive(qs) && AllHaveHotValues(qs);
    assert forall i :: 0 <= i < |qs| ==> ValidWeight(qs[i].weight);
    DistinctInitials(qs);
    SumWeightsSmall(qs);
  }

  lemma NovostroykaChoicesCoverHot(qs: seq<ScriptQuestion>)
    requires qs == NovostroykaTemplate.questions
    ensures ChoicesCoverHot(qs)
  {
  }

  lemma VtorichkaShaped(qs: seq<ScriptQuestion>)
    requires qs == VtorichkaTemplate.questions
    ensures Shaped(qs)
  {
    assert OrdersConsecutive(qs) && AllHaveHotValues(qs);
    assert forall i :: 0 <= i < |qs| ==> ValidWeight(qs[i].weight);
    DistinctInitials(qs);
    SumWeightsSmall(qs);
  }

  lemma VtorichkaChoicesCoverHot(qs: seq<ScriptQuestion>)
    requires qs == VtorichkaTemplate.questions
    ensures ChoicesCoverHot(qs)
  {
  }

  lemma ArendaShaped(qs: seq<ScriptQuestion>)
    requires qs == ArendaTemplate.questions
    ensures Shaped(qs)
  {
    assert OrdersConsecutive(qs) && AllHaveHotValues(qs);
    assert forall i :: 0 <= i < |qs| ==> ValidWeight(qs[i].weight);
    DistinctInitials(qs);
    SumWeightsSmall(qs);
  }

  lemma ArendaChoicesCoverHot(qs: seq<ScriptQuestion>)
    requires qs == ArendaTemplate.questions
    ensures ChoicesCoverHot(qs)
  {
  }

  lemma CommercialShaped(qs: seq<ScriptQuestion>)
    requires qs == CommercialTemplate.questions
    ensures Shaped(qs)
  {
    assert OrdersConsecutive(qs) && AllHaveHotValues(qs);
    assert forall i :: 0 <= i < |qs| ==> ValidWeight(qs[i].weight);
    DistinctInitials(qs);
    SumWeightsSmall(qs);
  }

  lemma CommercialChoicesCoverHot(qs: seq<ScriptQuestion>)
    requires qs == CommercialTemplate.questions
    ensures ChoicesCoverHot(qs)
  {
  }

  /** Every registered template is well formed. */
  lemma TemplatesWellFormed(pt: PropertyType)
    requires pt in DefaultManager.templates
    ensures WellFormed(DefaultManager.templates[pt])
  {
    var qs := DefaultManager.templates[pt].questions;
    if pt == Novostroyka {
      assert qs == NovostroykaTemplate.questions;
      NovostroykaShaped(qs);
      NovostroykaChoicesCoverHot(qs);
    } else if pt == Vtorichka {
      assert qs == VtorichkaTemplate.questions;
      VtorichkaShaped(qs);
      VtorichkaChoicesCoverHot(qs);
    } else if pt == Arenda {
      assert qs == ArendaTemplate.questions;
      ArendaShaped(qs);
      ArendaChoicesCoverHot(qs);
    } else {
      assert qs == CommercialTemplate.questions;
      CommercialShaped(qs);
      CommercialChoicesCoverHot(qs);
    }
  }

  /** A lead who answers every template question with one of its hot values scores 100 and is hot. */
  lemma AllHotAnswersMakeHotLead(pt: PropertyType, scriptId: string, userId: string)
    requires pt in DefaultManager.templates
    ensures var t := DefaultManager.templates[pt];
      ComputeLeadScore(Script(scriptId, t.name, userId, t.questions), HotAnswers(t.questions)) == (100, Hot)
  {
    var t := DefaultManager.templates[pt];
    TemplatesWellFormed(pt);
    HotAnswersScore(t.questions);
    HotWeightIsSum(t.questions);
  }
}

=== FILE: simple_billing.dfy ===
/**
 * The manual-activation subscription manager of albot/src/simple_billing.py.
 * It is independent of the one in billing.py: its ENTERPRISE allowance is
 * 1000 rather than 500, it has a PENDING status for requested plans, and
 * its dialog gate ignores read-only mode. Every operation reads and writes
 * the subscription table, given as an in-memory map.
 */
module SimpleBilling {
  import opened Wrappers
  import opened Text
  import Billing

  type Tier = Billing.Tier

  datatype Status = Active | Trial | Expired | Cancelled | Pending {
    function Value(): string {
      match this
      case Active => "active"
      case Trial => "trial"
      case Expired => "expired"
      case Cancelled => "cancelled"
      case Pending => "pending"
    }
  }

  /** `UserSubscription` of this manager; instants are seconds. */
  datatype Subscription = Subscription(
    userId: int,
    tier: Tier,
    status: Status,
    trialStart: Option<int>,
    trialEnd: Option<int>,
    dialogsUsed: int,
    dialogsLimit: int,
    createdAt: int,
    expiresAt: Option<int>,
    customBotName: Option<string>,
    customLogoUrl: Option<string>,
    isReadOnly: bool)

  type Store = map<int, Subscription>

  const TrialDays: int := 14
  const Month: int := 30 * Billing.Day

  /** `tier_limits`. */
  function TierLimit(tier: Tier): (r: int)
    ensures tier == Billing.Tier.Trial ==> r == 50
    ensures tier == Billing.Tier.Basic ==> r == 100
    ensures tier == Billing.Tier.Pro ==> r == 300
    ensures tier == Billing.Tier.Enterprise ==> r == 1000
  {
    match tier
    case Trial => 50
    case Basic => 100
    case Pro => 300
    case Enterprise => 1000
  }

  /** The two managers agree on BASIC and PRO but not on ENTERPRISE. */
  lemma LimitsAgainstBilling()
    ensures TierLimit(Billing.Tier.Basic) == Billing.DialogLimit(Billing.Tier.Basic)
    ensures TierLimit(Billing.Tier.Pro) == Billing.DialogLimit(Billing.Tier.Pro)
    ensures TierLimit(Billing.Tier.Enterprise) == 2 * Billing.DialogLimit(Billing.Tier.Enterprise)
  {
  }

  /** `create_trial_subscription`: fourteen days, fifty dialogs, saved under the user's id. */
  function CreateTrialSubscription(store: Store, userId: int, now: int): (r: (Subscription, Store))
    ensures r.0.userId == userId && r.0.tier == Billing.Tier.Trial && r.0.status == Status.Trial
    ensures r.0.trialStart == Some(now) && r.0.trialEnd == Some(now + TrialDays * Billing.Day)
    ensures r.0.expiresAt == r.0.trialEnd && r.0.createdAt == now
    ensures r.0.dialogsUsed == 0 && r.0.dialogsLimit == TierLimit(Billing.Tier.Trial) && !r.0.isReadOnly
    ensures r.1 == store[userId := r.0]
  {
    var trialEnd := now + TrialDays * Billing.Day;
    var s := Subscription(userId, Billing.Tier.Trial, Status.Trial, Some(now), Some(trialEnd),
      0, 50, now, Some(trialEnd), None, None, false);
    (s, store[userId := s])
  }

  /**
   * `request_subscription`: a PENDING subscription for the requested tier
   * replaces the stored one. The notification to the administrator is a
   * side effect outside this model.
   */
  function RequestSubscription(store: Store, userId: int, tier: Tier, now: int): (r: (bool, Store))
    ensures r.0 && userId in r.1
    ensures r.1[userId].status == Status.Pending && r.1[userId].tier == tier
    ensures r.1[userId].dialogsUsed == 0 && r.1[userId].dialogsLimit == TierLimit(tier) && !r.1[userId].isReadOnly
    ensures r.1[userId].expiresAt == Some(now + Month)
    ensures forall u :: u in store && u != userId ==> u in r.1 && r.1[u] == store[u]
  {
    var s := Subscription(userId, tier, Status.Pending, None, None, 0, TierLimit(tier), now,
      Some(now + Month), None, None, false);
    (true, store[userId := s])
  }

  /**
   * `activate_subscription`: a stored subscription gets the tier, ACTIVE,
   * the tier's allowance, a new thirty-day expiry and read-only off; its
   * dialog count is kept. An unknown user gets false.
   */
  function ActivateSubscription(store: Store, userId: int, tier: Tier, now: int): (r: (bool, Store))
    ensures r.0 <==> userId in store
    ensures !r.0 ==> r.1 == store
    ensures r.1.Keys == store.Keys && forall j :: j in store && j != userId ==> r.1[j] == store[j]
    ensures r.0 ==> r.1[userId].tier == tier && r.1[userId].status == Status.Active && r.1[userId].dialogsLimit == TierLimit(tier)
    ensures r.0 ==> r.1[userId].expiresAt == Some(now + Month) && !r.1[userId].isReadOnly && r.1[userId].dialogsUsed == store[userId].dialogsUsed
    ensures r.0 ==> r.1[userId].(tier := store[userId].tier, status := store[userId].status, dialogsLimit := store[userId].dialogsLimit,
      expiresAt := store[userId].expiresAt, isReadOnly := store[userId].isReadOnly) == store[userId]
  {
    if userId !in store then (false, store)
    else
      var s := store[userId];
      (true, store[userId := s.(tier := tier, status := Status.Active, dialogsLimit := TierLimit(tier),
        expiresAt := Some(now + Month), isReadOnly := false)])
  }

  /** `check_dialog_limit`: no subscription counts as exhausted; read-only mode is not consulted. */
  function CheckDialogLimit(store: Store, userId: int): (blocked: bool)
    ensures userId !in store ==> blocked
    ensures userId in store ==> (blocked <==> store[userId].dialogsUsed >= store[userId].dialogsLimit)
  {
    userId !in store || store[userId].dialogsUsed >= store[userId].dialogsLimit
  }

  /** `increment_dialog_count`: one more dialog on a stored subscription; an unknown user gets false. */
  function IncrementDialogCount(store: Store, userId: int): (r: (bool, Store))
    ensures r.0 <==> userId in store
    ensures !r.0 ==> r.1 == store
    ensures r.1.Keys == store.Keys && forall j :: j in store && j != userId ==> r.1[j] == store[j]
    ensures r.0 ==> r.1[userId].dialogsUsed == store[userId].dialogsUsed + 1
    ensures r.0 ==> r.1[userId].(dialogsUsed := store[userId].dialogsUsed) == store[userId]
  {
    if userId !in store then (false, store)
    else (true, store[userId := store[userId].(dialogsUsed := store[userId].dialogsUsed + 1)])
  }

  /** `check_trial_expired`: only a stored TRIAL past its end becomes EXPIRED and read-only. */
  function CheckTrialExpired(store: Store, userId: int, now: int): (r: (bool, Store))
    ensures r.0 <==> (userId in store && store[userId].status == Status.Trial
                      && store[userId].trialEnd.Some? && now > store[userId].trialEnd.value)
    ensures !r.0 ==> r.1 == store
    ensures r.1.Keys == store.Keys && forall j :: j in store && j != userId ==> r.1[j] == store[j]
    ensures r.0 ==> r.1[userId].status == Status.Expired && r.1[userId].isReadOnly
    ensures r.0 ==> r.1[userId].(status := store[userId].status, isReadOnly := store[userId].isReadOnly) == store[userId]
  {
    if userId !in store || store[userId].status != Status.Trial then (false, store)
    else
      var s := store[userId];
      if s.trialEnd.Some? && now > s.trialEnd.value then
        (true, store[userId := s.(status := Status.Expired, isReadOnly := true)])
      else (false, store)
  }

  /* ---------- properties across operations ---------- */

  /** A dialog count only grows, so a blocked user stays blocked by an increment. */
  lemma IncrementKeepsBlock(store: Store, userId: int)
    requires CheckDialogLimit(store, userId)
    ensures CheckDialogLimit(IncrementDialogCount(store, userId).1, userId)
  {
  }

  /** Activation keeps the dialogs already used, so the gate then compares them with the new tier's allowance. */
  lemma ActivationKeepsUsage(store: Store, userId: int, tier: Tier, now: int)
    requires userId in store
    ensures var after := ActivateSubscription(store, userId, tier, now).1;
      after[userId].dialogsUsed == store[userId].dialogsUsed
      && (CheckDialogLimit(after, userId) <==> store[userId].dialogsUsed >= TierLimit(tier))
  {
  }

  /** A requested and then activated plan starts with an open gate. */
  lemma RequestThenActivate(store: Store, userId: int, tier: Tier, now: int, later: int)
    ensures var requested := RequestSubscription(store, userId, tier, now).1;
      var r := ActivateSubscription(requested, userId, tier, later);
      r.0 && r.1[userId].status == Status.Active && !CheckDialogLimit(r.1, userId)
  {
  }

  /**
   * Unlike billing.py, an expired, read-only trial with dialogs left still
   * passes this gate: expiry alone does not block it.
   */
  lemma ExpiredTrialNotBlocked(userId: int, created: int, now: int)
    requires now > created + TrialDays * Billing.Day
    ensures var store := CreateTrialSubscription(map[], userId, created).1;
      var r := CheckTrialExpired(store, userId, now);
      r.0 && r.1[userId].isReadOnly && !CheckDialogLimit(r.1, userId)
  {
  }

  /** Fifty increments exhaust a fresh trial, and no fewer do. */
  lemma {:induction false} TrialExhaustion(store: Store, userId: int, created: int, k: nat)
    ensures var trial := CreateTrialSubscription(store, userId, created).1;
      CheckDialogLimit(IncrementTimes(trial, userId, k), userId) <==> k >= 50
  {
    var trial := CreateTrialSubscription(store, userId, created).1;
    IncrementTimesCount(trial, userId, k);
  }

  /** `k` increments in a row. */
  function IncrementTimes(store: Store, userId: int, k: nat): Store {
    if k == 0 then store else IncrementDialogCount(IncrementTimes(store, userId, k - 1), userId).1
  }

  /** `k` increments add `k` to a stored count and change nothing else. */
  lemma {:induction false} IncrementTimesCount(store: Store, userId: int, k: nat)
    requires userId in store
    ensures var r := IncrementTimes(store, userId, k);
      userId in r && r[userId] == store[userId].(dialogsUsed := store[userId].dialogsUsed + k)
  {
    if k > 0 {
      IncrementTimesCount(store, userId, k - 1);
    }
  }

  /* ---------- info text ---------- */

  /** `tier.value.upper()`. */
  function UpperValue(tier: Tier): (r: string)
    ensures Lower(r) == tier.Value()
    ensures |r| > 0 && 'A' <= r[0] <= 'Z'
  {
    match tier
    case Trial => "TRIAL"
    case Basic => "BASIC"
    case Pro => "PRO"
    case Enterprise => "ENTERPRISE"
  }

  /** `used/limit`. */
  function Usage(s: Subscription): string {
    IntToString(s.dialogsUsed) + "/" + IntToString(s.dialogsLimit)
  }

  const InactiveInfo: string := "Подписка неактивна"

  /**
   * `get_subscription_info`: a trial shows whole days left (0 without an
   * end date) and its usage, an active plan its tier and usage, a pending
   * one the tier awaiting activation, and anything else is inactive.
   */
  function GetSubscriptionInfo(s: Subscription, now: int): (r: string)
    ensures s.status == Status.Trial ==>
      r == "Trial: " + IntToString(if s.trialEnd.Some? then Billing.DaysLeft(s.trialEnd.value, now) else 0)
        + " дней, " + Usage(s) + " диалогов"
    ensures s.status == Status.Active ==> r == UpperValue(s.tier) + ": " + Usage(s) + " диалогов"
    ensures s.status == Status.Pending ==> r == "Ожидает активации: " + UpperValue(s.tier)
    ensures s.status in {Status.Expired, Status.Cancelled} <==> r == InactiveInfo
  {
    match s.status
    case Trial =>
      var daysLeft := if s.trialEnd.Some? then Billing.DaysLeft(s.trialEnd.value, now) else 0;
      "Trial: " + IntToString(daysLeft) + " дней, " + Usage(s) + " диалогов"
    case Active =>
      var text := UpperValue(s.tier) + ": " + Usage(s) + " диалогов";
      assert text[0] == UpperValue(s.tier)[0];
      text
    case Pending => "Ожидает активации: " + UpperValue(s.tier)
    case _ => InactiveInfo
  }
}

=== FILE: text.dfy ===
/**
 * The handful of Python `str` operations the bot's rules are written in:
 * `strip`, `lower`, `isdigit`, `in`, `startswith`, `split`, `count` and
 * decimal conversion. Whitespace and digits are the ASCII ones; lower-casing
 * covers ASCII and the basic Cyrillic alphabet, which is all the column names,
 * keywords and answers of the bot use.
 */
module Text {

  /* ---------- whitespace and `strip` ---------- */

  /** The characters Python's `str.strip()` removes, restricted to ASCII. */
  predicate IsSpace(c: char) {
    c == ' ' || c == '\t' || c == '\n' || c == '\r' || c == '\U{000B}' || c == '\U{000C}'
  }

  /** True when `s` has no leading or trailing whitespace. */
  predicate IsStripped(s: string) {
    s == [] || (!IsSpace(s[0]) && !IsSpace(s[|s| - 1]))
  }

  function TrimLeft(s: string): (r: string)
    ensures |r| <= |s| && r == s[|s| - |r|..]
    ensures forall k :: 0 <= k < |s| - |r| ==> IsSpace(s[k])
    ensures r == [] || !IsSpace(r[0])
  {
    if |s| > 0 && IsSpace(s[0]) then TrimLeft(s[1..]) else s
  }

  function TrimRight(s: string): (r: string)
    ensures |r| <= |s| && r == s[..|r|]
    ensures forall k :: |r| <= k < |s| ==> IsSpace(s[k])
    ensures r == [] || !IsSpace(r[|r| - 1])
  {
    if |s| > 0 && IsSpace(s[|s| - 1]) then TrimRight(s[..|s| - 1]) else s
  }

  /** Python's `s.strip()`: drop leading and trailing whitespace. */
  function Strip(s: string): (r: string)
    ensures IsStripped(r)
    ensures |r| <= |s|
  {
    TrimRight(TrimLeft(s))
  }

  /** `strip` only removes characters: every character of the result is one of the input's. */
  lemma StripKeepsChars(s: string)
    ensures forall k :: 0 <= k < |Strip(s)| ==> Strip(s)[k] in s
  {
    var l := TrimLeft(s);
    var r := TrimRight(l);
    forall k | 0 <= k < |r| ensures r[k] in s {
      assert r[k] == l[k] == s[|s| - |l| + k];
    }
  }

  /** A string without surrounding whitespace is its own `strip()`. */
  lemma StripOfStripped(s: string)
    requires IsStripped(s)
    ensures Strip(s) == s
  {
  }

  /** A leading whitespace character is dropped by `strip`. */
  lemma StripLeadingSpace(s: string)
    requires |s| > 0 && IsSpace(s[0])
    ensures Strip(s) == Strip(s[1..])
  {
  }

  /** `strip` is idempotent. */
  lemma StripIdempotent(s: string)
    ensures Strip(Strip(s)) == Strip(s)
  {
    StripOfStripped(Strip(s));
  }

  /* ---------- case folding ---------- */

  /** Python's `lower()` on one character, for ASCII and basic Cyrillic. */
  function LowerChar(c: char): (r: char)
    ensures 'A' <= c <= 'Z' ==> r as int == c as int + 32
    ensures !('A' <= c <= 'Z') && !('А' <= c <= 'Я') && c != 'Ё' ==> r == c
  {
    if 'A' <= c <= 'Z' then (c as int + 32) as char
    else if 'А' <= c <= 'Я' then (c as int + 32) as char
    else if c == 'Ё' then 'ё'
    else c
  }

  /** Python's `s.lower()`. */
  function Lower(s: string): (r: string)
    ensures |r| == |s|
    ensures forall i :: 0 <= i < |s| ==> r[i] == LowerChar(s[i])
  {
    seq(|s|, i requires 0 <= i < |s| => LowerChar(s[i]))
  }

  /** Lower-casing twice is lower-casing once. */
  lemma LowerIdempotent(s: string)
    ensures Lower(Lower(s)) == Lower(s)
  {
  }

  /* ---------- digits ---------- */

  predicate IsDigit(c: char) {
    '0' <= c <= '9'
  }

  /** `any(ch.isdigit() for ch in s)` */
  predicate HasDigit(s: string) {
    exists i :: 0 <= i < |s| && IsDigit(s[i])
  }

  /** Python's `s.isdigit()`: non-empty and every character a digit. */
  predicate AllDigits(s: string) {
    |s| > 0 && forall i :: 0 <= i < |s| ==> IsDigit(s[i])
  }

  /** `re.sub(r"\D+", "", s)`: the digits of `s`, in order. */
  function Digits(s: string): (r: string)
    ensures |r| <= |s|
    ensures forall i :: 0 <= i < |r| ==> IsDigit(r[i])
    ensures r == [] <==> !HasDigit(s)
  {
    if |s| == 0 then []
    else if IsDigit(s[0]) then [s[0]] + Digits(s[1..])
    else
      var r := Digits(s[1..]);
      assert HasDigit(s[1..]) ==> HasDigit(s) by {
        if HasDigit(s[1..]) {
          var i :| 0 <= i < |s| - 1 && IsDigit(s[1..][i]);
          assert IsDigit(s[i + 1]);
        }
      }
      assert HasDigit(s) ==> HasDigit(s[1..]) by {
        if HasDigit(s) {
          var i :| 0 <= i < |s| && IsDigit(s[i]);
          assert i > 0 && s[1..][i - 1] == s[i];
        }
      }
      r
  }

  /** Taking the digits distributes over concatenation. */
  lemma {:induction false} DigitsAppend(a: string, b: string)
    ensures Digits(a + b) == Digits(a) + Digits(b)
  {
    if |a| > 0 {
      assert (a + b)[0] == a[0] && (a + b)[1..] == a[1..] + b;
      DigitsAppend(a[1..], b);
    } else {
      assert a + b == b;
    }
  }

  /** One character keeps itself exactly when it is a digit. */
  lemma DigitsSingle(c: char)
    ensures Digits([c]) == if IsDigit(c) then [c] else []
  {
    assert [c][1..] == [];
  }

  /** A string made only of digits is its own digit string. */
  lemma {:induction false} DigitsOfDigitString(s: string)
    requires forall i :: 0 <= i < |s| ==> IsDigit(s[i])
    ensures Digits(s) == s
  {
    if |s| > 0 {
      DigitsOfDigitString(s[1..]);
    }
  }

  /** Extracting the digits is idempotent. */
  lemma DigitsIdempotent(s: string)
    ensures Digits(Digits(s)) == Digits(s)
  {
    DigitsOfDigitString(Digits(s));
  }

  /** Non-digits in front of a string do not change its digits. */
  lemma {:induction false} DigitsSkipsNonDigits(p: string, s: string)
    requires forall i :: 0 <= i < |p| ==> !IsDigit(p[i])
    ensures Digits(p + s) == Digits(s)
  {
    if |p| > 0 {
      assert (p + s)[0] == p[0];
      assert (p + s)[1..] == p[1..] + s;
      assert forall i :: 0 <= i < |p| - 1 ==> p[1..][i] == p[i + 1];
      DigitsSkipsNonDigits(p[1..], s);
    } else {
      assert p + s == s;
    }
  }

  /* ---------- substrings ---------- */

  /** Python's `s.startswith(p)`. */
  predicate IsPrefix(p: string, s: string) {
    |p| <= |s| && s[..|p|] == p
  }

  /** Python's `sub in s`. */
  predicate Contains(s: string, sub: string)
    decreases |s|
  {
    IsPrefix(sub, s) || (|s| > 0 && Contains(s[1..], sub))
  }

  /** Python's `s.count(c)` for a single character. */
  function Count(s: string, c: char): (n: nat)
    ensures n <= |s|
    ensures n == 0 <==> c !in s
  {
    if |s| == 0 then 0 else (if s[0] == c then 1 else 0) + Count(s[1..], c)
  }

  /* ---------- split and join ---------- */

  /** Python's `s.split(sep)` for a one-character separator: never empty. */
  function Split(s: string, sep: char): (parts: seq<string>)
    ensures |parts| >= 1
    ensures forall k :: 0 <= k < |parts| ==> sep !in parts[k]
  {
    if |s| == 0 then [""]
    else
      var rest := Split(s[1..], sep);
      if s[0] == sep then [""] + rest
      else [[s[0]] + rest[0]] + rest[1..]
  }

  /** Python's `sep.join(parts)`. */
  function Join(parts: seq<string>, sep: char): string
    requires |parts| >= 1
  {
    if |parts| == 1 then parts[0] else parts[0] + [sep] + Join(parts[1..], sep)
  }

  /** Joining the pieces of a split gives the original string back. */
  lemma {:induction false} JoinSplit(s: string, sep: char)
    ensures Join(Split(s, sep), sep) == s
  {
    if |s| > 0 {
      JoinSplit(s[1..], sep);
      var rest := Split(s[1..], sep);
      if s[0] != sep {
        var parts := [[s[0]] + rest[0]] + rest[1..];
        if |rest| > 1 {
          assert parts[1..] == rest[1..];
          assert Join(rest, sep) == rest[0] + [sep] + Join(rest[1..], sep);
        }
      }
    }
  }

  /** Splitting a join of separator-free pieces gives the pieces back. */
  lemma {:induction false} SplitJoin(parts: seq<string>, sep: char)
    requires |parts| >= 1
    requires forall k :: 0 <= k < |parts| ==> sep !in parts[k]
    ensures Split(Join(parts, sep), sep) == parts
    decreases |parts|, |parts[0]|
  {
    var p := parts[0];
    if |p| == 0 {
      if |parts| > 1 {
        SplitJoin(parts[1..], sep);
        var s := Join(parts, sep);
        assert s == [sep] + Join(parts[1..], sep);
        assert s[1..] == Join(parts[1..], sep);
      }
    } else {
      var tail := [p[1..]] + parts[1..];
      assert tail[1..] == parts[1..];
      SplitJoin(tail, sep);
      var s := Join(parts, sep);
      if |parts| > 1 {
        assert Join(tail, sep) == p[1..] + [sep] + Join(parts[1..], sep);
        assert s == [p[0]] + Join(tail, sep);
      } else {
        assert s == [p[0]] + Join(tail, sep);
      }
      assert s[1..] == Join(tail, sep);
      assert p[0] != sep by { assert p[0] in parts[0]; }
      assert [p[0]] + p[1..] == p;
      assert parts == [p] + parts[1..];
    }
  }

  /* ---------- decimal numbers ---------- */

  function DigitChar(d: nat): (c: char)
    requires d < 10
    ensures IsDigit(c)
  {
    ('0' as int + d) as char
  }

  function DigitValue(c: char): (d: nat)
    requires IsDigit(c)
    ensures d < 10
  {
    c as int - '0' as int
  }

  /** Python's `s[:n]`: the first `n` characters, or all of a shorter string. */
  function Take(s: string, n: nat): (r: string)
    ensures |r| == if |s| <= n then |s| else n
    ensures IsPrefix(r, s)
    ensures |s| <= n ==> r == s
  {
    if |s| <= n then s else s[..n]
  }

  /** Python's `str(n)` for a natural number. */
  function NatToString(n: nat): (s: string)
    ensures AllDigits(s)
  {
    if n < 10 then [DigitChar(n)] else NatToString(n / 10) + [DigitChar(n % 10)]
  }

  /** Python's `str(n)` for any integer. */
  function IntToString(n: int): string {
    if n < 0 then "-" + NatToString(-n) else NatToString(n)
  }

  /** Python's `int(s)` for a string of digits. */
  function ParseDigits(s: string): nat
    requires forall i :: 0 <= i < |s| ==> IsDigit(s[i])
  {
    if |s| == 0 then 0 else ParseDigits(s[..|s| - 1]) * 10 + DigitValue(s[|s| - 1])
  }

  /** Reading back the decimal form of `n` gives `n`. */
  lemma {:induction false} ParseNatToString(n: nat)
    ensures ParseDigits(NatToString(n)) == n
  {
    if n >= 10 {
      ParseNatToString(n / 10);
      var s := NatToString(n);
      assert s[..|s| - 1] == NatToString(n / 10);
    }
  }
}

=== FILE: user_roles.dfy ===
/**
 * Roles and permissions of albot/src/user_roles.py: the fixed table of
 * permissions per role, who may assign which role, and lead access. The
 * user and lead tables are in-memory maps; any failed lookup makes the
 * source fall back to AGENT (for roles) or to refusal (for leads).
 */
module UserRoles {
  import opened Wrappers

  datatype Role = Admin | Manager | Agent | Viewer {
    function Value(): string {
      match this
      case Admin => "admin"
      case Manager => "manager"
      case Agent => "agent"
      case Viewer => "viewer"
    }
  }

  /** `UserRole(s)`: the role with that value, if any. */
  function RoleFromValue(s: string): (r: Option<Role>)
    ensures r.Some? ==> r.value.Value() == s
    ensures r.None? ==> forall role: Role :: role.Value() != s
  {
    if s == "admin" then Some(Admin)
    else if s == "manager" then Some(Manager)
    else if s == "agent" then Some(Agent)
    else if s == "viewer" then Some(Viewer)
    else None
  }

  /** Every role reads back from its value. */
  lemma RoleRoundTrip(r: Role)
    ensures RoleFromValue(r.Value()) == Some(r)
  {
  }

  datatype Permission =
    | ViewLeads | CreateLeads | EditLeads | DeleteLeads
    | ViewScripts | CreateScripts | EditScripts | DeleteScripts
    | ViewAnalytics | ExportData
    | ViewSettings | EditSettings | ManageIntegrations
    | ViewUsers | ManageUsers | ManageRoles
    | ViewBilling | ManageBilling

  const AdminPermissions: seq<Permission> := [
    ViewLeads, CreateLeads, EditLeads, DeleteLeads,
    ViewScripts, CreateScripts, EditScripts, DeleteScripts,
    ViewAnalytics, ExportData,
    ViewSettings, EditSettings, ManageIntegrations,
    ViewUsers, ManageUsers, ManageRoles,
    ViewBilling, ManageBilling]

  const ManagerPermissions: seq<Permission> := [
    ViewLeads, CreateLeads, EditLeads,
    ViewScripts, CreateScripts, EditScripts,
    ViewAnalytics, ExportData,
    ViewSettings, EditSettings, ManageIntegrations,
    ViewUsers, ViewBilling]

  const AgentPermissions: seq<Permission> := [ViewLeads, CreateLeads, EditLeads, ViewScripts, ViewAnalytics]

  const ViewerPermissions: seq<Permission> := [ViewLeads, ViewScripts, ViewAnalytics]

  /** `role_permissions[role]`. */
  function RolePermissions(role: Role): seq<Permission>
  {
    match role
    case Admin => AdminPermissions
    case Manager => ManagerPermissions
    case Agent => AgentPermissions
    case Viewer => ViewerPermissions
  }

  /** The permissions only ADMIN's list carries. */
  const AdminOnly: set<Permission> := {DeleteLeads, DeleteScripts, ManageUsers, ManageRoles, ManageBilling}

  /** No list but ADMIN's carries a permission of `AdminOnly`. */
  lemma AdminOnlyLists(role: Role)
    requires role != Admin
    ensures DeleteLeads !in RolePermissions(role) && DeleteScripts !in RolePermissions(role)
    ensures ManageUsers !in RolePermissions(role) && ManageRoles !in RolePermissions(role)
    ensures ManageBilling !in RolePermissions(role)
  {
    match role
    case Manager =>
      assert forall i :: 0 <= i < |ManagerPermissions| ==> ManagerPermissions[i] !in AdminOnly;
    case Agent =>
    case Viewer =>
  }

  /** Every role's list carries the three view permissions of leads, scripts and analytics. */
  lemma ViewsInEveryList(role: Role)
    ensures ViewLeads in RolePermissions(role) && ViewScripts in RolePermissions(role)
    ensures ViewAnalytics in RolePermissions(role)
  {
    match role
    case Admin =>
      assert AdminPermissions[0] == ViewLeads && AdminPermissions[4] == ViewScripts && AdminPermissions[8] == ViewAnalytics;
    case Manager =>
      assert ManagerPermissions[0] == ViewLeads && ManagerPermissions[3] == ViewScripts && ManagerPermissions[6] == ViewAnalytics;
    case Agent =>
      assert AgentPermissions[0] == ViewLeads && AgentPermissions[3] == ViewScripts && AgentPermissions[4] == ViewAnalytics;
    case Viewer =>
      assert ViewerPermissions[0] == ViewLeads && ViewerPermissions[1] == ViewScripts && ViewerPermissions[2] == ViewAnalytics;
  }

  /** ADMIN's list carries every permission of `AdminOnly`. */
  lemma AdminOnlyInAdminList()
    ensures forall p :: p in AdminOnly ==> p in AdminPermissions
  {
    assert AdminPermissions[3] == DeleteLeads && AdminPermissions[7] == DeleteScripts;
    assert AdminPermissions[14] == ManageUsers && AdminPermissions[15] == ManageRoles && AdminPermissions[17] == ManageBilling;
  }

  /**
   * What the role lists have in common: every role may view leads, scripts
   * and analytics, and deleting, user, role and billing management belong
   * to ADMIN's list alone.
   */
  lemma ListsCarry(role: Role, p: Permission)
    ensures p in {ViewLeads, ViewScripts, ViewAnalytics} ==> p in RolePermissions(role)
    ensures p in AdminOnly ==> (p in RolePermissions(role) <==> role == Admin)
  {
    ViewsInEveryList(role);
    if role == Admin {
      AdminOnlyInAdminList();
    } else {
      AdminOnlyLists(role);
    }
  }

  /**
   * `check_permission`: membership in the role's list. The VIEWER
   * permissions are granted to every role, and deleting, user, role and
   * billing management to ADMIN alone.
   */
  predicate CheckPermission(role: Role, p: Permission): (b: bool)
    ensures p in {ViewLeads, ViewScripts, ViewAnalytics} ==> b
    ensures p in AdminOnly ==> (b <==> role == Admin)
  {
    ListsCarry(role, p);
    p in RolePermissions(role)
  }

  /** ADMIN holds all eighteen permissions, each listed once. */
  lemma AdminHoldsAll()
    ensures |AdminPermissions| == 18
    ensures forall i, j :: 0 <= i < j < |AdminPermissions| ==> AdminPermissions[i] != AdminPermissions[j]
    ensures forall p: Permission :: CheckPermission(Admin, p)
  {
    forall p: Permission ensures CheckPermission(Admin, p) {
      match p
      case ViewLeads => case CreateLeads => case EditLeads => case DeleteLeads =>
      case ViewScripts => case CreateScripts => case EditScripts => case DeleteScripts =>
      case ViewAnalytics => case ExportData =>
      case ViewSettings => case EditSettings => case ManageIntegrations =>
      case ViewUsers => case ManageUsers => case ManageRoles =>
      case ViewBilling => case ManageBilling =>
    }
  }

  /** Every VIEWER permission is an AGENT permission. */
  lemma ViewerWithinAgent(p: Permission)
    ensures CheckPermission(Viewer, p) ==> CheckPermission(Agent, p)
  {
    assert ViewerPermissions == [AgentPermissions[0], AgentPermissions[3], AgentPermissions[4]];
  }

  /** Every AGENT permission is a MANAGER permission. */
  lemma AgentWithinManager(p: Permission)
    ensures CheckPermission(Agent, p) ==> CheckPermission(Manager, p)
  {
    assert AgentPermissions == [ManagerPermissions[0], ManagerPermissions[1], ManagerPermissions[2], ManagerPermissions[3], ManagerPermissions[6]];
  }

  /** Every MANAGER permission is an ADMIN permission. */
  lemma ManagerWithinAdmin(p: Permission)
    ensures CheckPermission(Manager, p) ==> CheckPermission(Admin, p)
  {
    var a := AdminPermissions;
    assert ManagerPermissions == [a[0], a[1], a[2], a[4], a[5], a[6], a[8], a[9], a[10], a[11], a[12], a[13], a[16]];
  }

  /** The permission sets are nested: VIEWER within AGENT within MANAGER within ADMIN, each strictly. */
  lemma PermissionsNested(p: Permission)
    ensures CheckPermission(Viewer, p) ==> CheckPermission(Agent, p)
    ensures CheckPermission(Agent, p) ==> CheckPermission(Manager, p)
    ensures CheckPermission(Manager, p) ==> CheckPermission(Admin, p)
    ensures CheckPermission(Agent, CreateLeads) && !CheckPermission(Viewer, CreateLeads)
    ensures CheckPermission(Manager, CreateScripts) && !CheckPermission(Agent, CreateScripts)
    ensures CheckPermission(Admin, ManageUsers) && !CheckPermission(Manager, ManageUsers)
  {
    ViewerWithinAgent(p);
    AgentWithinManager(p);
    ManagerWithinAdmin(p);
    assert CheckPermission(Agent, CreateLeads) && !CheckPermission(Viewer, CreateLeads) by {
      assert AgentPermissions[1] == CreateLeads;
    }
    assert CheckPermission(Manager, CreateScripts) && !CheckPermission(Agent, CreateScripts) by {
      assert ManagerPermissions[4] == CreateScripts;
    }
  }

  /** What only an administrator may do: user, role and billing management and deletions. */
  lemma AdminOnlyPermissions(role: Role)
    requires role != Admin
    ensures !CheckPermission(role, ManageUsers) && !CheckPermission(role, ManageRoles)
    ensures !CheckPermission(role, ManageBilling)
    ensures !CheckPermission(role, DeleteLeads) && !CheckPermission(role, DeleteScripts)
  {
  }

  /** `get_available_roles`: the roles the current role may hand out. */
  function GetAvailableRoles(current: Role): (r: seq<Role>)
    ensures Admin !in r
    ensures current !in {Admin, Manager} <==> r == []
    ensures current == Admin ==> r == [Manager, Agent, Viewer]
    ensures current == Manager ==> r == [Agent, Viewer]
  {
    match current
    case Admin => [Manager, Agent, Viewer]
    case Manager => [Agent, Viewer]
    case _ => []
  }

  /** `can_manage_user`: ADMIN manages everyone, MANAGER only agents and viewers. */
  predicate CanManageUser(manager: Role, target: Role)
    ensures CanManageUser(manager, target) <==> manager == Admin || (manager == Manager && target in {Agent, Viewer})
    ensures CanManageUser(manager, target) ==> CheckPermission(manager, ManageUsers) || manager == Manager
    ensures CanManageUser(manager, target) && target != Admin ==>
      !CheckPermission(target, CreateScripts) || manager == Admin
  {
    match manager
    case Admin => true
    case Manager => target in {Agent, Viewer}
    case _ => false
  }

  /**
   * The offered roles are exactly the manageable ones, except ADMIN: an
   * administrator may manage another administrator but is never offered
   * the role.
   */
  lemma AvailableMatchesManageable(manager: Role, target: Role)
    ensures target in GetAvailableRoles(manager) ==> CanManageUser(manager, target)
    ensures CanManageUser(manager, target) && target != Admin ==> target in GetAvailableRoles(manager)
    ensures CanManageUser(Admin, Admin)
  {
  }

  /** Manageability follows the permission order: whoever is managed holds no more than the manager. */
  lemma ManagedHoldLess(manager: Role, target: Role, p: Permission)
    requires CanManageUser(manager, target) && target != Admin
    ensures CheckPermission(target, p) ==> CheckPermission(manager, p)
  {
    PermissionsNested(p);
  }

  /** The user table: a stored user may or may not have a `role` field. */
  type Users = map<int, Option<string>>

  /**
   * `get_user_role`: a missing field reads as "agent"; a missing user or
   * an unknown value raises inside the `try`, which also yields AGENT.
   */
  function GetUserRole(users: Users, userId: int): (r: Role)
    ensures r != Agent ==> userId in users && users[userId] == Some(r.Value())
    ensures userId in users && users[userId].Some? && RoleFromValue(users[userId].value).Some?
      ==> r == RoleFromValue(users[userId].value).value
  {
    if userId in users && users[userId].Some? then
      match RoleFromValue(users[userId].value)
      case Some(role) => role
      case None => Agent
    else Agent
  }

  /**
   * `set_user_role`: refused, with nothing written, unless the assigner's
   * role may manage the requested role; otherwise the role's value is
   * stored for the user.
   */
  function SetUserRole(users: Users, userId: int, role: Role, assignedBy: int): (r: (bool, Users))
    ensures r.0 <==> CanManageUser(GetUserRole(users, assignedBy), role)
    ensures !r.0 ==> r.1 == users
    ensures r.0 ==> r.1 == users[userId := Some(role.Value())]
  {
    if !CanManageUser(GetUserRole(users, assignedBy), role) then (false, users)
    else (true, users[userId := Some(role.Value())])
  }

  /** An accepted assignment reads back as the assigned role; an unknown assigner can assign nothing. */
  lemma SetRoleReadsBack(users: Users, userId: int, role: Role, assignedBy: int)
    ensures SetUserRole(users, userId, role, assignedBy).0 ==>
      GetUserRole(SetUserRole(users, userId, role, assignedBy).1, userId) == role
    ensures assignedBy !in users ==> !SetUserRole(users, userId, role, assignedBy).0
  {
    RoleRoundTrip(role);
  }

  /** Nobody but an administrator can create an administrator or a manager. */
  lemma OnlyAdminsPromote(users: Users, userId: int, role: Role, assignedBy: int)
    requires role in {Admin, Manager}
    requires SetUserRole(users, userId, role, assignedBy).0
    ensures GetUserRole(users, assignedBy) == Admin
  {
  }

  /** The lead table: each stored lead has an optional `created_by`. */
  type Leads = map<string, Option<int>>

  /**
   * `can_access_lead`. The lead is fetched before the role is looked at,
   * so a missing lead is refused to everyone; otherwise only an agent is
   * restricted, to the leads it created.
   */
  function CanAccessLead(users: Users, leads: Leads, userId: int, leadId: string): (r: bool)
    ensures leadId !in leads ==> !r
    ensures leadId in leads && GetUserRole(users, userId) != Agent ==> r
    ensures leadId in leads && GetUserRole(users, userId) == Agent ==> (r <==> leads[leadId] == Some(userId))
  {
    if leadId !in leads then false
    else
      match GetUserRole(users, userId)
      case Admin => true
      case Manager => true
      case Agent => leads[leadId] == Some(userId)
      case Viewer => true
  }

  /** Every user, whatever their role, can reach the leads they created. */
  lemma OwnLeadsAccessible(users: Users, leads: Leads, userId: int, leadId: string)
    requires leadId in leads && leads[leadId] == Some(userId)
    ensures CanAccessLead(users, leads, userId, leadId)
  {
  }

  /**
   * `get_role_management_ui` reduced to its decision: refused without the
   * MANAGE_USERS permission, otherwise the list of assignable roles.
   */
  function RoleManagement(users: Users, userId: int): (r: Option<seq<Role>>)
    ensures r.Some? <==> GetUserRole(users, userId) == Admin
    ensures r.Some? ==> r.value == [Manager, Agent, Viewer]
  {
    var role := GetUserRole(users, userId);
    if !CheckPermission(role, ManageUsers) then None else Some(GetAvailableRoles(role))
  }
}

=== FILE: utils.dfy ===
/**
 * The contact helpers of albot/src/utils.py: normalising a Russian phone
 * number to "+7…", and masking phones and e-mail addresses for display.
 * A Python `None` argument is `None` here; `x or ""` turns it into "".
 */
module Utils {
  import opened Wrappers
  import opened Text

  /** `s or ""`. */
  function OrEmpty(s: Option<string>): string {
    if s.Some? then s.value else ""
  }

  /** The digit string after the Russian rewrites: 8XXXXXXXXXX becomes 7XXXXXXXXXX, 9XXXXXXXXX gains a leading 7. */
  function RuDigits(d: string): (r: string)
    ensures |d| == 11 && d[0] == '8' ==> r == "7" + d[1..]
    ensures |d| == 10 && d[0] == '9' ==> r == "7" + d
    ensures !(|d| == 11 && d[0] == '8') && !(|d| == 10 && d[0] == '9') ==> r == d
  {
    if |d| == 11 && d[0] == '8' then "7" + d[1..]
    else if |d| == 10 && d[0] == '9' then "7" + d
    else d
  }

  /**
   * `normalize_phone_to_ru`: "" when the input has no digit, otherwise "+"
   * and the digits, rewritten to the Russian 7-prefix form where they
   * look like a Russian number.
   */
  function NormalizePhone(raw: Option<string>): (r: string)
    ensures r == "" <==> !HasDigit(OrEmpty(raw))
    ensures r != "" ==> r[0] == '+' && AllDigits(r[1..]) && r[1..] == RuDigits(Digits(OrEmpty(raw)))
  {
    var digits := Digits(OrEmpty(raw));
    if digits == "" then ""
    else
      var d := RuDigits(digits);
      assert AllDigits(d) by {
        assert forall i :: 0 <= i < |d| ==> IsDigit(d[i]);
      }
      "+" + d
  }

  /** The rewrite does not apply to its own output. */
  lemma RuDigitsIdempotent(d: string)
    requires AllDigits(d)
    ensures RuDigits(RuDigits(d)) == RuDigits(d)
  {
  }

  /** Normalising a normalised number changes nothing. */
  lemma NormalizeIdempotent(raw: Option<string>)
    ensures NormalizePhone(Some(NormalizePhone(raw))) == NormalizePhone(raw)
  {
    var n := NormalizePhone(raw);
    if n != "" {
      var d := n[1..];
      assert n == "+" + d;
      DigitsSkipsNonDigits("+", d);
      DigitsOfDigitString(d);
      assert Digits(n) == d;
      RuDigitsIdempotent(Digits(OrEmpty(raw)));
    }
  }

  /** A string of digits normalises to "+" and its rewritten digits. */
  lemma NormalizeDigitString(d: string)
    requires AllDigits(d)
    ensures NormalizePhone(Some(d)) == "+" + RuDigits(d)
  {
    DigitsOfDigitString(d);
  }

  /** The usual spellings of one Russian mobile number normalise alike. */
  lemma RussianSpellings(national: string)
    requires |national| == 10 && national[0] == '9' && AllDigits(national)
    ensures NormalizePhone(Some("8" + national)) == "+7" + national
    ensures NormalizePhone(Some("7" + national)) == "+7" + national
    ensures NormalizePhone(Some(national)) == "+7" + national
  {
    assert NormalizePhone(Some("8" + national)) == "+7" + national by {
      assert AllDigits("8" + national) && ("8" + national)[1..] == national;
      NormalizeDigitString("8" + national);
    }
    assert NormalizePhone(Some("7" + national)) == "+7" + national by {
      assert AllDigits("7" + national);
      NormalizeDigitString("7" + national);
    }
    NormalizeDigitString(national);
  }

  /** The normal form depends only on the digits. */
  lemma NormalizeByDigits(raw: Option<string>, d: string)
    requires Digits(OrEmpty(raw)) == d && d != ""
    ensures NormalizePhone(raw) == "+" + RuDigits(d)
  {
    var r := NormalizePhone(raw);
    assert r != "";
    assert r == [r[0]] + r[1..];
  }

  /** Punctuation in front of a number does not change its normal form. */
  lemma NormalizeSkipsNonDigits(p: string, s: string)
    requires forall i :: 0 <= i < |p| ==> !IsDigit(p[i])
    ensures NormalizePhone(Some(p + s)) == NormalizePhone(Some(s))
  {
    DigitsSkipsNonDigits(p, s);
  }

  /** Separators anywhere inside a number, such as "(", ")", " " or "-", do not change its normal form. */
  lemma NormalizeIgnoresSeparators(a: string, p: string, b: string)
    requires forall i :: 0 <= i < |p| ==> !IsDigit(p[i])
    ensures NormalizePhone(Some(a + p + b)) == NormalizePhone(Some(a + b))
  {
    assert Digits(a + p + b) == Digits(a + b) by {
      DigitsAppend(a + p, b);
      DigitsAppend(a, p);
      DigitsAppend(a, b);
      DigitsSkipsNonDigits(p, "");
      assert p + "" == p;
    }
    var d := Digits(a + b);
    if d != "" {
      NormalizeByDigits(Some(a + p + b), d);
      NormalizeByDigits(Some(a + b), d);
    }
  }

  /**
   * `mask_phone`: fewer than six digits leave the input as it was ("" for
   * `None`); otherwise "+", the first digit, "***" and the last four.
   */
  function MaskPhone(phone: Option<string>): (r: string)
    ensures |Digits(OrEmpty(phone))| < 6 ==> r == OrEmpty(phone)
    ensures var d := Digits(OrEmpty(phone));
      |d| >= 6 ==> |r| == 9 && r[0] == '+' && r[1] == d[0] && r[2..5] == "***" && r[5..] == d[|d| - 4..]
  {
    var d := Digits(OrEmpty(phone));
    if |d| < 6 then OrEmpty(phone)
    else "+" + d[..1] + "***" + d[|d| - 4..]
  }

  /** A masked Russian number shows the country code 7 and its last four digits, whatever its spelling. */
  lemma MaskOfNormalized(raw: Option<string>)
    requires var d := Digits(OrEmpty(raw)); (|d| == 11 && d[0] in "78") || (|d| == 10 && d[0] == '9')
    ensures var d := Digits(OrEmpty(raw)); MaskPhone(Some(NormalizePhone(raw))) == "+7***" + d[|d| - 4..]
  {
    var d := Digits(OrEmpty(raw));
    var e := RuDigits(d);
    assert |e| == 11 && e[0] == '7' && e[7..] == d[|d| - 4..];
    var n := NormalizePhone(raw);
    assert n != "" by {
      assert d != "";
    }
    assert n == "+" + e by {
      assert n == [n[0]] + n[1..];
    }
    MaskRussian(e);
  }

  /** Masking "+7" and ten more digits keeps the 7 and the last four digits. */
  lemma MaskRussian(e: string)
    requires |e| == 11 && e[0] == '7' && AllDigits(e)
    ensures MaskPhone(Some("+" + e)) == "+7***" + e[7..]
  {
    var p := "+" + e;
    assert Digits(p) == e by {
      DigitsSkipsNonDigits("+", e);
      DigitsOfDigitString(e);
    }
    assert MaskPhone(Some(p)) == "+" + e[..1] + "***" + e[7..];
    assert e[..1] == "7";
  }

  /** The index of the first '@', if any. */
  function FirstAt(s: string): (r: Option<nat>)
    ensures r.None? <==> '@' !in s
    ensures r.Some? ==> r.value < |s| && s[r.value] == '@' && '@' !in s[..r.value]
  {
    if |s| == 0 then None
    else if s[0] == '@' then Some(0)
    else
      match FirstAt(s[1..])
      case None => None
      case Some(i) =>
        assert s[..i + 1] == [s[0]] + s[1..][..i];
        Some(i + 1)
  }

  /**
   * `mask_email`: without an '@' the input comes back ("" for `None`);
   * otherwise the part before the first '@' is masked to its first
   * character and "*" (up to two characters) or first, "***" and last.
   * An empty part before the '@' makes `name[0]` raise an IndexError.
   */
  function MaskEmail(email: Option<string>): (r: Result<string>)
    ensures '@' !in OrEmpty(email) ==> r == Success(OrEmpty(email))
    ensures r.Failure? <==> FirstAt(OrEmpty(email)) == Some(0)
    ensures var s := OrEmpty(email); r.Success? && '@' in s ==>
      var i := FirstAt(s).value; var name := s[..i];
      && (|name| <= 2 ==> r.value == [name[0]] + "*" + s[i..])
      && (|name| > 2 ==> r.value == [name[0]] + "***" + [name[|name| - 1]] + s[i..])
  {
    var s := OrEmpty(email);
    match FirstAt(s)
    case None => Success(s)
    case Some(i) =>
      var name := s[..i];
      var domain := s[i + 1..];
      if |name| == 0 then Failure("IndexError: string index out of range")
      else
        var masked := if |name| <= 2 then [name[0]] + "*" else [name[0]] + "***" + [name[|name| - 1]];
        assert s[i..] == "@" + domain;
        Success(masked + "@" + domain)
  }

  /** Masking keeps everything from the first '@' on, and that '@' stays the first one. */
  lemma MaskEmailKeepsDomain(email: Option<string>)
    requires MaskEmail(email).Success? && '@' in OrEmpty(email)
    ensures var s := OrEmpty(email); var r := MaskEmail(email).value;
      FirstAt(r).Some? && r[FirstAt(r).value..] == s[FirstAt(s).value..]
  {
    var s := OrEmpty(email);
    var i := FirstAt(s).value;
    var name := s[..i];
    var r := MaskEmail(email).value;
    var masked := if |name| <= 2 then [name[0]] + "*" else [name[0]] + "***" + [name[|name| - 1]];
    assert name[0] == s[0] && name[|name| - 1] == s[i - 1];
    assert '@' !in masked;
    assert r == masked + s[i..];
    assert r[|masked|] == '@';
    assert r[..|masked|] == masked;
    assert FirstAt(r) == Some(|masked|) by {
      FirstAtPrefix(masked, s[i..]);
    }
  }

  /** The first '@' of a string whose prefix has none is the first '@' of the rest, shifted. */
  lemma {:induction false} FirstAtPrefix(p: string, s: string)
    requires '@' !in p && |s| > 0 && s[0] == '@'
    ensures FirstAt(p + s) == Some(|p|)
  {
    if |p| > 0 {
      assert (p + s)[1..] == p[1..] + s;
      FirstAtPrefix(p[1..], s);
    } else {
      assert p + s == s;
    }
  }

  /** Masking a masked address gives it back when the masked name is at most two characters. */
  lemma MaskShortNameStable(email: Option<string>)
    requires MaskEmail(email).Success? && '@' in OrEmpty(email)
    requires FirstAt(OrEmpty(email)).value <= 2
    ensures MaskEmail(Some(MaskEmail(email).value)) == MaskEmail(email)
  {
    var s := OrEmpty(email);
    var i := FirstAt(s).value;
    var r := MaskEmail(email).value;
    assert r == [s[0]] + "*" + s[i..];
    FirstAtPrefix([s[0]] + "*", s[i..]);
    assert r[..2] == [s[0]] + "*";
    assert r[2..] == s[i..];
  }
}

=== FILE: wrappers.dfy ===
/** Failure-compatible result types shared by every module of the model. */
module Wrappers {

  /** A value that may be absent (Python's `Optional`, `None`). */
  datatype Option<+T> = None | Some(value: T) {

    /** The wrapped value, or `default` when absent. */
    function GetOr(default: T): T {
      match this
      case Some(v) => v
      case None => default
    }
  }

  /** Either a value or the message of the exception the source raises instead. */
  datatype Result<+T> = Success(value: T) | Failure(error: string)
}
